=== FILE: README.md ===
# Certification dashboard: a verified model of its data logic

This project is a Dafny model of the logic behind a React and Firebase
dashboard. Community managers use the dashboard to follow developers through
a certification course. Every developer record carries an identifier (an
e-mail address), a community code, a country, a certification progress
between 0 and 100, enrolment and completion times, and subscription and
membership flags. The dashboard has five parts:

- It reads such records from CSV files or from the cloud store.
- It scopes them by the signed-in user's role.
- It aggregates them per community: counts, average progress, completion
  days, rapid completions, ranking and growth series.
- It compares a community with its previous period and with its peers.
- It drives a set of screens with small list and string operations: search
  filters, allow-list edits, e-mail template tags, the tab bar and date
  inputs.

Times are integer milliseconds since the epoch. A UTC day is
`t / 86400000`; Dafny's floor division agrees with the JavaScript UTC day for
negative times too. Local time is UTC plus a fixed offset `offset`, which is
a parameter. Averages and percentages are exact `real`s. Every screen
computation is a pure function over immutable datatypes. Browser and cloud
effects are modelled as the values they compute: the new map of stored
records, or the request a button sends.

The modules follow the program:

- **`Model`**: the shared records.
- **Basic libraries**:
  - `Wrappers`: option and result types.
  - `Seqs`: filter, count, sums, flat-map and dedupe, with their lemmas.
  - `Strings`: trim, ASCII case mapping, split and join, replace-all, integer
    text.
  - `Sorting`: a stable descending insertion sort by a real key, top-k, and a
    strict string order.
  - `Calendar`: the ECMAScript day and civil-date arithmetic, and the local
    start and end of a day.
  - `JsObject`: the order in which `Object.values` visits keys.
  - `Timeline`: enrolment days and cumulative counts.
- **Hooks and components**: one module each for the hooks
  (`CommunityData`, `DeveloperMetrics`, `CloudStorage`, `Filters`) and for
  the components (`FileUpload`, `CommunityReport`, `App`, `CodeManagers`,
  `AdminPanel`, `EmailManager`, `CommunityUpload`, `MembershipDashboard`,
  `MetricsDashboard`, `ParticipantsList`, `EventsDashboard`,
  `ReportGenerator`, `TabNavigation`, `FilterControls`).

Where the written design and the code differ, the model follows the code:

- The AM/PM repair takes the value 12 hours later only when that value is
  strictly after the enrolment.
- `'+'` is looked for in the whole identifier, not just its local part.
- The e-mail domain is the second `'@'`-separated segment only.
- Communities come out in `Object.values` order before the stable sort by
  size. That order lists integer-like codes first, ascending, and the other
  codes in order of first appearance.
- The date range is not seeded only once. The seeding effect watches the
  start bound, so clearing the start input seeds both bounds again and
  discards an end date the user picked (`Filters.ClearFromReseeds`).

## Model

| member | source | states |
|---|---|---|
| CommunityData.FilterByDate | hooks/useCommunityData.ts:18-25 | the records kept are exactly those within both bounds, in input order, each as often as in the input |
| CommunityData.FalsyBoundIsAbsent | hooks/useCommunityData.ts:22-23 | a bound of 0 ms or an invalid date filters exactly as a missing bound does |
| CommunityData.CompletionDays | hooks/useCommunityData.ts:56-57 | the completion days are the least whole number of days covering the absolute time from enrolment to completion |
| CommunityData.AverageCompletionDays | hooks/useCommunityData.ts:51-62 | the average is absent exactly when no developer is certified with a completion time; otherwise it is the mean of the completed developers' completion days (the mean times their number is the sum of their days), and is non-negative |
| CommunityData.AverageCompletionDaysPermutation | hooks/useCommunityData.ts:51-62 | the average completion days do not depend on the order of the developers |
| CommunityData.AnyRapid | hooks/useCommunityData.ts:64-68 | the rapid flag holds exactly when some developer completed less than 5 hours after enrolling, by the signed difference |
| CommunityData.Build | hooks/useCommunityData.ts:39-76 | a community counts its members, its subscribers and its certified developers, neither count above the member count; its average progress is 0 without members and otherwise the mean of the members' progress values (the mean times the member count is their sum), lying in 0..100 when every progress does; its completion average is the members' average completion days as above; its rapid flag is as above; its notes come from the map or default to not important with no follow-up |
| CommunityData.ProgressBounds | hooks/useCommunityData.ts:43-49 | progress values in 0..100 add up to between 0 and 100 per developer |
| CommunityData.AverageProgressBounds | hooks/useCommunityData.ts:49 | the average progress of a non-empty group with progress values in 0..100 lies in 0..100 |
| CommunityData.GroupCodes | hooks/useCommunityData.ts:27-38 | the group codes are the codes in use, each once |
| CommunityData.MembersNonEmpty | hooks/useCommunityData.ts:27-40 | every code in use has at least one member |
| CommunityData.GroupsFor | hooks/useCommunityData.ts:48 | one community per code, in code order, each built from the developers with that code |
| CommunityData.GroupsGather | hooks/useCommunityData.ts:27-46 | grouping by distinct codes gathers exactly the developers whose code is listed, each once |
| CommunityData.ProcessedCommunityData | hooks/useCommunityData.ts:17-78 | the result lists the groups by non-increasing developer count; communities of equal size keep their group order |
| CommunityData.CommunitiesWellFormed | hooks/useCommunityData.ts:27-46 | every listed community is built from the filtered developers with its code, has at least one developer and appears once |
| CommunityData.PartitionOfFiltered | hooks/useCommunityData.ts:27-46 | the communities' developers are, together, exactly the filtered developers |
| CommunityData.MembersHaveCode | hooks/useCommunityData.ts:39-44 | every developer of a community carries its code |
| CommunityData.SizesSum | hooks/useCommunityData.ts:40 | the developer counts add up to the number of filtered developers |
| CommunityData.TopPerformingCommunities | hooks/useCommunityData.ts:80-95 | at most five eligible communities, with progress or certified developers, in non-increasing score order, none scoring below an eligible community left out |
| CommunityData.OverallAverageOfFiltered | hooks/useCommunityData.ts:97-110 | the overall completion average equals the average over the filtered developers, and is absent exactly when none of them completed |
| JsObject.KeyOrder | hooks/useCommunityData.ts:48 | the keys visited are the keys created: array-index keys first in ascending value, then the other keys in creation order |
| Sorting.SortStable | hooks/useCommunityData.ts:77 | sorting keeps the relative order of elements with the same key |
| DeveloperMetrics.FakeShape | hooks/useDeveloperMetrics.ts:17-37 | an address is flagged exactly when its domain is non-empty and is a listed disposable domain, or the address holds a '+', or its user name is all digits |
| DeveloperMetrics.PotentialFakeAccounts | hooks/useDeveloperMetrics.ts:16-42 | the fake count is the number of flagged developers, at most all of them; its share is 0 without developers and otherwise the count's percentage of the developers |
| Seqs.Percent | hooks/useDeveloperMetrics.ts:40 | the percentage lies in 0..100, is 0 of nothing, and is otherwise count per total times 100 |
| DeveloperMetrics.RapidCompletionList | hooks/useDeveloperMetrics.ts:44-55 | the rapid list keeps, in order, exactly the developers whose completion came less than 5 hours after enrolment, each as often as in the input, and its count is the number of such positions |
| FileUpload.Missing | components/FileUpload.tsx:37-44 | the missing headers are exactly the required headers absent from the file, in required order; none are missing exactly when all are present |
| FileUpload.ParseProgress | components/FileUpload.tsx:51-54 | a progress cell is accepted exactly when it reads as an integer in 0..100, and then as that integer |
| FileUpload.ProgressRoundTrip | components/FileUpload.tsx:51-54 | every progress 0..100 written in decimal, with any leading zeros, reads back as itself |
| FileUpload.FlagIgnoresCase | components/FileUpload.tsx:81-85 | letter case does not change whether a cell reads as true |
| FileUpload.Country | components/FileUpload.tsx:119 | the country is the trimmed cell, or "Unknown" when it is blank or missing; it is never blank |
| FileUpload.RepairCompletion | components/FileUpload.tsx:72-78 | a completion at or after enrolment is kept; a completion that comes out after enrolment once 12 hours are added gets the 12 hours; nothing else changes |
| FileUpload.RepairNeedsStrictlyLater | components/FileUpload.tsx:75 | a completion exactly 12 hours before enrolment is not repaired |
| FileUpload.RepairIdempotent | components/FileUpload.tsx:72-78 | repairing twice gives the same time as repairing once |
| FileUpload.NameTokensClean | components/FileUpload.tsx:100-101 | the name tokens are non-empty and hold no separator |
| FileUpload.DeriveNames | components/FileUpload.tsx:87-112 | the names come from the columns when a first name is given or there is no address; otherwise the first name is the capitalised first token of the address, the last name the capitalised last token when there are at least two, and each column value stays when there are too few tokens; the first name is empty exactly when neither source gives one |
| FileUpload.DottedEmailNames | components/FileUpload.tsx:97-112 | an address `first.last@domain` without name columns gives the names `First` and `Last` |
| FileUpload.CompletionOf | components/FileUpload.tsx:61-79 | a completion cell fails exactly when it is filled but unreadable, reporting the file line; an empty one gives no completion; a readable one gives its repaired time |
| FileUpload.ParseRow | components/FileUpload.tsx:50-127 | a row fails on its progress, then its enrolment date, then its completion date, at line index + 2; otherwise it gives the record whose progress is the parsed percentage, whose dates are the parsed enrolment and the repaired completion, whose names, country and flags are derived from the row, and which is valid |
| FileUpload.ParseRows | components/FileUpload.tsx:50-132 | either every row parses, one record per row in order, or the error is that of the first failing row |
| FileUpload.HandleFile | components/FileUpload.tsx:27-44 | a file not named `.csv` is refused; a file lacking required headers reports them; otherwise the rows are parsed |
| FileUpload.UploadedValid | components/FileUpload.tsx:114-126 | every uploaded record has progress in 0..100, is certified exactly at 100, and has a trimmed non-empty country |
| CloudStorage.CloudData | hooks/useCloudStorage.ts:216-223 | a super admin sees every record; nobody signed in and a viewer see none; a community admin sees, in order, exactly the records of allowed codes |
| CloudStorage.CloudEvents | hooks/useCloudStorage.ts:225-234 | events are scoped as records are, except that a community admin also sees events for "All" |
| CloudStorage.EventsExtendRecords | hooks/useCloudStorage.ts:229-231 | whoever sees a code's records sees its events; the only extra events are community admins' "All" events |
| CloudStorage.LastWith | hooks/useCloudStorage.ts:241 | the entry found for a code has that code, and none is found exactly when no entry has it |
| CloudStorage.LastWithIsLatest | hooks/useCloudStorage.ts:241 | the entry found is the last one with its code |
| CloudStorage.SetAllSpec | hooks/useCloudStorage.ts:241 | registering the managed entries adds their codes, each mapped to its last entry, and leaves other codes alone |
| CloudStorage.DetectAll | hooks/useCloudStorage.ts:245-254 | registered codes keep their entries; every code added gets a CSV entry |
| CloudStorage.DetectAllKeys | hooks/useCloudStorage.ts:245-254 | after detection the codes are the registered ones and the non-empty developer codes |
| CloudStorage.RegistrySpec | hooks/useCloudStorage.ts:237-254 | the registry holds exactly the managed and non-empty developer codes, each with its latest managed entry or else a CSV entry |
| CloudStorage.RegistryCodesSpec | hooks/useCloudStorage.ts:256 | the registry codes are strictly ascending and are exactly the listed codes |
| CloudStorage.MergedCommunityListSpec | hooks/useCloudStorage.ts:237-257 | the merged list has one entry per listed code, in ascending code order, each the latest managed entry or a new CSV entry |
| CloudStorage.Perform | hooks/useCloudStorage.ts:262-287 | only a super admin changes anything; creating or deleting needs a signed-in user; each action changes only its target |
| CloudStorage.CreateThenDelete | hooks/useCloudStorage.ts:272-287 | creating a new manual community and then deleting it restores the store |
| CloudStorage.Chunks | hooks/useCloudStorage.ts:294-296 | the chunks are non-empty, at most the chunk size, all full but the last, and concatenate to the data |
| CloudStorage.WriteChunksConcat | hooks/useCloudStorage.ts:299-315 | writing chunk after chunk stores the same as writing all the data at once |
| CloudStorage.WriteAllKeys | hooks/useCloudStorage.ts:301-313 | writing adds exactly the ids of the records the caller may write |
| CloudStorage.WriteAllUntouched | hooks/useCloudStorage.ts:301-304 | stored records not written, including those a community admin may not write, are unchanged |
| CloudStorage.WriteAllLast | hooks/useCloudStorage.ts:305-312 | the stored value of an id is the last record written with it, stamped with the uploader and time |
| CloudStorage.UploadBatch | hooks/useCloudStorage.ts:291-292 | nothing is written without a signed-in user |
| CloudStorage.NewProfile | hooks/useCloudStorage.ts:43-52 | a first sign-in creates a viewer with no communities and a non-empty display name, created and last seen now |
| CloudStorage.OnAuthStateChanged | hooks/useCloudStorage.ts:30-62 | signing out clears the profile and the data; signing in loads the stored profile, refreshing its last login, or creates one |
| CloudStorage.SignInKeepsRoles | hooks/useCloudStorage.ts:35-55 | signing in never changes a stored role or allow-list, and a new user is a viewer with none |
| CloudStorage.SecondSignIn | hooks/useCloudStorage.ts:35-55 | a second sign-in keeps the profile made at the first one, updating only its last login |
| CloudStorage.SignedOutSeesNothing | hooks/useCloudStorage.ts:56-62 | after signing out no record and no event is visible |
| CommunityReport.FindCommunity | components/CommunityReport.tsx:80 | the community found is the first with the code, and none is found exactly when no community has it |
| CommunityReport.SelectedCommunity | components/CommunityReport.tsx:78-81 | a community is selected only for a chosen code that some community has |
| CommunityReport.NewCertifiedCount | components/CommunityReport.tsx:83-86 | the new certifications are the number of positions holding a developer who is certified and has a completion time; that is at most the certified developers, and none exactly when nobody completed |
| CommunityReport.NewCertifiedAtMostCertified | components/CommunityReport.tsx:83-86 | for a listed community, new certifications ≤ certified ≤ developers |
| CommunityReport.PreviousWindow | components/CommunityReport.tsx:96-98 | the previous window ends before the current start and is as long as the current range |
| CommunityReport.PreviousPeriodStats | components/CommunityReport.tsx:93-111 | previous stats are absent exactly when a bound or the code is missing; otherwise they count the community's developers enrolled in the previous window, with certified ≤ count |
| CommunityReport.MeanProgress | components/CommunityReport.tsx:108 | the mean progress is 0 for no developers and otherwise times their number gives the progress sum |
| CommunityReport.PreviousPeriodBeforeCurrent | components/CommunityReport.tsx:96-104 | no developer counted in the previous period is in the current range |
| CommunityReport.PreviousPeriodOfInvalidStart | components/CommunityReport.tsx:94-104 | an invalid start date gives an empty previous period |
| CommunityReport.PreviousAverageBounded | components/CommunityReport.tsx:108 | the previous average progress lies in 0..100 when every progress does |
| CommunityReport.PeerStatsOf | components/CommunityReport.tsx:114-128 | peer stats are absent exactly without a chosen code or without another community; otherwise they are the means over the other communities |
| CommunityReport.MeansOf | components/CommunityReport.tsx:119-127 | each peer mean times the number of peers gives the corresponding sum |
| CommunityReport.PeerMeansBounded | components/CommunityReport.tsx:119-127 | the peers' mean certified count is at most their mean size, and their mean progress lies in 0..100 |
| CommunityReport.PeerStatsIgnoreSelected | components/CommunityReport.tsx:116 | the selected community has no influence on the peer stats |
| CommunityReport.FindDay | components/CommunityReport.tsx:144 | the point found is the first with the day, and none is found exactly when no point has it |
| CommunityReport.AccumulateInv | components/CommunityReport.tsx:138-151 | over developers sorted by enrolment, the series has one point per enrolment day, ascending, each counting the developers enrolled by its day and, among them, those who started the course |
| CommunityReport.MembershipEvolutionCounts | components/CommunityReport.tsx:131-153 | the growth series has one point per enrolment day in ascending order, counts the developers enrolled by each day and the starters among them, and ends at the community size |
| Timeline.SortByEnrollment | components/CommunityReport.tsx:133 | sorting by enrolment reorders the developers into ascending enrolment time |
| CommunityReport.GetChange | components/CommunityReport.tsx:265-269 | from a previous 0 the change is "+100%" when current is positive and "0%" otherwise; else it is the relative change in percent |
| CommunityReport.GetChangeColor | components/CommunityReport.tsx:271-275 | the colour is green exactly on a rise and red exactly on a fall |
| CommunityReport.ChangeAgreesWithColor | components/CommunityReport.tsx:265-275 | for non-negative values the label shows a rise exactly when the colour is green |
| CommunityReport.DownloadList | components/CommunityReport.tsx:251-256 | the list holds, in order, exactly the selected community's certified or subscribed developers |
| CommunityReport.DownloadListSizes | components/CommunityReport.tsx:254-256 | the download lists are as long as the community's certified and subscribed counts |
| Filters.MinEnrollment | hooks/useFilters.ts:17-23 | the minimum is the enrolment time of some record and at most every one |
| Filters.MaxEnrollment | hooks/useFilters.ts:17-23 | the maximum is the enrolment time of some record and at least every one |
| Filters.InitialDateRange | hooks/useFilters.ts:11-31 | no data gives no bounds; otherwise both bounds are present, enclose every enrolment, and fall at local midnight and at the last local millisecond of a day |
| Filters.InitialRangeDays | hooks/useFilters.ts:17-28 | the seeded bounds lie on the local days of the earliest and of the latest enrolment, each less than a day from it |
| Filters.InitialRangeKeepsAll | hooks/useFilters.ts:17-31 | the initial range keeps every record |
| Filters.InitialRangeValid | hooks/useFilters.ts:25-31 | for times within the date range, the initial bounds are valid dates, the start no later than the end |
| Filters.ParseDateInput | hooks/useFilters.ts:43-44 | an accepted input has three numeric dash-separated parts, read as year, 1-based month and date |
| Filters.ParseThree | hooks/useFilters.ts:43-44 | an input of three parts builds the local date of those parts |
| Filters.HandleDateChange | hooks/useFilters.ts:34-55 | a change touches only its own bound: clearing sets it to none, a date sets the start or end of that local day |
| Filters.DayBoundsOfStart | hooks/useFilters.ts:47-51 | the start of a day's start is itself, and its end is the end of that day |
| Filters.SeedRange | App.tsx:74-78 | the initial range is seeded only when connected, with data and no start set |
| Filters.SeedOnce | App.tsx:74-78 | the effect run again on the range it has just seeded changes nothing |
| Filters.ClearFromReseeds | App.tsx:74-78 | clearing the start input (hooks/useFilters.ts:38-39) leaves `from` empty, so with data loaded the effect seeds both bounds again and the chosen end date is replaced by the initial one |
| Calendar.StartOfLocalDay | hooks/useFilters.ts:28 | the start of a local day is at local midnight of the same local day, not after the time |
| Calendar.EndOfLocalDay | hooks/useFilters.ts:29 | the end of a local day is its last millisecond, on the same local day, not before the time |
| Calendar.StartOfLocalDayCivil | hooks/useFilters.ts:47 | local midnight of a time is the local date built from its own year, month and date |
| FilterControls.FormatDateForInput | components/FilterControls.tsx:13-19 | no date formats as empty text, an invalid date as `NaN-NaN-NaN`, a valid one as its local year, month and date |
| FilterControls.FormatLength | components/FilterControls.tsx:15-18 | four-digit years give ten characters |
| FilterControls.ShownLength | components/FilterControls.tsx:16-18 | a four-digit year with a two-digit month and date makes `YYYY-MM-DD` |
| FilterControls.SplitShown | components/FilterControls.tsx:15-18 | the text splits at its dashes into the year, the 1-based month and the date |
| FilterControls.ParseShownDate | components/FilterControls.tsx:13-19 | the date input reads the shown text back as the local date of the same year, month and date |
| FilterControls.ParseShown | components/FilterControls.tsx:13-19 | for years from 100 on, the shown text reads back as local midnight of the same civil day |
| FilterControls.ParseShownStart | components/FilterControls.tsx:13-19 | showing a time and reading it back gives the start of its local day |
| FilterControls.FormatRoundTrip | components/FilterControls.tsx:13-19 | putting a shown date back into the start or end input yields the start or end of that time's local day |
| Model.RoleOf | components/AdminPanel.tsx:73-75 | the three role names the program writes decode to their roles and any other text to an unknown role holding it; the text is recovered from the role |
| Model.RoleRoundTrip | components/AdminPanel.tsx:73-75 | every role some text decodes to comes back from its own text |
| App.AccessAndTabs | App.tsx:72 | a loaded profile has access exactly when it is not a viewer; with access, a community admin's tabs exclude the code managers and an unknown role has no tabs |
| App.FilteredDeveloperData | App.tsx:80-89 | the filtered records keep input order |
| App.FilteredMatchesCommunities | App.tsx:80-91 | the screen's filter is the aggregator's, so its length is the sum of the community sizes |
| App.WriteMeta | App.tsx:113-123 | without a user nothing changes; with one the community's notes are replaced and no other entry changes |
| App.ToggleImportant | App.tsx:113-117 | toggling flips the importance and keeps the follow-up date, from the default notes when there are none |
| App.SetFollowUp | App.tsx:119-123 | setting a follow-up replaces the date and keeps the importance |
| App.ToggleTwice | App.tsx:113-117 | toggling twice restores the notes, storing the default ones when there were none |
| App.FollowUpLastWins | App.tsx:119-123 | of two follow-up dates set in turn, only the last counts |
| App.FollowUpToggleCommute | App.tsx:113-123 | toggling and setting a follow-up give the same notes in either order |
| App.ManagementStatsOf | App.tsx:130-139 | stats are absent exactly without registered codes; the active count is the number of distinct codes among the listed communities, registered or not; the rate is that count over the registered count, in percent; the inactive list is, in order, the registered codes no listed community has |
| App.ActiveCountOfProcessed | App.tsx:132-133 | for the aggregator's communities, which never share a code, the active count is the number of communities |
| App.RegisteredActivation | App.tsx:130-139 | when every active code is registered, active and inactive add up to the registered count and the rate is at most 100 |
| App.UnregisteredActivation | App.tsx:132-137 | an active code that is not registered pushes the rate above 100: one registered code and two active ones give 200 |
| EventsDashboard.SaveFallback | App.tsx:94-97 | an event saved without a date gets today's date and is otherwise unchanged |
| TabNavigation.ShownFromSpec | components/TabNavigation.tsx:28 | a tab is shown exactly when some table entry for it lists the role |
| TabNavigation.VisibleIffAllowed | components/TabNavigation.tsx:13-28 | a tab is visible exactly when the role may open it |
| TabNavigation.UnknownRoleSeesNothing | components/TabNavigation.tsx:28 | a stored role text other than super_admin, community_admin and viewer sees no tab |
| TabNavigation.AdminTabsForSuperAdmins | components/TabNavigation.tsx:17-23 | only a super admin sees the code and user management tabs |
| TabNavigation.ViewerTabs | components/TabNavigation.tsx:14-15 | a viewer sees the dashboard and the participants, in that order |
| TabNavigation.CommunityAdminTabs | components/TabNavigation.tsx:14-22 | a community admin sees the eight tabs other than code and user management, in table order |
| TabNavigation.SuperAdminTabs | components/TabNavigation.tsx:14-24 | a super admin sees all ten tabs in table order |
| CodeManagers.FilteredCommunities | components/CodeManagers.tsx:22-29 | the listed entries are, in order, exactly those matching the search and the source filter |
| CodeManagers.EmptySearchListsAll | components/CodeManagers.tsx:22-29 | an empty search over all sources lists everything |
| CodeManagers.SearchIgnoresCase | components/CodeManagers.tsx:24-25 | letter case in the search does not matter |
| CodeManagers.SourcesSplitListing | components/CodeManagers.tsx:26 | the CSV and manual listings together make the full listing |
| CodeManagers.AdminsFor | components/CodeManagers.tsx:32-34 | the admins of a code are, in order, exactly the users allowed it |
| CodeManagers.Assignable | components/CodeManagers.tsx:208 | the assignable users are, in order, exactly the users not allowed the code |
| CodeManagers.AdminsAndAssignableSplit | components/CodeManagers.tsx:32-34 | every user is either an admin of the code or assignable to it, never both |
| CodeManagers.FindUser | components/CodeManagers.tsx:48 | the user found has the uid, and none is found exactly when no user has it |
| CodeManagers.FindUserIsFirst | components/CodeManagers.tsx:48 | the user found is the first with the uid |
| CodeManagers.RemoveAdmin | components/CodeManagers.tsx:47-53 | removal is a no-op for an unknown user; otherwise it drops the code and keeps the other codes in order |
| CodeManagers.AddAdmin | components/CodeManagers.tsx:55-62 | adding happens exactly for a known user without the code, and appends it |
| CodeManagers.AddKeepsNoDups | components/CodeManagers.tsx:55-62 | adding never creates a duplicate |
| CodeManagers.AddThenRemove | components/CodeManagers.tsx:47-62 | removing a code just added restores the allow-list |
| CodeManagers.CreateRequest | components/CodeManagers.tsx:36-45 | nothing is created without a code; the name defaults to the code |
| CodeManagers.CreatedEntryListed | components/CodeManagers.tsx:214-222 | a super admin's new entry is registered as manual and so can be deleted |
| AdminPanel.Toggle | components/AdminPanel.tsx:16-21 | toggling removes a present code and appends an absent one, other codes unaffected |
| AdminPanel.ToggleKeepsOthers | components/AdminPanel.tsx:17-19 | the other codes keep their order and multiplicity |
| AdminPanel.ToggleKeepsNoDups | components/AdminPanel.tsx:17-19 | a duplicate-free list stays duplicate-free |
| AdminPanel.ToggleTwiceAbsent | components/AdminPanel.tsx:16-21 | toggling an absent code twice restores the list |
| EmailManager.LinkShown | components/EmailManager.tsx:40 | an event link is shown as given, or as `#` when empty |
| EmailManager.ReplaceTags | components/EmailManager.tsx:27-43 | an empty template stays empty and a template holding none of the eight tags is sent as written; what happens to each tag is stated by TagReplaced |
| EmailManager.TagReplaced | components/EmailManager.tsx:29-41 | a tag surrounded by plain text is replaced by its value and the text around it is kept |
| EmailManager.NoTagUnchanged | components/EmailManager.tsx:29-41 | the developer stage and the event stage each leave text with no tag unchanged |
| EmailManager.FilteredDevelopers | components/EmailManager.tsx:73-80 | the targets are, in order, exactly the subscribed developers of the chosen community, or any for "all", with progress within the window, each as often as in the input |
| EmailManager.InitialAudienceTargetsSubscribed | components/EmailManager.tsx:59-61 | before any change every subscribed developer is targeted |
| EmailManager.CommunityNarrows | components/EmailManager.tsx:76 | choosing a community narrows the "all" audience to that community's developers |
| EmailManager.MoveSlider | components/EmailManager.tsx:176-177 | a slider moves to its value unless that would cross the other, and leaves the other bound alone |
| EmailManager.SlidersKeepWindow | components/EmailManager.tsx:176-177 | slider moves within 0..100 keep the window ordered within 0..100 |
| EmailManager.HandleSendEmails | components/EmailManager.tsx:82-91 | sending is refused without credentials, then without targets; otherwise the subscribers are the targets' addresses in order, and the subject is the template filled in for the first target |
| EmailManager.FindEvent | components/EmailManager.tsx:69-71 | the event found has the id, and none is found exactly when no event has it |
| CommunityUpload.CodeHeader | components/CommunityUpload.tsx:32-36 | the code column is the first header naming a code, and there is none exactly when no header does |
| CommunityUpload.Cells | components/CommunityUpload.tsx:44-46 | the codes read are exactly the non-empty trimmed cells of the column |
| CommunityUpload.HandleCommunityFile | components/CommunityUpload.tsx:18-50 | a file not named `.csv` is refused; a file with no code column is reported; otherwise the codes are the column's cells without repeats |
| CommunityUpload.LoadedList | components/CommunityUpload.tsx:44-50 | the loaded codes are trimmed, non-empty, duplicate-free, and exactly the non-empty trimmed cells |
| CommunityUpload.CleanColumnLoadedAsIs | components/CommunityUpload.tsx:44-50 | a clean column of distinct codes loads unchanged |
| MembershipDashboard.Members | components/MembershipDashboard.tsx:28-29 | the members are, in order, exactly the developers who accepted membership, each as often as in the input, and their number is the number of accepting positions |
| MembershipDashboard.MembershipRate | components/MembershipDashboard.tsx:27-30 | the rate is 0 without developers, lies in 0..100, and is the number of accepting developers over the total times 100 |
| MembershipDashboard.MemberGrowthSpec | components/MembershipDashboard.tsx:32-43 | one point per member enrolment day, ascending; each counts the members enrolled by its day, at least one and more than before; the last counts every member |
| MembershipDashboard.ReduceInvHolds | components/MembershipDashboard.tsx:34-43 | the reduce over members in enrolment order keeps one point per day with the running count |
| MetricsDashboard.DevelopersByCommunity | components/MetricsDashboard.tsx:51 | there is one bar per community |
| MetricsDashboard.BarsAt | components/MetricsDashboard.tsx:51 | each bar carries its community's code and developer count, in community order |
| MetricsDashboard.BarsSum | components/MetricsDashboard.tsx:51 | the bars add up to the community sizes |
| MetricsDashboard.BarsOfProcessed | components/MetricsDashboard.tsx:51 | the bars have distinct names, are at least one high, and add up to the filtered developers |
| MetricsDashboard.CountryLabel | components/MetricsDashboard.tsx:55 | a blank country is counted as "Unknown" |
| MetricsDashboard.TallyCounts | components/MetricsDashboard.tsx:53-57 | the tally holds exactly the labels in use, each with its number of developers |
| MetricsDashboard.GeoKeys | components/MetricsDashboard.tsx:59 | the chart keys are the labels in use, each once |
| MetricsDashboard.GeoDataSpec | components/MetricsDashboard.tsx:53-59 | one entry per label, each counting its developers, at least one; the counts add up to the developers; entries run from the largest count down |
| MetricsDashboard.SummaryOf | components/MetricsDashboard.tsx:61-70 | the counters count the developers who started, are certified or are subscribed, and the communities with a started developer, each at most its total; the shares are absent or 0 without developers and are otherwise the counters' percentages |
| MetricsDashboard.CountersSpec | components/MetricsDashboard.tsx:61-69 | each counter is full or zero exactly when all or none of the developers qualify |
| MetricsDashboard.CountersCount | components/MetricsDashboard.tsx:61-68 | each counter is the number of positions whose developer has progress above 0, is certified or is subscribed, or whose community has a developer with progress above 0 |
| MetricsDashboard.ActiveCommunitiesOfProcessed | components/MetricsDashboard.tsx:62-63 | active communities are at most the developers who started, and none exactly when nobody started |
| ParticipantsList.FilteredData | components/ParticipantsList.tsx:22-31 | the shown developers are, in order, exactly those matching the lower-cased term in a name, id, code or country, each as often as in the input |
| ParticipantsList.EmptySearchShowsAll | components/ParticipantsList.tsx:22-31 | an empty search shows everybody |
| ParticipantsList.SearchIgnoresCase | components/ParticipantsList.tsx:23 | letter case in the search does not matter |
| ParticipantsList.LongerSearchNarrows | components/ParticipantsList.tsx:22-31 | extending the search can only remove developers |
| ParticipantsList.Initial | components/ParticipantsList.tsx:82 | the avatar shows the first name's first letter, else the id's upper-cased first letter |
| ParticipantsList.Badges | components/ParticipantsList.tsx:109-123 | the badges show certification and subscription; "Enrolled" appears alone exactly when neither holds |
| ParticipantsList.ProgressColour | components/ParticipantsList.tsx:10-11 | the bar is green at 100, blue above 50, grey otherwise |
| ParticipantsList.GreenIffCertified | components/ParticipantsList.tsx:109-111 | for a record certified exactly at 100, the bar is green exactly when the certified badge shows |
| EventsDashboard.FormFor | components/EventsDashboard.tsx:32-50 | a new form is blank with upcoming, "Webinar" and "All"; editing copies the event, filling a missing category or community |
| EventsDashboard.Submit | components/EventsDashboard.tsx:52-60 | submission is refused exactly without name or date; otherwise the form goes out with the edited event's id |
| EventsDashboard.UpcomingEvents | components/EventsDashboard.tsx:157 | the upcoming list is the upcoming events, earliest first |
| EventsDashboard.PastEvents | components/EventsDashboard.tsx:158 | the past list is the past events, latest first |
| EventsDashboard.ListsPartitionEvents | components/EventsDashboard.tsx:157-158 | the two lists together hold every event exactly once |
| EventsDashboard.ListMembership | components/EventsDashboard.tsx:157-158 | an event is in a list exactly when it is one of the events and of that kind |
| EventsDashboard.SameDateKeepsOrderUpcoming | components/EventsDashboard.tsx:157 | upcoming events on the same date keep their order |
| EventsDashboard.SameDateKeepsOrderPast | components/EventsDashboard.tsx:158 | past events on the same date keep their order |
| ReportGenerator.IsoDayReadsBack | components/ReportGenerator.tsx:17 | the exported day splits into a year, a 1-based month and a date that name the UTC day of the time |
| ReportGenerator.IsoDayLength | components/ReportGenerator.tsx:17 | four-digit years give ten characters |
| ReportGenerator.FollowUpText | components/ReportGenerator.tsx:21 | the follow-up column shows the date, or "N/A" when there is none |
| ReportGenerator.CommunityRows | components/ReportGenerator.tsx:12-22 | one row per developer of the community, in order, carrying the community's notes |
| ReportGenerator.RowCount | components/ReportGenerator.tsx:11-23 | there is one row per listed developer |
| ReportGenerator.RowsInOrder | components/ReportGenerator.tsx:11-23 | rows come community after community |
| ReportGenerator.RowMembership | components/ReportGenerator.tsx:11-23 | a row is exported exactly when it is the row of a developer listed under a community |
| ReportGenerator.RowsOfProcessed | components/ReportGenerator.tsx:11-23 | over the dashboard's communities there is one row per filtered developer |
| ReportGenerator.HandleExport | components/ReportGenerator.tsx:25-32 | export is refused exactly without communities; otherwise every row goes to a dated file |
| ReportGenerator.DashboardFileName | components/ReportGenerator.tsx:8-32 | the dashboard exports to developer_community_report_ followed by a YYYY-MM-DD date that reads back as the UTC day of the export (four-digit years) and the format's extension |
| ReportGenerator.ExportNeverEmpty | components/ReportGenerator.tsx:26-29 | an export of the dashboard's communities always has rows |

## Left out

- Firebase: the Firestore subscriptions, writes and batch commits, and the
  sign-in popup. The model gives the data these deliver, or the store they
  produce, and does not model the asynchrony. The partial write left behind
  when a batch commit fails (hooks/useCloudStorage.ts:314-321) is not
  modelled.
- firebaseConfig.ts and components/CloudConnect.tsx are configuration and
  markup.
- PapaParse: a parsed CSV file is given as its header list and rows, each
  row a map from header to cell. `Papa.unparse`, the PDF and canvas export,
  Blob downloads and the clipboard are browser effects
  (components/CommunityReport.tsx:42-65, components/CommunityReport.tsx:213-249,
  components/ReportGenerator.tsx:34-60).
- The Gemini summary call (components/CommunityReport.tsx:155-211) is a
  network call with unpredictable output.
- JavaScript date parsing: `new Date(text)` in the CSV upload is a parameter
  that maps a cell to a time or to none. `toLocaleDateString` in the e-mail
  event date is also a parameter.
- The event list sorts by `new Date(date).getTime()`, which is a parameter
  mapping each date to a time. An unparseable date (`NaN`) makes the
  JavaScript comparator inconsistent, and the order then depends on the
  engine. That case is not modelled.
- Local time uses one fixed offset from UTC. Daylight saving changes within
  the data are not modelled.
- Number formatting: `toFixed` and `toLocaleString`. The reward amount
  (components/CommunityReport.tsx:88) is a floating-point display value.
  Rates and averages are exact reals.
- Case mapping and search are ASCII-only. The locale collation of
  `localeCompare` is replaced by code-point order on strings. Dafny strings
  hold code points while JavaScript strings hold UTF-16 code units, so for
  a character outside the Basic Multilingual Plane `charAt(0)`
  (components/ParticipantsList.tsx:82) gives half a surrogate pair where
  the model gives the whole character.
- EmailManager.ReplaceTags: the source passes the values to
  `String.replace` as plain replacement strings, so `$&`, `$$`, `` $` `` and
  `$'` in a first name, an address, an event name or a link are interpreted
  (an address holding `$&` puts `{{email}}` back). The model inserts every
  value literally; the two agree exactly when no value holds a `$`. Its
  contract states the empty template and the template without tags; the
  substitution of a tag is stated by TagReplaced.
- EmailManager.TagReplaced: the lemma requires the surrounding text and the
  values to be free of braces, so that no tag arises across a boundary. It
  is about the literal substitution above.
- EmailManager.CommunityNarrows: a community whose code is literally "all"
  cannot be chosen apart from everybody; the lemma requires another code.
- EmailManager.SlidersKeepWindow: assumes slider values in 0..100, the range
  of the range inputs.
- The simulated MailerLite dispatch and its `setTimeout`
  (components/EmailManager.tsx:92-121).
- ReportGenerator.IsoDayReadsBack: only years 0 to 9999. `IsoYear` does
  write other years with a sign and six digits, as `toISOString` does, but
  the read-back lemma does not cover them. The `RangeError` that
  `toISOString` throws outside the representable range is not modelled.
- ReportGenerator.DashboardFileName: the length and the read-back of the
  date part are stated only for years 1000 to 9999; the prefix holds for
  every year.
- Community codes and countries that name a property of `Object.prototype`,
  such as "constructor", are treated as ordinary keys. In JavaScript the
  plain-object lookups at hooks/useCommunityData.ts:28 and
  components/MetricsDashboard.tsx:56 would find the inherited property.
- The in-place sort of the selected community's developers
  (components/CommunityReport.tsx:133) is modelled as a sorted copy. The
  aliasing it causes is not modelled.
- components/GeoDistributionMap.tsx (projection and radius arithmetic),
  components/LandingPage.tsx, components/LoadingOverlay.tsx,
  components/RapidCompletionReport.tsx and
  components/ProgressByCommunityTable.tsx are rendering only.
- FileUpload.Text: a row without an Email or Code cell gives `""` for the
  identifier or the code. JavaScript stores `undefined` there
  (components/FileUpload.tsx:115 and :118), and a later `.toLowerCase()`
  on it in components/ParticipantsList.tsx:25-29 throws. The model keeps
  both fields as strings, so that failure is not modelled.
- types.ts supplies the record shapes and has no behaviour.

=== FILE: adminpanel.dfy ===
/** The community toggle of components/AdminPanel.tsx: a user's allowed
    codes gain a missing code at the end or lose every occurrence of a
    present one. */
module AdminPanel {
  import opened Seqs

  /** `handleCommunityToggle`'s new list. */
  function Toggle(current: seq<string>, community: string): (r: seq<string>)
    ensures community in current ==> community !in r
    ensures community !in current ==> r == current + [community]
    ensures forall c :: c != community ==> (c in r <==> c in current)
  {
    if community in current then RemoveAll(current, community) else current + [community]
  }

  /** The other codes keep their relative order. */
  lemma ToggleKeepsOthers(current: seq<string>, community: string)
    ensures Filter(Differs(community), Toggle(current, community)) == Filter(Differs(community), current)
  {
    if community in current {
      FilterFilter(Differs(community), Differs(community), current);
      FilterCongruent(Both(Differs(community), Differs(community)), Differs(community), current);
    } else {
      FilterAppend(Differs(community), current, [community]);
      assert Filter(Differs(community), [community]) == [];
    }
  }

  /** A duplicate-free list stays duplicate-free. */
  lemma ToggleKeepsNoDups(current: seq<string>, community: string)
    requires NoDups(current)
    ensures NoDups(Toggle(current, community))
  {
    var r := Toggle(current, community);
    if community in current {
      SubseqNoDups(r, current);
    } else {
      forall i, j | 0 <= i < j < |r| ensures r[i] != r[j] {
        if j == |current| {
          assert r[i] == current[i];
        } else {
          assert r[i] == current[i] && r[j] == current[j];
        }
      }
    }
  }

  /** Toggling an absent code twice gives the original list back. */
  lemma ToggleTwiceAbsent(current: seq<string>, community: string)
    requires community !in current
    ensures Toggle(Toggle(current, community), community) == current
  {
    FilterAppend(Differs(community), current, [community]);
    FilterAll(Differs(community), current);
    assert Filter(Differs(community), [community]) == [];
  }

  /** Toggling a present code twice moves it to the end, without its
      duplicates. */
  lemma ToggleTwicePresent(current: seq<string>, community: string)
    requires community in current
    ensures Toggle(Toggle(current, community), community) == RemoveAll(current, community) + [community]
  {
  }
}

=== FILE: app.dfy ===
/** The logic of App.tsx around the hooks: who gets the dashboard, the
    developers the date range keeps, the edits of a community's notes, and
    the registry figures of the management tab. */
module App {
  import opened Wrappers
  import opened Seqs
  import opened Calendar
  import opened Model
  import opened CommunityData
  import opened TabNavigation

  // ---------------------------------------------------------------- access

  /** Signed in, with a loaded profile whose role is not `viewer`. */
  predicate HasAccess(connected: bool, profile: Option<UserProfile>) {
    connected && profile.Some? && profile.value.role != Viewer
  }

  /** The dashboard is withheld only from viewers among signed-in users
      with a profile; behind it, the tab bar offers the code managers to
      super administrators alone, and no tab at all to a stored role it
      does not know. */
  lemma AccessAndTabs(connected: bool, profile: Option<UserProfile>)
    requires connected && profile.Some? && StoredRole(profile.value.role)
    ensures !HasAccess(connected, profile) <==> profile.value.role == Viewer
    ensures HasAccess(connected, profile) ==>
              (Codes in VisibleTabs(TabRole(profile)) <==> profile.value.role == SuperAdmin)
    ensures HasAccess(connected, profile) && profile.value.role.Unrecognised? && profile.value.role.name != "" ==>
              VisibleTabs(TabRole(profile)) == []
  {
    VisibleIffAllowed(TabRole(profile), Codes);
    if profile.value.role.Unrecognised? && profile.value.role.name != "" {
      RoleRoundTrip(profile.value.role);
      UnknownRoleSeesNothing(profile.value.role.name);
    }
  }

  // ---------------------------------------------------------------- filtered developers

  /** The test of `filteredDeveloperData`: a truthy lower bound rejects
      earlier enrolments, a truthy upper bound later ones. */
  predicate Kept(range: DateRange, d: Developer) {
    !(BoundActive(range.from) && d.enrollmentDate < range.from.value.value)
    && !(BoundActive(range.to) && d.enrollmentDate > range.to.value.value)
  }

  function KeptP(range: DateRange): Developer -> bool {
    (d: Developer) => Kept(range, d)
  }

  /** The developers the date range keeps, in input order. */
  function FilteredDeveloperData(devs: seq<Developer>, range: DateRange): (r: seq<Developer>)
    ensures IsSubseq(r, devs)
  {
    Filter(KeptP(range), devs)
  }

  /** The list handed to the other tabs is the aggregator's filtered list,
      so its length is the sum of the community sizes. */
  lemma FilteredMatchesCommunities(devs: seq<Developer>, range: DateRange, metaMap: map<string, MetaData>)
    ensures FilteredDeveloperData(devs, range) == FilterByDate(devs, range)
    ensures |FilteredDeveloperData(devs, range)|
         == SumInt(DeveloperCount(), ProcessedCommunityData(devs, range, metaMap))
  {
    FilterCongruent(KeptP(range), InRangeP(range), devs);
    SizesSum(devs, range, metaMap);
  }

  // ---------------------------------------------------------------- community notes

  /** The stored notes of a community, or the default when it has none. */
  function CurrentMeta(metaMap: map<string, MetaData>, code: string): MetaData {
    if code in metaMap then metaMap[code] else DefaultMeta
  }

  /** `updateCloudCommunityMeta`: without a signed-in user nothing is
      written; otherwise both fields of the community's notes are replaced. */
  function WriteMeta(metaMap: map<string, MetaData>, signedIn: bool, code: string, meta: MetaData): (r: map<string, MetaData>)
    ensures !signedIn ==> r == metaMap
    ensures signedIn ==> code in r && r[code] == meta
    ensures forall k :: k != code ==> (k in r <==> k in metaMap) && (k in r ==> r[k] == metaMap[k])
  {
    if signedIn then metaMap[code := meta] else metaMap
  }

  /** The notes `handleToggleImportant` writes. */
  function ToggleImportant(metaMap: map<string, MetaData>, code: string): (r: MetaData)
    ensures r.isImportant == !CurrentMeta(metaMap, code).isImportant
    ensures r.followUpDate == CurrentMeta(metaMap, code).followUpDate
  {
    CurrentMeta(metaMap, code).(isImportant := !CurrentMeta(metaMap, code).isImportant)
  }

  /** The notes `handleSetFollowUp` writes; the date text is stored as
      given, an empty text included. */
  function SetFollowUp(metaMap: map<string, MetaData>, code: string, date: string): (r: MetaData)
    ensures r.followUpDate == Some(date)
    ensures r.isImportant == CurrentMeta(metaMap, code).isImportant
  {
    CurrentMeta(metaMap, code).(followUpDate := Some(date))
  }

  /** Toggling twice restores the notes: exactly the stored map when the
      community had notes, the default notes otherwise. */
  lemma ToggleTwice(metaMap: map<string, MetaData>, code: string)
    ensures var once := WriteMeta(metaMap, true, code, ToggleImportant(metaMap, code));
            var twice := WriteMeta(once, true, code, ToggleImportant(once, code));
            twice == metaMap[code := CurrentMeta(metaMap, code)]
            && (code in metaMap ==> twice == metaMap)
  {
    var once := WriteMeta(metaMap, true, code, ToggleImportant(metaMap, code));
    var twice := WriteMeta(once, true, code, ToggleImportant(once, code));
    assert twice[code] == CurrentMeta(metaMap, code);
    if code in metaMap {
      assert twice == metaMap;
    }
  }

  /** The later follow-up date wins. */
  lemma FollowUpLastWins(metaMap: map<string, MetaData>, code: string, a: string, b: string)
    ensures var m := WriteMeta(metaMap, true, code, SetFollowUp(metaMap, code, a));
            WriteMeta(m, true, code, SetFollowUp(m, code, b))
              == WriteMeta(metaMap, true, code, SetFollowUp(metaMap, code, b))
  {
    var m := WriteMeta(metaMap, true, code, SetFollowUp(metaMap, code, a));
    assert SetFollowUp(m, code, b) == SetFollowUp(metaMap, code, b);
  }

  /** Setting the follow-up date and toggling importance touch different
      fields, so their order does not matter. */
  lemma FollowUpToggleCommute(metaMap: map<string, MetaData>, code: string, a: string)
    ensures var m1 := WriteMeta(metaMap, true, code, SetFollowUp(metaMap, code, a));
            var m2 := WriteMeta(metaMap, true, code, ToggleImportant(metaMap, code));
            WriteMeta(m1, true, code, ToggleImportant(m1, code))
              == WriteMeta(m2, true, code, SetFollowUp(m2, code, a))
  {
    var m1 := WriteMeta(metaMap, true, code, SetFollowUp(metaMap, code, a));
    var m2 := WriteMeta(metaMap, true, code, ToggleImportant(metaMap, code));
    assert ToggleImportant(m1, code) == SetFollowUp(m2, code, a);
  }

  // ---------------------------------------------------------------- management figures

  datatype ManagementStats = ManagementStats(
    totalRegistered: nat,
    activeCount: nat,
    inactiveCount: nat,
    activationRate: real,
    inactiveList: seq<string>)

  /** The codes of the communities with developers in the range. */
  function ActiveCodes(processed: seq<Community>): set<string> {
    set c | c in processed :: c.code
  }

  function NotIn(active: set<string>): string -> bool {
    code => code !in active
  }

  /** The registry figures: none for an empty registry; otherwise the
      registered codes without developers in the range, and the number of
      active codes over the number registered, as a percentage. */
  function ManagementStatsOf(registered: seq<string>, processed: seq<Community>): (r: Option<ManagementStats>)
    ensures r.None? <==> |registered| == 0
    ensures r.Some? ==> r.value.totalRegistered == |registered| && r.value.inactiveCount == |r.value.inactiveList|
    ensures r.Some? ==> IsSubseq(r.value.inactiveList, registered)
    ensures r.Some? ==> forall code :: code in r.value.inactiveList <==>
              code in registered && forall c :: c in processed ==> c.code != code
    ensures r.Some? ==> r.value.activeCount == |set c | c in processed :: c.code|
    ensures r.Some? ==>
              r.value.activationRate == (r.value.activeCount as real / r.value.totalRegistered as real) * 100.0
  {
    if |registered| == 0 then None
    else
      var active := ActiveCodes(processed);
      var inactive := Filter(NotIn(active), registered);
      assert forall code :: code in active <==> exists c :: c in processed && c.code == code;
      Some(ManagementStats(|registered|, |active|, |inactive|,
                           (|active| as real / |registered| as real) * 100.0, inactive))
  }

  /** Over the aggregator's communities, which never share a code, the
      active count is the number of communities in the range. */
  lemma ActiveCountOfProcessed(registered: seq<string>, devs: seq<Developer>, range: DateRange, metaMap: map<string, MetaData>)
    requires |registered| > 0
    ensures ManagementStatsOf(registered, ProcessedCommunityData(devs, range, metaMap)).value.activeCount
            == |ProcessedCommunityData(devs, range, metaMap)|
  {
    var r := ProcessedCommunityData(devs, range, metaMap);
    CommunitiesWellFormed(devs, range, metaMap);
    forall c1, c2 | c1 in r && c2 in r && c1.code == c2.code ensures c1 == c2 {
    }
    DistinctCodesCount(r);
  }

  /** Communities that occur once each and never share a code have as many
      codes as there are communities. */
  lemma DistinctCodesCount(r: seq<Community>)
    requires forall c :: c in r ==> multiset(r)[c] == 1
    requires forall c1, c2 :: c1 in r && c2 in r && c1.code == c2.code ==> c1 == c2
    ensures |set c | c in r :: c.code| == |r|
  {
    var codes := seq(|r|, i requires 0 <= i < |r| => r[i].code);
    forall i, j | 0 <= i < j < |r| ensures codes[i] != codes[j] {
      assert r[i] in r && r[j] in r;
      if r[i] == r[j] {
        TwoOccurrences(r, i, j);
      }
    }
    assert (set x | x in codes) == (set c | c in r :: c.code) by {
      forall c | c in r ensures c.code in codes {
        var i :| 0 <= i < |r| && r[i] == c;
        assert codes[i] == c.code;
      }
    }
    CardNoDups(codes);
  }

  /** When every active code is registered and the registry has no
      duplicates, the active and inactive codes split the registry and the
      rate is at most 100. */
  lemma RegisteredActivation(registered: seq<string>, processed: seq<Community>)
    requires |registered| > 0 && NoDups(registered)
    requires forall c :: c in processed ==> c.code in registered
    ensures var s := ManagementStatsOf(registered, processed).value;
            s.activeCount + s.inactiveCount == s.totalRegistered && s.activationRate <= 100.0
  {
    var active := ActiveCodes(processed);
    ActiveSplit(registered, active);
    RateAtMostFull(|active|, |registered|);
  }

  /** A set of registered codes and the registered codes outside it split a
      duplicate-free registry. */
  lemma ActiveSplit(registered: seq<string>, active: set<string>)
    requires NoDups(registered)
    requires forall code :: code in active ==> code in registered
    ensures |active| + |Filter(NotIn(active), registered)| == |registered|
  {
    var inactive := Filter(NotIn(active), registered);
    var activeHere := Filter(Not(NotIn(active)), registered);
    FilterComplement(NotIn(active), registered);
    assert |inactive| + |activeHere| == |registered| by {
      assert |multiset(inactive)| + |multiset(activeHere)| == |multiset(registered)|;
    }
    SubseqNoDups(activeHere, registered);
    CardNoDups(activeHere);
    assert (set x | x in activeHere) == active by {
      forall x | x in active ensures x in activeHere {
        assert Not(NotIn(active))(x);
      }
    }
  }

  lemma RateAtMostFull(a: nat, n: nat)
    requires 0 < n && a <= n
    ensures (a as real / n as real) * 100.0 <= 100.0
  {
    var q := a as real / n as real;
    assert q * (n as real) <= 1.0 * (n as real);
    CancelFactor(q, 1.0, n as real);
  }

  /** Active codes missing from the registry still count as active, so the
      rate can pass 100: one registered code and two active communities
      give 200. */
  lemma UnregisteredActivation()
    ensures var a := Community("A", 1, 0, 0, 0.0, None, [], DefaultMeta, false);
            var b := Community("B", 1, 0, 0, 0.0, None, [], DefaultMeta, false);
            ManagementStatsOf(["A"], [a, b]).value.activationRate == 200.0
  {
    var a := Community("A", 1, 0, 0, 0.0, None, [], DefaultMeta, false);
    var b := Community("B", 1, 0, 0, 0.0, None, [], DefaultMeta, false);
    assert ActiveCodes([a, b]) == {"A", "B"};
  }
}

=== FILE: calendar.dfy ===
/** ECMAScript time values (section 21.4.1 of ECMA-262): integer milliseconds
    since 1970-01-01T00:00:00Z, the proleptic Gregorian calendar, and local
    time at a fixed offset from UTC (daylight saving is not modelled). */
module Calendar {
  import opened Wrappers

  const MsPerHour: int := 3600000
  const MsPerDay: int := 86400000
  /** The largest magnitude of a valid time value. */
  const MaxTime: int := 8640000000000000

  /** The time value of a `Date`; `None` is NaN, the value of an invalid date. */
  type TimeValue = Option<int>

  /** TimeClip: a time outside the representable range is NaN. */
  function TimeClip(t: int): TimeValue {
    if -MaxTime <= t <= MaxTime then Some(t) else None
  }

  /** The day number containing time `t`; `/` rounds down here as the
      standard's `floor` does. */
  function Day(t: int): int {
    t / MsPerDay
  }

  function TimeWithinDay(t: int): int {
    t % MsPerDay
  }

  /** The time value of local midnight opening day number `day`. */
  function Midnight(day: int, offset: int): TimeValue {
    TimeClip(day * MsPerDay - offset)
  }

  /** `setHours(0, 0, 0, 0)` where local time is UTC plus `offset` ms. */
  function StartOfLocalDay(t: TimeValue, offset: int): (r: TimeValue)
    ensures r.Some? ==> t.Some? && r.value <= t.value
    ensures r.Some? ==> Day(r.value + offset) == Day(t.value + offset)
    ensures r.Some? ==> TimeWithinDay(r.value + offset) == 0
  {
    match t
    case None => None
    case Some(u) => Midnight(Day(u + offset), offset)
  }

  /** `setHours(23, 59, 59, 999)` where local time is UTC plus `offset` ms. */
  function EndOfLocalDay(t: TimeValue, offset: int): (r: TimeValue)
    ensures r.Some? ==> t.Some? && r.value >= t.value
    ensures r.Some? ==> Day(r.value + offset) == Day(t.value + offset)
    ensures r.Some? ==> TimeWithinDay(r.value + offset) == MsPerDay - 1
  {
    match t
    case None => None
    case Some(u) => TimeClip(Day(u + offset) * MsPerDay + (MsPerDay - 1) - offset)
  }

  /** Away from the ends of the time range both day bounds are valid dates. */
  lemma LocalDayBoundsDefined(u: int, offset: int)
    requires -MaxTime + MsPerDay <= u <= MaxTime - MsPerDay
    ensures StartOfLocalDay(Some(u), offset).Some?
    ensures EndOfLocalDay(Some(u), offset).Some?
  {
  }

  predicate IsLeapYear(y: int) {
    y % 4 == 0 && (y % 100 != 0 || y % 400 == 0)
  }

  function DaysInYear(y: int): int {
    if IsLeapYear(y) then 366 else 365
  }

  /** DayFromYear: the day number of 1 January of year `y`. */
  function DayFromYear(y: int): int {
    365 * (y - 1970) + (y - 1969) / 4 - (y - 1901) / 100 + (y - 1601) / 400
  }

  lemma FloorStep(a: int, n: int)
    requires n == 4 || n == 100 || n == 400
    ensures (a + 1) / n - a / n == if (a + 1) % n == 0 then 1 else 0
  {
  }

  /** Consecutive years start `DaysInYear` days apart. */
  lemma DayFromYearStep(y: int)
    ensures DayFromYear(y + 1) == DayFromYear(y) + DaysInYear(y)
  {
    FloorStep(y - 1969, 4);
    FloorStep(y - 1901, 100);
    FloorStep(y - 1601, 400);
    assert (y - 1968) % 4 == 0 <==> y % 4 == 0;
    assert (y - 1900) % 100 == 0 <==> y % 100 == 0;
    assert (y - 1600) % 400 == 0 <==> y % 400 == 0;
  }

  /** Every 400-year cycle has 146097 days; year 0 begins on day -719528. */
  lemma DayFromYearEra(k: int)
    ensures DayFromYear(400 * k) == 146097 * k - 719528
  {
    var a, b, c := 400 * k - 1969, 400 * k - 1901, 400 * k - 1601;
    QuotientBy4(a, 100 * k - 493);
    QuotientBy100(b, 4 * k - 20);
    QuotientBy400(c, k - 5);
  }

  /** The quotients of `DayFromYear` at the start of an era: each offset
      year is a multiple of the divisor plus a remainder below it. */
  lemma QuotientBy4(a: int, q: int)
    requires a == 4 * q + 3
    ensures a / 4 == q
  {
  }

  lemma QuotientBy100(a: int, q: int)
    requires a == 100 * q + 99
    ensures a / 100 == q
  {
  }

  lemma QuotientBy400(a: int, q: int)
    requires a == 400 * q + 399
    ensures a / 400 == q
  {
  }

  /** Later years start later, by at least the length of the earlier one. */
  lemma {:induction false} DayFromYearMonotone(a: int, b: int)
    requires a < b
    ensures DayFromYear(b) >= DayFromYear(a) + DaysInYear(a)
    decreases b - a
  {
    DayFromYearStep(a);
    if a + 1 < b {
      DayFromYearMonotone(a + 1, b);
    }
  }

  /** The day within year `y` on which 0-based month `m` begins; `m == 12`
      gives the length of the year. */
  function MonthStart(y: int, m: int): int
    requires 0 <= m <= 12
  {
    var base := [0, 31, 59, 90, 120, 151, 181, 212, 243, 273, 304, 334, 365][m];
    if m >= 2 && IsLeapYear(y) then base + 1 else base
  }

  /** Months have 28 to 31 days. */
  function DaysInMonth(y: int, m: int): (r: int)
    requires 0 <= m < 12
    ensures 28 <= r <= 31
    ensures r == 29 <==> m == 1 && IsLeapYear(y)
  {
    MonthStart(y, m + 1) - MonthStart(y, m)
  }

  /** MakeDay: the day number of date `date` of 0-based month `month` of
      `year`; months and dates outside their ranges carry over. */
  function MakeDay(year: int, month: int, date: int): int {
    var ym := year + month / 12;
    DayFromYear(ym) + MonthStart(ym, month % 12) + date - 1
  }

  /** `new Date(year, month, date)`, local midnight, where a year in 0..99
      means 1900 plus that year; a NaN argument gives an invalid date. */
  function LocalDate(year: Option<int>, month: Option<int>, date: Option<int>, offset: int): (r: TimeValue)
    ensures r.Some? ==> year.Some? && month.Some? && date.Some?
    ensures r.Some? ==> TimeWithinDay(r.value + offset) == 0
    ensures r.Some? && (year.value < 0 || year.value > 99) ==>
              Day(r.value + offset) == MakeDay(year.value, month.value, date.value)
    ensures r.Some? && 0 <= year.value <= 99 ==>
              Day(r.value + offset) == MakeDay(1900 + year.value, month.value, date.value)
  {
    if year.None? || month.None? || date.None? then None
    else
      var y := if 0 <= year.value <= 99 then 1900 + year.value else year.value;
      Midnight(MakeDay(y, month.value, date.value), offset)
  }

  /** Outside 0..99 the year is taken as given. */
  lemma LocalDateOfYear(y: int, m: int, d: int, offset: int)
    requires y < 0 || y > 99
    ensures LocalDate(Some(y), Some(m), Some(d), offset) == Midnight(MakeDay(y, m, d), offset)
  {
  }

  /** A calendar date as `getFullYear`, `getMonth` (0-based) and `getDate`
      report it. */
  datatype CivilDate = CivilDate(year: int, month: int, date: int)

  /** The year containing day `d` counted from 1 January of `y`, and the
      day within that year. */
  function YearFrom(y: int, d: int): (r: (int, int))
    requires d >= 0
    ensures 0 <= r.1 < DaysInYear(r.0)
    ensures DayFromYear(r.0) + r.1 == DayFromYear(y) + d
    decreases d
  {
    if d < DaysInYear(y) then (y, d)
    else
      DayFromYearStep(y);
      YearFrom(y + 1, d - DaysInYear(y))
  }

  /** The 0-based month of year `y` containing day `doy`, searching from `m`. */
  function MonthFrom(y: int, doy: int, m: int): (r: int)
    requires 0 <= m < 12 && MonthStart(y, m) <= doy < DaysInYear(y)
    ensures m <= r < 12 && MonthStart(y, r) <= doy < MonthStart(y, r + 1)
    decreases 12 - m
  {
    if doy < MonthStart(y, m + 1) then m else MonthFrom(y, doy, m + 1)
  }

  /** Within its year, a date's day number is the year's start plus the
      month's start plus the date. */
  lemma MakeDayInYear(y: int, m: int, d: int)
    requires 0 <= m < 12
    ensures MakeDay(y, m, d) == DayFromYear(y) + MonthStart(y, m) + d - 1
  {
    assert m / 12 == 0 && m % 12 == m;
  }

  /** The calendar date of day number `z`. */
  function CivilFromDay(z: int): (r: CivilDate)
    ensures 0 <= r.month < 12 && 1 <= r.date <= DaysInMonth(r.year, r.month)
    ensures MakeDay(r.year, r.month, r.date) == z
  {
    var era := (z + 719528) / 146097;
    var doe := (z + 719528) % 146097;
    DayFromYearEra(era);
    var yd := YearFrom(400 * era, doe);
    var m := MonthFrom(yd.0, yd.1, 0);
    var r := CivilDate(yd.0, m, yd.1 - MonthStart(yd.0, m) + 1);
    MakeDayInYear(r.year, r.month, r.date);
    r
  }

  /** A valid calendar date is the date of the day `MakeDay` gives it. */
  lemma CivilFromMakeDay(y: int, m: int, d: int)
    requires 0 <= m < 12 && 1 <= d <= DaysInMonth(y, m)
    ensures CivilFromDay(MakeDay(y, m, d)) == CivilDate(y, m, d)
  {
    var r := CivilFromDay(MakeDay(y, m, d));
    MakeDayInYear(y, m, d);
    MakeDayInYear(r.year, r.month, r.date);
    MonthWithinYear(y, m);
    MonthWithinYear(r.year, r.month);
    YearUnique(r.year, MonthStart(r.year, r.month) + r.date - 1, y, MonthStart(y, m) + d - 1);
    MonthUnique(y, r.month, r.date, m, d);
  }

  /** A day number has one year and one day within that year. */
  lemma YearUnique(a: int, i: int, b: int, j: int)
    requires 0 <= i < DaysInYear(a) && 0 <= j < DaysInYear(b)
    requires DayFromYear(a) + i == DayFromYear(b) + j
    ensures a == b && i == j
  {
    if a < b {
      DayFromYearMonotone(a, b);
    } else if b < a {
      DayFromYearMonotone(b, a);
    }
  }

  /** A day within a year has one month and one date within that month. */
  lemma MonthUnique(y: int, m1: int, d1: int, m2: int, d2: int)
    requires 0 <= m1 < 12 && 1 <= d1 <= DaysInMonth(y, m1)
    requires 0 <= m2 < 12 && 1 <= d2 <= DaysInMonth(y, m2)
    requires MonthStart(y, m1) + d1 == MonthStart(y, m2) + d2
    ensures m1 == m2 && d1 == d2
  {
    if m1 < m2 {
      MonthStartIncreasing(y, m1, m2);
    } else if m2 < m1 {
      MonthStartIncreasing(y, m2, m1);
    }
  }

  lemma MonthWithinYear(y: int, m: int)
    requires 0 <= m < 12
    ensures 0 <= MonthStart(y, m) < MonthStart(y, m + 1) <= DaysInYear(y)
  {
  }

  lemma MonthStartIncreasing(y: int, a: int, b: int)
    requires 0 <= a < b < 12
    ensures MonthStart(y, a + 1) <= MonthStart(y, b)
  {
  }

  /** The calendar date of the local day containing time `t`. */
  function LocalCivil(t: int, offset: int): CivilDate {
    CivilFromDay(Day(t + offset))
  }

  /** Local midnight of a time is the midnight of its local calendar date. */
  lemma StartOfLocalDayCivil(t: int, offset: int)
    ensures var c := LocalCivil(t, offset);
            StartOfLocalDay(Some(t), offset) == Midnight(MakeDay(c.year, c.month, c.date), offset)
  {
    var z := Day(t + offset);
    var c := CivilFromDay(z);
    assert StartOfLocalDay(Some(t), offset) == Midnight(z, offset);
    assert MakeDay(c.year, c.month, c.date) == z;
  }

  /** The calendar date of the UTC day containing time `t`. */
  function UtcCivil(t: int): CivilDate {
    CivilFromDay(Day(t))
  }
}

=== FILE: cloudstorage.dfy ===
/** The access layer of hooks/useCloudStorage.ts: which records and events a
    signed-in user sees, the community registry merged from manual entries
    and uploaded data, the guards on administrative writes, batched uploads,
    and the profile kept for each signed-in user. The database is a value
    passed in and returned; subscriptions and network failures are not
    part of the model. */
module CloudStorage {
  import opened Wrappers
  import opened Seqs
  import opened Sorting
  import opened Model

  // ---------------------------------------------------------------------
  // Visibility

  /** Whether the holder of `profile` sees the records of community `code`:
      a super admin sees every community, a community admin those on the
      allow-list, anybody else none. */
  predicate SeesCode(profile: Option<UserProfile>, code: string) {
    profile.Some? &&
    (profile.value.role == SuperAdmin ||
     (profile.value.role == CommunityAdmin && code in profile.value.allowedCommunities))
  }

  function SeesRecord(profile: Option<UserProfile>): Developer -> bool {
    (d: Developer) => SeesCode(profile, d.communityCode)
  }

  /** `cloudData`: the records visible to the signed-in profile, in order. */
  function CloudData(profile: Option<UserProfile>, raw: seq<Developer>): (r: seq<Developer>)
    ensures r == Filter(SeesRecord(profile), raw)
    ensures forall d :: d in r <==> d in raw && SeesCode(profile, d.communityCode)
    ensures profile.Some? && profile.value.role == SuperAdmin ==> r == raw
    ensures profile.None? || profile.value.role == Viewer ==> r == []
  {
    if profile.None? then
      FilterNone(SeesRecord(profile), raw);
      []
    else if profile.value.role == SuperAdmin then
      FilterAll(SeesRecord(profile), raw);
      raw
    else if profile.value.role == CommunityAdmin then
      FilterCongruent(CodeIn(profile.value.allowedCommunities), SeesRecord(profile), raw);
      Filter(CodeIn(profile.value.allowedCommunities), raw)
    else
      FilterNone(SeesRecord(profile), raw);
      []
  }

  /** Whether the holder of `profile` sees event `e`: as for records, except
      that a community admin also sees the events addressed to `"All"`. */
  predicate SeesEvent(profile: Option<UserProfile>, e: Event) {
    profile.Some? &&
    (profile.value.role == SuperAdmin ||
     (profile.value.role == CommunityAdmin &&
      (e.communityCode == "All" || e.communityCode in profile.value.allowedCommunities)))
  }

  function SeesEventP(profile: Option<UserProfile>): Event -> bool {
    (e: Event) => SeesEvent(profile, e)
  }

  function AdminEvent(allowed: seq<string>): Event -> bool {
    (e: Event) => e.communityCode == "All" || e.communityCode in allowed
  }

  /** `cloudEvents`: the events visible to the signed-in profile, in order. */
  function CloudEvents(profile: Option<UserProfile>, raw: seq<Event>): (r: seq<Event>)
    ensures r == Filter(SeesEventP(profile), raw)
    ensures forall e :: e in r <==> e in raw && SeesEvent(profile, e)
    ensures profile.Some? && profile.value.role == SuperAdmin ==> r == raw
    ensures profile.None? || profile.value.role == Viewer ==> r == []
  {
    if profile.None? then
      FilterNone(SeesEventP(profile), raw);
      []
    else if profile.value.role == SuperAdmin then
      FilterAll(SeesEventP(profile), raw);
      raw
    else if profile.value.role == CommunityAdmin then
      FilterCongruent(AdminEvent(profile.value.allowedCommunities), SeesEventP(profile), raw);
      Filter(AdminEvent(profile.value.allowedCommunities), raw)
    else
      FilterNone(SeesEventP(profile), raw);
      []
  }

  /** Events follow the same rule as records, plus the events for everybody:
      whoever sees a community's records sees its events, and a community
      admin sees exactly those and the `"All"` events. */
  lemma EventsExtendRecords(profile: Option<UserProfile>, e: Event)
    ensures SeesCode(profile, e.communityCode) ==> SeesEvent(profile, e)
    ensures SeesEvent(profile, e) <==>
              SeesCode(profile, e.communityCode) ||
              (e.communityCode == "All" && profile.Some? && profile.value.role == CommunityAdmin)
  {
  }

  // ---------------------------------------------------------------------
  // Community registry

  /** The most recent entry for `code` in `entries`, if any. */
  function LastWith(entries: seq<ManagedCommunity>, code: string): (r: Option<ManagedCommunity>)
    ensures r.Some? ==> r.value in entries && r.value.code == code
    ensures r.None? <==> forall c :: c in entries ==> c.code != code
  {
    if |entries| == 0 then None
    else
      var last := entries[|entries| - 1];
      if last.code == code then Some(last)
      else
        var r := LastWith(entries[..|entries| - 1], code);
        assert entries == entries[..|entries| - 1] + [last];
        r
  }

  /** The entry found is the last one with that code: no later entry has it. */
  lemma {:induction false} LastWithIsLatest(entries: seq<ManagedCommunity>, code: string)
    requires LastWith(entries, code).Some?
    ensures exists i :: 0 <= i < |entries| && entries[i] == LastWith(entries, code).value &&
              (forall j :: i < j < |entries| ==> entries[j].code != code)
    decreases |entries|
  {
    var n := |entries| - 1;
    if entries[n].code == code {
      assert entries[n] == LastWith(entries, code).value;
    } else {
      var p := entries[..n];
      assert LastWith(entries, code) == LastWith(p, code);
      LastWithIsLatest(p, code);
      var i :| 0 <= i < |p| && p[i] == LastWith(p, code).value &&
               (forall j :: i < j < |p| ==> p[j].code != code);
      assert entries[i] == p[i];
      assert forall j :: i < j < |entries| ==> entries[j].code != code by {
        assert forall j :: i < j < n ==> entries[j] == p[j];
      }
    }
  }

  /** `entries.forEach(c => map.set(c.code, c))`. */
  function SetAll(m: map<string, ManagedCommunity>, entries: seq<ManagedCommunity>): (r: map<string, ManagedCommunity>)
    decreases |entries|
  {
    if |entries| == 0 then m
    else SetAll(m[entries[0].code := entries[0]], entries[1..])
  }

  function ManagedCodes(entries: seq<ManagedCommunity>): (r: seq<string>)
    ensures |r| == |entries|
    ensures forall i :: 0 <= i < |entries| ==> r[i] == entries[i].code
  {
    seq(|entries|, i requires 0 <= i < |entries| => entries[i].code)
  }

  /** After registering `entries` over `m`, each code holds its most recent
      entry and every other key keeps its value. */
  lemma {:induction false} SetAllSpec(m: map<string, ManagedCommunity>, entries: seq<ManagedCommunity>)
    ensures SetAll(m, entries).Keys == m.Keys + set c | c in entries :: c.code
    ensures forall k :: k in SetAll(m, entries) ==>
              SetAll(m, entries)[k] == if LastWith(entries, k).Some? then LastWith(entries, k).value else m[k]
    decreases |entries|
  {
    if |entries| > 0 {
      var head := entries[0];
      var m' := m[head.code := head];
      SetAllSpec(m', entries[1..]);
      assert entries == [head] + entries[1..];
      forall k | k in SetAll(m, entries)
        ensures SetAll(m, entries)[k] == if LastWith(entries, k).Some? then LastWith(entries, k).value else m[k]
      {
        LastWithCons(head, entries[1..], k);
      }
    }
  }

  /** The codes registered after `SetAll`: the earlier ones and those of
      the entries. */
  lemma {:induction false} SetAllKeys(m: map<string, ManagedCommunity>, entries: seq<ManagedCommunity>)
    ensures forall k :: k in SetAll(m, entries) <==> k in m || k in ManagedCodes(entries)
    decreases |entries|
  {
    if |entries| > 0 {
      SetAllKeys(m[entries[0].code := entries[0]], entries[1..]);
      assert ManagedCodes(entries) == [entries[0].code] + ManagedCodes(entries[1..]);
    }
  }

  /** The most recent entry of `[head] + rest`: the one of `rest`, if any. */
  lemma LastWithCons(head: ManagedCommunity, rest: seq<ManagedCommunity>, k: string)
    ensures LastWith([head] + rest, k) ==
              if LastWith(rest, k).Some? then LastWith(rest, k)
              else if head.code == k then Some(head) else None
  {
    LastWithAppend([head], rest, k);
    assert LastWith([head], k) == if head.code == k then Some(head) else LastWith([], k);
  }

  /** The most recent entry of `a + b`: the one of `b`, if any, else the
      one of `a`. */
  lemma {:induction false} LastWithAppend(a: seq<ManagedCommunity>, b: seq<ManagedCommunity>, k: string)
    ensures LastWith(a + b, k) == if LastWith(b, k).Some? then LastWith(b, k) else LastWith(a, k)
    decreases |b|
  {
    if |b| == 0 {
      assert a + b == a;
    } else {
      var s := a + b;
      var n := |b| - 1;
      assert s[|s| - 1] == b[n];
      if b[n].code != k {
        assert s[..|s| - 1] == a + b[..n];
        LastWithAppend(a, b[..n], k);
      }
    }
  }

  /** The registry entry made for a code found only in uploaded data. */
  function CsvEntry(code: string, now: int): ManagedCommunity {
    ManagedCommunity(code, code, None, Csv, now, None)
  }

  /** `devs.forEach(...)`: every non-empty code not yet registered gets a
      CSV entry; registered codes keep their entries. */
  function DetectAll(m: map<string, ManagedCommunity>, devs: seq<Developer>, now: int): (r: map<string, ManagedCommunity>)
    ensures forall k :: k in m ==> k in r && r[k] == m[k]
    ensures forall k :: k in r && k !in m ==> r[k] == CsvEntry(k, now)
    decreases |devs|
  {
    if |devs| == 0 then m
    else
      var code := devs[0].communityCode;
      var m' := if code != "" && code !in m then m[code := CsvEntry(code, now)] else m;
      DetectAll(m', devs[1..], now)
  }

  /** The registry afterwards holds exactly the codes it held and the
      non-empty codes of the records. */
  lemma {:induction false} DetectAllKeys(m: map<string, ManagedCommunity>, devs: seq<Developer>, now: int)
    ensures forall k :: k in DetectAll(m, devs, now) <==> k in m || (k in CodesOf(devs) && k != "")
    decreases |devs|
  {
    if |devs| > 0 {
      var code := devs[0].communityCode;
      var m' := if code != "" && code !in m then m[code := CsvEntry(code, now)] else m;
      DetectAllKeys(m', devs[1..], now);
      assert CodesOf(devs) == [code] + CodesOf(devs[1..]);
    }
  }

  function NonEmptyCode(): string -> bool {
    (c: string) => c != ""
  }

  /** `mergedCommunityList`: the manual entries (the most recent per code),
      plus a CSV entry for every other non-empty code of the unfiltered
      records, sorted by code. `now` is the clock reading given to the
      CSV entries. */
  function MergedCommunityList(managed: seq<ManagedCommunity>, raw: seq<Developer>, now: int): seq<ManagedCommunity> {
    var codes := RegistryCodes(managed, raw);
    var m := Registry(managed, raw, now);
    RegistryCodesSpec(managed, raw);
    RegistrySpec(managed, raw, now);
    seq(|codes|, i requires 0 <= i < |codes| => m[codes[i]])
  }

  /** A code the merged list shows: a manual one, or a non-empty uploaded one. */
  predicate Listed(managed: seq<ManagedCommunity>, raw: seq<Developer>, code: string) {
    code in ManagedCodes(managed) || (code in CodesOf(raw) && code != "")
  }

  /** The map built by `mergedCommunityList`: manual entries set first, then
      CSV entries detected. */
  function Registry(managed: seq<ManagedCommunity>, raw: seq<Developer>, now: int): map<string, ManagedCommunity> {
    DetectAll(SetAll(map[], managed), raw, now)
  }

  /** The registry's codes, each once, in ascending order. */
  function RegistryCodes(managed: seq<ManagedCommunity>, raw: seq<Developer>): seq<string> {
    SortStrings(Dedupe(ManagedCodes(managed) + Filter(NonEmptyCode(), CodesOf(raw))))
  }

  /** The registry holds the listed codes, each with its latest manual entry
      or, failing one, a CSV entry stamped `now`. */
  lemma RegistrySpec(managed: seq<ManagedCommunity>, raw: seq<Developer>, now: int)
    ensures forall k :: k in Registry(managed, raw, now) <==> Listed(managed, raw, k)
    ensures forall k :: k in Registry(managed, raw, now) && LastWith(managed, k).Some? ==>
              Registry(managed, raw, now)[k] == LastWith(managed, k).value
    ensures forall k :: k in Registry(managed, raw, now) && LastWith(managed, k).None? ==>
              Registry(managed, raw, now)[k] == CsvEntry(k, now)
  {
    var base := SetAll(map[], managed);
    SetAllKeys(map[], managed);
    SetAllSpec(map[], managed);
    DetectAllKeys(base, raw, now);
    forall k | k in Registry(managed, raw, now) && LastWith(managed, k).Some?
      ensures Registry(managed, raw, now)[k] == LastWith(managed, k).value
    {
      assert LastWith(managed, k).value in managed;
      assert k in ManagedCodes(managed) by {
        var i :| 0 <= i < |managed| && managed[i] == LastWith(managed, k).value;
        assert ManagedCodes(managed)[i] == k;
      }
    }
  }

  /** The sorted code list is strictly ascending and holds exactly the listed
      codes. */
  lemma RegistryCodesSpec(managed: seq<ManagedCommunity>, raw: seq<Developer>)
    ensures StrictlyAscending(RegistryCodes(managed, raw))
    ensures forall k :: k in RegistryCodes(managed, raw) <==> Listed(managed, raw, k)
  {
    var keys := Dedupe(ManagedCodes(managed) + Filter(NonEmptyCode(), CodesOf(raw)));
    var sorted := RegistryCodes(managed, raw);
    forall k ensures k in sorted <==> Listed(managed, raw, k) {
      assert k in sorted <==> k in multiset(keys);
      assert k in keys <==> k in ManagedCodes(managed) + Filter(NonEmptyCode(), CodesOf(raw));
    }
  }

  /** The list is sorted by code without repeats, lists exactly the manual
      codes and the non-empty uploaded ones, and gives each code its latest
      manual entry or, failing one, a CSV entry stamped `now`. */
  lemma MergedCommunityListSpec(managed: seq<ManagedCommunity>, raw: seq<Developer>, now: int)
    ensures var r := MergedCommunityList(managed, raw, now);
            StrictlyAscending(seq(|r|, i requires 0 <= i < |r| => r[i].code))
            && (forall code :: (exists i :: 0 <= i < |r| && r[i].code == code) <==> Listed(managed, raw, code))
            && (forall i :: 0 <= i < |r| && LastWith(managed, r[i].code).Some? ==>
                  r[i] == LastWith(managed, r[i].code).value)
            && (forall i :: 0 <= i < |r| && LastWith(managed, r[i].code).None? ==>
                  r[i] == CsvEntry(r[i].code, now))
  {
    var codes := RegistryCodes(managed, raw);
    var m := Registry(managed, raw, now);
    RegistryCodesSpec(managed, raw);
    RegistrySpec(managed, raw, now);
    var r := MergedCommunityList(managed, raw, now);
    assert |r| == |codes|;
    forall i | 0 <= i < |r| ensures r[i] == m[codes[i]] && r[i].code == codes[i] {
      assert codes[i] in codes;
      EntryCode(managed, raw, now, codes[i]);
    }
    assert seq(|r|, i requires 0 <= i < |r| => r[i].code) == codes;
    forall code ensures (exists i :: 0 <= i < |r| && r[i].code == code) <==> code in codes {
      if code in codes {
        var i :| 0 <= i < |codes| && codes[i] == code;
        assert r[i].code == code;
      }
    }
  }

  /** Every registry entry is stored under its own code. */
  lemma EntryCode(managed: seq<ManagedCommunity>, raw: seq<Developer>, now: int, k: string)
    requires k in Registry(managed, raw, now)
    ensures Registry(managed, raw, now)[k].code == k
  {
    RegistrySpec(managed, raw, now);
  }

  // ---------------------------------------------------------------------
  // Guarded administrative actions

  /** The signed-in account as the authentication service reports it. */
  datatype AuthUser = AuthUser(uid: string, email: Option<string>, displayName: Option<string>, photoURL: Option<string>)

  /** The collections the administrative actions write: user profiles by
      uid and registry entries by code. */
  datatype Store = Store(users: map<string, UserProfile>, managed: map<string, ManagedCommunity>)

  datatype AdminAction =
    | UpdateUserRole(uid: string, role: Role)
    | UpdateUserCommunities(uid: string, communities: seq<string>)
    | CreateManualCommunity(code: string, name: string, description: Option<string>)
    | DeleteManualCommunity(code: string)

  predicate IsSuperAdmin(profile: Option<UserProfile>) {
    profile.Some? && profile.value.role == SuperAdmin
  }

  /** One administrative action at time `now`. Only a super admin may act;
      creating and deleting also need a signed-in user. Updating a profile
      that does not exist fails and changes nothing. */
  function Perform(store: Store, user: Option<AuthUser>, profile: Option<UserProfile>, action: AdminAction, now: int): (r: Store)
    ensures !IsSuperAdmin(profile) ==> r == store
    ensures (action.CreateManualCommunity? || action.DeleteManualCommunity?) && user.None? ==> r == store
    ensures r.users.Keys == store.users.Keys
    ensures action.UpdateUserRole? || action.UpdateUserCommunities? ==> r.managed == store.managed
    ensures action.CreateManualCommunity? || action.DeleteManualCommunity? ==> r.users == store.users
    ensures forall uid :: uid in r.users && ((!action.UpdateUserRole? && !action.UpdateUserCommunities?) || uid != action.uid) ==>
              r.users[uid] == store.users[uid]
    ensures action.UpdateUserRole? && IsSuperAdmin(profile) && action.uid in store.users ==>
              r.users[action.uid] == store.users[action.uid].(role := action.role)
    ensures action.UpdateUserCommunities? && IsSuperAdmin(profile) && action.uid in store.users ==>
              r.users[action.uid] == store.users[action.uid].(allowedCommunities := action.communities)
    ensures action.CreateManualCommunity? && IsSuperAdmin(profile) && user.Some? ==>
              r.managed == store.managed[action.code := ManagedCommunity(action.code, action.name, action.description, Manual, now, user.value.email)]
    ensures action.DeleteManualCommunity? && IsSuperAdmin(profile) && user.Some? ==>
              r.managed == store.managed - {action.code}
  {
    if !IsSuperAdmin(profile) then store
    else
      match action
      case UpdateUserRole(uid, role) =>
        if uid in store.users then store.(users := store.users[uid := store.users[uid].(role := role)]) else store
      case UpdateUserCommunities(uid, communities) =>
        if uid in store.users then store.(users := store.users[uid := store.users[uid].(allowedCommunities := communities)])
        else store
      case CreateManualCommunity(code, name, description) =>
        if user.None? then store
        else store.(managed := store.managed[code := ManagedCommunity(code, name, description, Manual, now, user.value.email)])
      case DeleteManualCommunity(code) =>
        if user.None? then store else store.(managed := store.managed - {code})
  }

  /** Creating a community that did not exist and deleting it again leaves
      the registry as it was. */
  lemma CreateThenDelete(store: Store, user: AuthUser, profile: UserProfile, code: string, name: string,
                         description: Option<string>, now: int)
    requires profile.role == SuperAdmin && code !in store.managed
    ensures Perform(Perform(store, Some(user), Some(profile), CreateManualCommunity(code, name, description), now),
                    Some(user), Some(profile), DeleteManualCommunity(code), now) == store
  {
    var created := Perform(store, Some(user), Some(profile), CreateManualCommunity(code, name, description), now);
    assert created.managed - {code} == store.managed;
  }

  // ---------------------------------------------------------------------
  // Batched upload

  const BatchSize: nat := 500

  /** The concatenation of the chunks. */
  function Concat<T>(chunks: seq<seq<T>>): seq<T> {
    if |chunks| == 0 then [] else chunks[0] + Concat(chunks[1..])
  }

  /** `data.slice(i, i + size)` for `i = 0, size, 2 * size, ...` below
      `|data|`: consecutive non-empty chunks, all full but the last, that
      together are `data`; their number is `|data| / size` rounded up. */
  function Chunks<T>(data: seq<T>, size: nat): (r: seq<seq<T>>)
    requires size > 0
    ensures Concat(r) == data
    ensures forall i :: 0 <= i < |r| ==> 0 < |r[i]| <= size
    ensures forall i :: 0 <= i < |r| - 1 ==> |r[i]| == size
    ensures (|r| - 1) * size < |data| <= |r| * size || (|r| == 0 && |data| == 0)
    decreases |data|
  {
    if |data| == 0 then []
    else if |data| <= size then
      assert Concat([data]) == data + Concat([data][1..]);
      [data]
    else
      var rest := Chunks(data[size..], size);
      var r := [data[..size]] + rest;
      assert r[1..] == rest;
      assert data == data[..size] + data[size..];
      assert |r| * size == |rest| * size + size;
      assert (|r| - 1) * size == (|rest| - 1) * size + size;
      r
  }

  /** A developer document: the record, who uploaded it and when. */
  datatype StoredDeveloper = StoredDeveloper(record: Developer, uploadedBy: Option<string>, lastUpdated: int)

  /** Whether an upload by `profile` writes `d`: only a community admin's
      upload skips records outside the allow-list. */
  predicate Writes(profile: Option<UserProfile>, d: Developer) {
    !(profile.Some? && profile.value.role == CommunityAdmin && d.communityCode !in profile.value.allowedCommunities)
  }

  /** Writing `data` in order, each written record replacing the document
      with its developer id. */
  function WriteAll(db: map<string, StoredDeveloper>, profile: Option<UserProfile>, data: seq<Developer>,
                    uploader: Option<string>, now: int): map<string, StoredDeveloper>
    decreases |data|
  {
    if |data| == 0 then db
    else
      var d := data[0];
      var db' := if Writes(profile, d) then db[d.developerId := StoredDeveloper(d, uploader, now)] else db;
      WriteAll(db', profile, data[1..], uploader, now)
  }

  /** Writing the chunks one after another. */
  function WriteChunks(db: map<string, StoredDeveloper>, profile: Option<UserProfile>, chunks: seq<seq<Developer>>,
                       uploader: Option<string>, now: int): map<string, StoredDeveloper>
    decreases |chunks|
  {
    if |chunks| == 0 then db
    else WriteChunks(WriteAll(db, profile, chunks[0], uploader, now), profile, chunks[1..], uploader, now)
  }

  lemma {:induction false} WriteAllAppend(db: map<string, StoredDeveloper>, profile: Option<UserProfile>,
                                          a: seq<Developer>, b: seq<Developer>, uploader: Option<string>, now: int)
    ensures WriteAll(db, profile, a + b, uploader, now) == WriteAll(WriteAll(db, profile, a, uploader, now), profile, b, uploader, now)
    decreases |a|
  {
    if |a| == 0 {
      assert a + b == b;
    } else {
      assert (a + b)[0] == a[0] && (a + b)[1..] == a[1..] + b;
      var d := a[0];
      var db' := if Writes(profile, d) then db[d.developerId := StoredDeveloper(d, uploader, now)] else db;
      WriteAllAppend(db', profile, a[1..], b, uploader, now);
    }
  }

  /** Committing chunk by chunk writes the same as writing everything in order. */
  lemma {:induction false} WriteChunksConcat(db: map<string, StoredDeveloper>, profile: Option<UserProfile>,
                                             chunks: seq<seq<Developer>>, uploader: Option<string>, now: int)
    ensures WriteChunks(db, profile, chunks, uploader, now) == WriteAll(db, profile, Concat(chunks), uploader, now)
    decreases |chunks|
  {
    if |chunks| > 0 {
      WriteChunksConcat(WriteAll(db, profile, chunks[0], uploader, now), profile, chunks[1..], uploader, now);
      WriteAllAppend(db, profile, chunks[0], Concat(chunks[1..]), uploader, now);
    }
  }

  /** The ids `WriteAll` writes. */
  function WrittenIds(profile: Option<UserProfile>, data: seq<Developer>): set<string> {
    set d | d in data && Writes(profile, d) :: d.developerId
  }

  /** Writing `data` adds exactly the written ids. */
  lemma {:induction false} WriteAllKeys(db: map<string, StoredDeveloper>, profile: Option<UserProfile>,
                                        data: seq<Developer>, uploader: Option<string>, now: int)
    ensures WriteAll(db, profile, data, uploader, now).Keys == db.Keys + WrittenIds(profile, data)
    decreases |data|
  {
    if |data| > 0 {
      var d := data[0];
      var db' := if Writes(profile, d) then db[d.developerId := StoredDeveloper(d, uploader, now)] else db;
      WriteAllKeys(db', profile, data[1..], uploader, now);
      WrittenIdsCons(profile, data);
    }
  }

  lemma WrittenIdsCons(profile: Option<UserProfile>, data: seq<Developer>)
    requires |data| > 0
    ensures WrittenIds(profile, data) ==
              (if Writes(profile, data[0]) then {data[0].developerId} else {}) + WrittenIds(profile, data[1..])
  {
    assert data == [data[0]] + data[1..];
  }

  /** A document whose id nobody writes keeps its content. */
  lemma {:induction false} WriteAllUntouched(db: map<string, StoredDeveloper>, profile: Option<UserProfile>,
                                             data: seq<Developer>, uploader: Option<string>, now: int, k: string)
    requires k in db && k !in WrittenIds(profile, data)
    ensures k in WriteAll(db, profile, data, uploader, now) && WriteAll(db, profile, data, uploader, now)[k] == db[k]
    decreases |data|
  {
    if |data| > 0 {
      var d := data[0];
      var db' := if Writes(profile, d) then db[d.developerId := StoredDeveloper(d, uploader, now)] else db;
      WrittenIdsCons(profile, data);
      WriteAllUntouched(db', profile, data[1..], uploader, now, k);
    }
  }

  /** A written id holds the last record written for it. */
  lemma {:induction false} WriteAllLast(db: map<string, StoredDeveloper>, profile: Option<UserProfile>,
                                        data: seq<Developer>, uploader: Option<string>, now: int, i: nat)
    requires i < |data| && Writes(profile, data[i]) && LastWrite(profile, data, i)
    ensures data[i].developerId in WriteAll(db, profile, data, uploader, now)
    ensures WriteAll(db, profile, data, uploader, now)[data[i].developerId] == StoredDeveloper(data[i], uploader, now)
    decreases |data|
  {
    var d := data[0];
    var db' := if Writes(profile, d) then db[d.developerId := StoredDeveloper(d, uploader, now)] else db;
    if i == 0 {
      WriteAllUntouched(db', profile, data[1..], uploader, now, d.developerId);
    } else {
      assert LastWrite(profile, data[1..], i - 1) by {
        forall j | i - 1 < j < |data[1..]| && Writes(profile, data[1..][j])
          ensures data[1..][j].developerId != data[1..][i - 1].developerId
        {
          assert data[1..][j] == data[j + 1];
        }
      }
      WriteAllLast(db', profile, data[1..], uploader, now, i - 1);
    }
  }

  /** `data[i]` is the last written record with its id. */
  predicate LastWrite(profile: Option<UserProfile>, data: seq<Developer>, i: int)
    requires 0 <= i < |data|
  {
    forall j :: i < j < |data| && Writes(profile, data[j]) ==> data[j].developerId != data[i].developerId
  }

  /** `uploadBatch`: nothing without a signed-in user; otherwise the chunks
      of at most `BatchSize` records committed in order. */
  function UploadBatch(db: map<string, StoredDeveloper>, user: Option<AuthUser>, profile: Option<UserProfile>,
                       data: seq<Developer>, now: int): (r: map<string, StoredDeveloper>)
    ensures user.None? ==> r == db
    ensures user.Some? ==> r == WriteAll(db, profile, data, user.value.email, now)
  {
    if user.None? then db
    else
      var chunks := Chunks(data, BatchSize);
      WriteChunksConcat(db, profile, chunks, user.value.email, now);
      WriteChunks(db, profile, chunks, user.value.email, now)
  }

  // ---------------------------------------------------------------------
  // Sign-in and profiles

  /** What the hook holds for the signed-in user. */
  datatype Session = Session(
    user: Option<AuthUser>,
    connected: bool,
    profile: Option<UserProfile>,
    rawData: seq<Developer>,
    rawEvents: seq<Event>,
    allUsers: seq<UserProfile>)

  /** `text || fallback` for an optional string. */
  function OrElse(text: Option<string>, fallback: string): string {
    if text.Some? && text.value != "" then text.value else fallback
  }

  /** The profile created at a first sign-in: a viewer with no communities. */
  function NewProfile(u: AuthUser, now: int): (p: UserProfile)
    ensures p.uid == u.uid && p.role == Viewer && p.allowedCommunities == []
    ensures p.displayName != "" && p.createdAt == now && p.lastLogin == now
  {
    UserProfile(u.uid, OrElse(u.email, ""), OrElse(u.displayName, "User"),
                if u.photoURL.Some? && u.photoURL.value != "" then u.photoURL else None,
                Viewer, [], now, now)
  }

  datatype AuthOutcome = AuthOutcome(session: Session, users: map<string, UserProfile>)

  /** The authentication listener at time `now`, with the stored profiles
      `users`. A known user's stored last-login time is updated while the
      session keeps the profile as read before the update; an unknown user
      gets a new profile; signing out clears the profile and the data. */
  function OnAuthStateChanged(s: Session, users: map<string, UserProfile>, current: Option<AuthUser>, now: int): (r: AuthOutcome)
    ensures r.session.user == current && r.session.connected == current.Some?
    ensures current.None? ==> r.session.profile.None? && r.session.rawData == [] && r.session.rawEvents == []
                              && r.session.allUsers == [] && r.users == users
    ensures current.Some? ==> r.users.Keys == users.Keys + {current.value.uid}
    ensures current.Some? && current.value.uid in users ==>
              r.session.profile == Some(users[current.value.uid]) &&
              r.users == users[current.value.uid := users[current.value.uid].(lastLogin := now)]
    ensures current.Some? && current.value.uid !in users ==>
              r.session.profile == Some(NewProfile(current.value, now)) &&
              r.users == users[current.value.uid := NewProfile(current.value, now)]
  {
    match current
    case None =>
      AuthOutcome(Session(None, false, None, [], [], []), users)
    case Some(u) =>
      if u.uid in users then
        var stored := users[u.uid];
        AuthOutcome(s.(user := current, connected := true, profile := Some(stored)),
                    users[u.uid := stored.(lastLogin := now)])
      else
        var p := NewProfile(u, now);
        AuthOutcome(s.(user := current, connected := true, profile := Some(p)), users[u.uid := p])
  }

  /** Signing in never changes anybody's role or allow-list; a first
      sign-in stores a viewer with no communities. */
  lemma SignInKeepsRoles(s: Session, users: map<string, UserProfile>, u: AuthUser, now: int)
    ensures var r := OnAuthStateChanged(s, users, Some(u), now);
            (forall uid :: uid in users ==>
               r.users[uid].role == users[uid].role &&
               r.users[uid].allowedCommunities == users[uid].allowedCommunities) &&
            (u.uid !in users ==> r.users[u.uid].role == Viewer && r.users[u.uid].allowedCommunities == [])
  {
  }

  /** A second sign-in finds the profile the first one stored: still a
      viewer with no communities, and the session shows the first sign-in's
      last-login time. */
  lemma SecondSignIn(s: Session, users: map<string, UserProfile>, u: AuthUser, t1: int, t2: int)
    requires u.uid !in users
    ensures var first := OnAuthStateChanged(s, users, Some(u), t1);
            var second := OnAuthStateChanged(first.session, first.users, Some(u), t2);
            second.session.profile == Some(NewProfile(u, t1)) &&
            second.users[u.uid] == NewProfile(u, t1).(lastLogin := t2)
  {
  }

  /** After signing out nothing is visible. */
  lemma SignedOutSeesNothing(s: Session, users: map<string, UserProfile>, now: int)
    ensures var r := OnAuthStateChanged(s, users, None, now);
            CloudData(r.session.profile, r.session.rawData) == [] &&
            CloudEvents(r.session.profile, r.session.rawEvents) == []
  {
  }
}

=== FILE: codemanagers.dfy ===
/** The code-manager screen of components/CodeManagers.tsx: searching the
    merged registry, listing the administrators of a code, and the
    registry and assignment requests its buttons send to the guarded
    actions of hooks/useCloudStorage.ts. */
module CodeManagers {
  import opened Wrappers
  import opened Seqs
  import opened Strings
  import opened Model
  import opened CloudStorage

  // ---------------------------------------------------------------- search

  /** The source selector: every entry, or one source only. */
  datatype SourceFilter = AnySource | OnlySource(source: Source)

  /** The search text occurs, ignoring letter case, in the code or in a
      non-empty name. */
  predicate MatchesSearch(c: ManagedCommunity, search: string) {
    Contains(Lower(c.code), Lower(search))
    || (c.name != "" && Contains(Lower(c.name), Lower(search)))
  }

  predicate Listed(c: ManagedCommunity, search: string, filter: SourceFilter) {
    MatchesSearch(c, search) && (filter.AnySource? || c.source == filter.source)
  }

  function ListedP(search: string, filter: SourceFilter): ManagedCommunity -> bool {
    (c: ManagedCommunity) => Listed(c, search, filter)
  }

  /** The registry entries the screen lists, in registry order. */
  function FilteredCommunities(communities: seq<ManagedCommunity>, search: string, filter: SourceFilter): (r: seq<ManagedCommunity>)
    ensures IsSubseq(r, communities)
    ensures forall c :: c in r <==> c in communities && MatchesSearch(c, search)
                                     && (filter.AnySource? || c.source == filter.source)
  {
    Filter(ListedP(search, filter), communities)
  }

  /** With no search text and no source chosen, every entry is listed. */
  lemma EmptySearchListsAll(communities: seq<ManagedCommunity>)
    ensures FilteredCommunities(communities, "", AnySource) == communities
  {
    forall i | 0 <= i < |communities| ensures ListedP("", AnySource)(communities[i]) {
      ContainsEmpty(Lower(communities[i].code));
    }
    FilterAll(ListedP("", AnySource), communities);
  }

  /** The search ignores the letter case of the search text. */
  lemma SearchIgnoresCase(communities: seq<ManagedCommunity>, search: string, filter: SourceFilter)
    ensures FilteredCommunities(communities, Lower(search), filter) == FilteredCommunities(communities, search, filter)
  {
    LowerIdempotent(search);
    FilterCongruent(ListedP(Lower(search), filter), ListedP(search, filter), communities);
  }

  /** The two single-source views split the all-sources view. */
  lemma SourcesSplitListing(communities: seq<ManagedCommunity>, search: string)
    ensures multiset(FilteredCommunities(communities, search, OnlySource(Csv)))
          + multiset(FilteredCommunities(communities, search, OnlySource(Manual)))
         == multiset(FilteredCommunities(communities, search, AnySource))
  {
    FilterSplit(ListedP(search, OnlySource(Csv)), ListedP(search, OnlySource(Manual)),
                ListedP(search, AnySource), communities);
  }

  /** Only hand-made entries offer deletion. */
  predicate OffersDelete(c: ManagedCommunity) {
    c.source == Manual
  }

  // ---------------------------------------------------------------- administrators

  function Administers(code: string): UserProfile -> bool {
    (u: UserProfile) => code in u.allowedCommunities
  }

  /** The users allowed to see `code`, in user-list order. */
  function AdminsFor(users: seq<UserProfile>, code: string): (r: seq<UserProfile>)
    ensures IsSubseq(r, users)
    ensures forall u :: u in r <==> u in users && code in u.allowedCommunities
  {
    Filter(Administers(code), users)
  }

  /** The users the assignment menu offers for `code`. */
  function Assignable(users: seq<UserProfile>, code: string): (r: seq<UserProfile>)
    ensures IsSubseq(r, users)
    ensures forall u :: u in r <==> u in users && code !in u.allowedCommunities
  {
    Filter(Not(Administers(code)), users)
  }

  /** Every user is either an administrator of the code or offered for it,
      never both. */
  lemma AdminsAndAssignableSplit(users: seq<UserProfile>, code: string)
    ensures multiset(AdminsFor(users, code)) + multiset(Assignable(users, code)) == multiset(users)
    ensures forall u :: u in users ==> (u in AdminsFor(users, code) <==> u !in Assignable(users, code))
  {
    FilterComplement(Administers(code), users);
    forall u | u in users ensures u in AdminsFor(users, code) <==> u !in Assignable(users, code) {
      assert Not(Administers(code))(u) == !Administers(code)(u);
    }
  }

  /** `users.find(u => u.uid === uid)`. */
  function FindUser(users: seq<UserProfile>, uid: string): (r: Option<UserProfile>)
    ensures r.None? <==> forall u :: u in users ==> u.uid != uid
    ensures r.Some? ==> r.value in users && r.value.uid == uid
  {
    if |users| == 0 then None
    else if users[0].uid == uid then Some(users[0])
    else
      assert forall u :: u in users ==> u == users[0] || u in users[1..];
      FindUser(users[1..], uid)
  }

  /** The user found is the first one with that uid. */
  lemma {:induction false} FindUserIsFirst(users: seq<UserProfile>, uid: string, i: nat)
    requires i < |users| && users[i].uid == uid
    requires forall j :: 0 <= j < i ==> users[j].uid != uid
    ensures FindUser(users, uid) == Some(users[i])
  {
    if i > 0 {
      assert forall j :: 0 <= j < i - 1 ==> users[1..][j].uid != uid by {
        forall j | 0 <= j < i - 1 ensures users[1..][j].uid != uid {
          assert users[1..][j] == users[j + 1];
        }
      }
      FindUserIsFirst(users[1..], uid, i - 1);
    }
  }

  /** `handleRemoveAdmin`: for a known uid, the request giving that user
      every allowed code but `code`, in the same order; nothing otherwise. */
  function RemoveAdmin(users: seq<UserProfile>, uid: string, code: string): (r: Option<AdminAction>)
    ensures r.None? <==> FindUser(users, uid).None?
    ensures r.Some? ==> r.value.UpdateUserCommunities? && r.value.uid == uid
    ensures r.Some? ==> code !in r.value.communities
    ensures r.Some? ==> forall c :: c != code ==>
              (c in r.value.communities <==> c in FindUser(users, uid).value.allowedCommunities)
    ensures r.Some? ==> IsSubseq(r.value.communities, FindUser(users, uid).value.allowedCommunities)
  {
    match FindUser(users, uid)
    case None => None
    case Some(u) => Some(UpdateUserCommunities(uid, RemoveAll(u.allowedCommunities, code)))
  }

  /** `handleAddAdmin`: for a non-empty known uid whose user lacks `code`,
      the request appending it; nothing otherwise. */
  function AddAdmin(users: seq<UserProfile>, code: string, uid: string): (r: Option<AdminAction>)
    ensures r.Some? <==> uid != "" && FindUser(users, uid).Some? && code !in FindUser(users, uid).value.allowedCommunities
    ensures r.Some? ==> r.value == UpdateUserCommunities(uid, FindUser(users, uid).value.allowedCommunities + [code])
  {
    if uid == "" then None
    else
      match FindUser(users, uid)
      case None => None
      case Some(u) => if code in u.allowedCommunities then None else Some(UpdateUserCommunities(uid, u.allowedCommunities + [code]))
  }

  /** Adding never creates a duplicate code. */
  lemma AddKeepsNoDups(users: seq<UserProfile>, code: string, uid: string)
    requires AddAdmin(users, code, uid).Some?
    requires NoDups(FindUser(users, uid).value.allowedCommunities)
    ensures NoDups(AddAdmin(users, code, uid).value.communities)
  {
    var cs := FindUser(users, uid).value.allowedCommunities;
    var r := cs + [code];
    forall i, j | 0 <= i < j < |r| ensures r[i] != r[j] {
      if j == |cs| {
        assert r[i] == cs[i];
      } else {
        assert r[i] == cs[i] && r[j] == cs[j];
      }
    }
  }

  /** Removing a code just added gives the user's list back. */
  lemma AddThenRemove(users: seq<UserProfile>, code: string, uid: string)
    requires AddAdmin(users, code, uid).Some?
    ensures RemoveAll(AddAdmin(users, code, uid).value.communities, code)
         == FindUser(users, uid).value.allowedCommunities
  {
    var cs := FindUser(users, uid).value.allowedCommunities;
    FilterAppend(Differs(code), cs, [code]);
    FilterAll(Differs(code), cs);
    assert Filter(Differs(code), [code]) == [];
  }

  /** `handleCreate`: nothing for an empty code; otherwise a hand-made entry
      whose name defaults to the code. */
  function CreateRequest(newCode: string, newName: string, newDesc: string): (r: Option<AdminAction>)
    ensures r.None? <==> newCode == ""
    ensures r.Some? ==> r.value.CreateManualCommunity? && r.value.code == newCode
    ensures r.Some? ==> r.value.name == (if newName == "" then newCode else newName) && r.value.name != ""
  {
    if newCode == "" then None
    else Some(CreateManualCommunity(newCode, if newName == "" then newCode else newName, Some(newDesc)))
  }

  /** A created entry shows up in the merged registry as hand-made, under
      its code. */
  lemma CreatedEntryListed(store: Store, user: AuthUser, profile: UserProfile, newCode: string, newName: string,
                           newDesc: string, now: int)
    requires profile.role == SuperAdmin && newCode != ""
    ensures var after := Perform(store, Some(user), Some(profile), CreateRequest(newCode, newName, newDesc).value, now);
            newCode in after.managed && after.managed[newCode].source == Manual && OffersDelete(after.managed[newCode])
  {
  }
}

=== FILE: communitydata.dfy ===
/** The metrics aggregator of hooks/useCommunityData.ts: developer records
    are filtered by the date range, grouped by community code into the
    properties of a plain object, measured per community, and sorted by
    size; the five best-scoring communities and the overall average
    completion time are derived from the result. */
module CommunityData {
  import opened Wrappers
  import opened Seqs
  import opened Sorting
  import opened JsObject
  import opened Calendar
  import opened Model

  // ---------------------------------------------------------------- date filter

  /** `b?.getTime()` is truthy: the bound is set, a valid date, and not the
      epoch itself. */
  predicate BoundActive(b: Option<TimeValue>) {
    b.Some? && b.value.Some? && b.value.value != 0
  }

  /** The date filter's test, both bounds inclusive. */
  predicate InRange(range: DateRange, d: Developer) {
    (!BoundActive(range.from) || d.enrollmentDate >= range.from.value.value)
    && (!BoundActive(range.to) || d.enrollmentDate <= range.to.value.value)
  }

  function InRangeP(range: DateRange): Developer -> bool {
    (d: Developer) => InRange(range, d)
  }

  /** The developers enrolled within the range, in input order. */
  function FilterByDate(devs: seq<Developer>, range: DateRange): (r: seq<Developer>)
    ensures IsSubseq(r, devs)
    ensures forall d :: d in r <==> d in devs && InRange(range, d)
    ensures forall d :: multiset(r)[d] == if InRange(range, d) then multiset(devs)[d] else 0
  {
    Filter(InRangeP(range), devs)
  }

  /** A bound at 0 ms, or holding an invalid date, filters nothing out: it
      behaves exactly like an absent bound. */
  lemma FalsyBoundIsAbsent(devs: seq<Developer>, range: DateRange, b: TimeValue)
    requires b == Some(0) || b == None
    ensures FilterByDate(devs, DateRange(Some(b), range.to)) == FilterByDate(devs, DateRange(None, range.to))
    ensures FilterByDate(devs, DateRange(range.from, Some(b))) == FilterByDate(devs, DateRange(range.from, None))
  {
    FilterCongruent(InRangeP(DateRange(Some(b), range.to)), InRangeP(DateRange(None, range.to)), devs);
    FilterCongruent(InRangeP(DateRange(range.from, Some(b))), InRangeP(DateRange(range.from, None)), devs);
  }

  // ---------------------------------------------------------------- per-community metrics

  /** Counted in the completion average: certified with a completion date. */
  predicate IsCompleted(d: Developer) {
    d.certified && d.completedAt.Some?
  }

  function Completed(): Developer -> bool {
    (d: Developer) => IsCompleted(d)
  }

  function Subscribed(): Developer -> bool {
    (d: Developer) => d.subscribed
  }

  function Certified(): Developer -> bool {
    (d: Developer) => d.certified
  }

  function Progress(): Developer -> int {
    (d: Developer) => d.certificationProgress
  }

  function Abs(x: int): nat {
    if x < 0 then -x else x
  }

  /** Whole days from enrolment to completion, rounded up, sign ignored;
      a developer without a completion date contributes nothing. */
  function CompletionDays(d: Developer): (r: nat)
    ensures d.completedAt.None? ==> r == 0
    ensures d.completedAt.Some? ==>
              var diff := Abs(d.completedAt.value - d.enrollmentDate);
              (r - 1) * MsPerDay < diff <= r * MsPerDay
  {
    if d.completedAt.None? then 0
    else (Abs(d.completedAt.value - d.enrollmentDate) + MsPerDay - 1) / MsPerDay
  }

  function Days(): Developer -> int {
    (d: Developer) => CompletionDays(d)
  }

  /** The mean completion time of the completed developers; `None` when
      there are none. */
  function AverageCompletionDays(devs: seq<Developer>): (r: Option<real>)
    ensures r.None? <==> forall d :: d in devs ==> !IsCompleted(d)
    ensures r.Some? ==> r.value >= 0.0
    ensures r.Some? ==> IsMean(r.value, SumInt(Days(), Filter(Completed(), devs)) as real, |Filter(Completed(), devs)|)
  {
    var done := Filter(Completed(), devs);
    NoneCompleted(devs);
    if |done| == 0 then None
    else
      SumNonNegative(Days(), done);
      Some(Mean(SumInt(Days(), done) as real, |done|))
  }

  /** Nobody completed exactly when the completed developers are none. */
  lemma NoneCompleted(devs: seq<Developer>)
    ensures |Filter(Completed(), devs)| == 0 <==> forall d :: d in devs ==> !IsCompleted(d)
  {
    var done := Filter(Completed(), devs);
    if |done| > 0 {
      assert done[0] in done;
    }
  }

  lemma {:induction false} SumNonNegative<T>(f: T -> int, s: seq<T>)
    requires forall x :: f(x) >= 0
    ensures SumInt(f, s) >= 0
  {
    if |s| > 0 {
      SumNonNegative(f, s[1..]);
    }
  }

  /** The average over a reordering of the same developers is the same. */
  lemma AverageCompletionDaysPermutation(a: seq<Developer>, b: seq<Developer>)
    requires multiset(a) == multiset(b)
    ensures AverageCompletionDays(a) == AverageCompletionDays(b)
  {
    var da, db := Filter(Completed(), a), Filter(Completed(), b);
    FilterPermutation(Completed(), a, b);
    SumIntPermutation(Days(), da, db);
    assert |da| == |multiset(da)| == |multiset(db)| == |db|;
  }

  /** Completion counts as rapid when it came less than 5 hours after
      enrolment, by the signed difference: a completion recorded before the
      enrolment is rapid too. */
  predicate IsRapid(d: Developer) {
    d.completedAt.Some? && d.completedAt.value - d.enrollmentDate < 5 * MsPerHour
  }

  /** `devs.some(IsRapid)`. */
  function AnyRapid(devs: seq<Developer>): (r: bool)
    ensures r <==> exists d :: d in devs && IsRapid(d)
  {
    if |devs| == 0 then false
    else
      assert devs == [devs[0]] + devs[1..];
      IsRapid(devs[0]) || AnyRapid(devs[1..])
  }

  /** The community with code `code` built from its developers, in the order
      they were accumulated. */
  function Build(code: string, members: seq<Developer>, metaMap: map<string, MetaData>): (c: Community)
    ensures c.code == code && c.developers == members
    ensures c.developerCount == |members|
    ensures c.subscribedCount == Count(Subscribed(), members) <= c.developerCount
    ensures c.certifiedCount == Count(Certified(), members) <= c.developerCount
    ensures (forall d :: d in members ==> 0 <= d.certificationProgress <= 100) ==>
              0.0 <= c.averageProgress <= 100.0
    ensures |members| > 0 ==> IsMean(c.averageProgress, SumInt(Progress(), members) as real, |members|)
    ensures |members| == 0 ==> c.averageProgress == 0.0
    ensures c.averageCompletionDays == AverageCompletionDays(members)
    ensures c.averageCompletionDays.None? <==> forall d :: d in members ==> !IsCompleted(d)
    ensures c.hasRapidCompletions <==> exists d :: d in members && IsRapid(d)
    ensures c.meta == if code in metaMap then metaMap[code] else DefaultMeta
  {
    var n := |members|;
    var avg := if n > 0 then Mean(SumInt(Progress(), members) as real, n) else 0.0;
    AverageProgressBounds(members);
    Community(code, n, Count(Subscribed(), members), Count(Certified(), members), avg,
              AverageCompletionDays(members), members,
              if code in metaMap then metaMap[code] else DefaultMeta, AnyRapid(members))
  }

  lemma {:induction false} ProgressBounds(s: seq<Developer>)
    requires forall d :: d in s ==> 0 <= d.certificationProgress <= 100
    ensures 0 <= SumInt(Progress(), s) <= 100 * |s|
  {
    if |s| > 0 {
      assert s[0] in s;
      ProgressBounds(s[1..]);
    }
  }

  /** Progress values in 0..100 average to a value in 0..100. */
  lemma AverageProgressBounds(s: seq<Developer>)
    ensures (forall d :: d in s ==> 0 <= d.certificationProgress <= 100) && |s| > 0 ==>
              0.0 <= SumInt(Progress(), s) as real / |s| as real <= 100.0
  {
    if forall d :: d in s ==> 0 <= d.certificationProgress <= 100 {
      ProgressBounds(s);
      AverageBounds(SumInt(Progress(), s), |s|);
    }
  }

  lemma AverageBounds(sum: int, n: nat)
    requires 0 <= sum <= 100 * n
    ensures n > 0 ==> 0.0 <= sum as real / n as real <= 100.0
  {
    if n > 0 {
      var avg := sum as real / n as real;
      assert avg * n as real == sum as real;
      if avg > 100.0 {
        assert avg * n as real > 100.0 * n as real;
      }
    }
  }

  // ---------------------------------------------------------------- grouping

  /** The developers of community `code`, in input order. */
  function Members(devs: seq<Developer>, code: string): seq<Developer> {
    Filter(CodeIs(code), devs)
  }

  /** The codes in the order `Object.values` lists the communities: the
      object's properties were created in order of first appearance. */
  function GroupCodes(devs: seq<Developer>): (r: seq<string>)
    ensures NoDups(r)
    ensures forall c :: c in r <==> c in CodesOf(devs)
  {
    var first := Dedupe(CodesOf(devs));
    var r := KeyOrder(first);
    assert forall c :: c in r <==> c in multiset(first);
    MultisetNoDups(first, r);
    r
  }

  /** A code of some developer has at least one member. */
  lemma MembersNonEmpty(devs: seq<Developer>, code: string)
    requires code in CodesOf(devs)
    ensures |Members(devs, code)| >= 1
  {
    var i :| 0 <= i < |devs| && CodesOf(devs)[i] == code;
    assert devs[i] in devs && CodeIs(code)(devs[i]);
    assert devs[i] in Members(devs, code);
  }

  /** One community per code, each built from its members. */
  function GroupsFor(codes: seq<string>, devs: seq<Developer>, metaMap: map<string, MetaData>): (r: seq<Community>)
    ensures |r| == |codes|
    ensures forall i :: 0 <= i < |r| ==> r[i] == Build(codes[i], Members(devs, codes[i]), metaMap)
  {
    if |codes| == 0 then []
    else [Build(codes[0], Members(devs, codes[0]), metaMap)] + GroupsFor(codes[1..], devs, metaMap)
  }

  function DevelopersOf(): Community -> seq<Developer> {
    (c: Community) => c.developers
  }

  function DeveloperCount(): Community -> int {
    (c: Community) => c.developerCount
  }

  function SizeKey(): Community -> real {
    (c: Community) => c.developerCount as real
  }

  /** Grouping the developers by a duplicate-free list of codes gathers
      exactly the developers whose code is listed. */
  lemma {:induction false} GroupsGather(codes: seq<string>, devs: seq<Developer>, metaMap: map<string, MetaData>)
    requires NoDups(codes)
    ensures multiset(FlatMap(DevelopersOf(), GroupsFor(codes, devs, metaMap))) == multiset(Filter(CodeIn(codes), devs))
  {
    if |codes| > 0 {
      var c, rest := codes[0], codes[1..];
      NoDupsTail(codes);
      GroupsGather(rest, devs, metaMap);
      var g := GroupsFor(codes, devs, metaMap);
      assert g[1..] == GroupsFor(rest, devs, metaMap);
      var inRest := FlatMap(DevelopersOf(), g[1..]);
      assert FlatMap(DevelopersOf(), g) == Members(devs, c) + inRest;
      assert codes == [c] + rest;
      FilterSplit(CodeIs(c), CodeIn(rest), CodeIn(codes), devs);
      calc {
        multiset(FlatMap(DevelopersOf(), g));
        multiset(Members(devs, c)) + multiset(inRest);
        multiset(Filter(CodeIs(c), devs)) + multiset(Filter(CodeIn(rest), devs));
      }
    } else {
      FilterNone(CodeIn(codes), devs);
    }
  }

  /** The communities of the filtered developers, sorted by non-increasing
      size; equal sizes keep `Object.values` order. */
  function ProcessedCommunityData(devs: seq<Developer>, range: DateRange, metaMap: map<string, MetaData>): (r: seq<Community>)
    ensures SortedDesc(r, SizeKey())
    ensures multiset(r) == multiset(Groups(devs, range, metaMap))
    ensures forall v :: WithKey(r, SizeKey(), v) == WithKey(Groups(devs, range, metaMap), SizeKey(), v)
  {
    var groups := Groups(devs, range, metaMap);
    var r := SortDesc(groups, SizeKey());
    assert forall v :: WithKey(r, SizeKey(), v) == WithKey(groups, SizeKey(), v) by {
      forall v ensures WithKey(r, SizeKey(), v) == WithKey(groups, SizeKey(), v) {
        SortStable(groups, SizeKey(), v);
      }
    }
    r
  }

  /** The unsorted communities, in `Object.values` order. */
  function Groups(devs: seq<Developer>, range: DateRange, metaMap: map<string, MetaData>): seq<Community> {
    var filtered := FilterByDate(devs, range);
    GroupsFor(GroupCodes(filtered), filtered, metaMap)
  }

  /** A community built for a list of codes is built from one of them. */
  lemma GroupsForMember(codes: seq<string>, devs: seq<Developer>, metaMap: map<string, MetaData>, c: Community)
    requires c in GroupsFor(codes, devs, metaMap)
    ensures c.code in codes && c == Build(c.code, Members(devs, c.code), metaMap)
  {
    var g := GroupsFor(codes, devs, metaMap);
    var i :| 0 <= i < |g| && g[i] == c;
    assert codes[i] in codes;
  }

  /** Distinct codes give distinct communities. */
  lemma GroupsForNoDups(codes: seq<string>, devs: seq<Developer>, metaMap: map<string, MetaData>)
    requires NoDups(codes)
    ensures NoDups(GroupsFor(codes, devs, metaMap))
  {
    var g := GroupsFor(codes, devs, metaMap);
    forall i, j | 0 <= i < j < |g| ensures g[i] != g[j] {
      assert g[i].code == codes[i] && g[j].code == codes[j];
    }
  }

  /** Each community of the result is built from exactly the filtered
      developers with its code, has at least one developer, and occurs
      once. */
  lemma CommunitiesWellFormed(devs: seq<Developer>, range: DateRange, metaMap: map<string, MetaData>)
    ensures forall c :: c in ProcessedCommunityData(devs, range, metaMap) ==>
              c == Build(c.code, Members(FilterByDate(devs, range), c.code), metaMap)
              && c.developerCount >= 1
    ensures forall c :: c in ProcessedCommunityData(devs, range, metaMap) ==>
              multiset(ProcessedCommunityData(devs, range, metaMap))[c] == 1
  {
    var filtered := FilterByDate(devs, range);
    var codes := GroupCodes(filtered);
    var groups := GroupsFor(codes, filtered, metaMap);
    var r := ProcessedCommunityData(devs, range, metaMap);
    assert multiset(r) == multiset(groups);
    forall c | c in r
      ensures c == Build(c.code, Members(filtered, c.code), metaMap) && c.developerCount >= 1
    {
      assert c in multiset(groups);
      GroupsForMember(codes, filtered, metaMap, c);
      MembersNonEmpty(filtered, c.code);
    }
    GroupsForNoDups(codes, filtered, metaMap);
    forall c | c in r ensures multiset(r)[c] == 1 {
      assert c in multiset(groups);
      NoDupsCount(groups, c);
    }
  }

  /** Every filtered developer lands in exactly one community:
      concatenating the communities' developers gives a reordering of the
      filtered developers. */
  lemma PartitionOfFiltered(devs: seq<Developer>, range: DateRange, metaMap: map<string, MetaData>)
    ensures multiset(FlatMap(DevelopersOf(), ProcessedCommunityData(devs, range, metaMap)))
         == multiset(FilterByDate(devs, range))
  {
    var filtered := FilterByDate(devs, range);
    var codes := GroupCodes(filtered);
    var groups := GroupsFor(codes, filtered, metaMap);
    var r := ProcessedCommunityData(devs, range, metaMap);
    GroupsGather(codes, filtered, metaMap);
    assert forall i :: 0 <= i < |filtered| ==> CodeIn(codes)(filtered[i]) by {
      forall i | 0 <= i < |filtered| ensures CodeIn(codes)(filtered[i]) {
        assert CodesOf(filtered)[i] in CodesOf(filtered);
      }
    }
    FilterAll(CodeIn(codes), filtered);
    FlatMapPermutation(DevelopersOf(), r, groups);
  }

  /** The developers of a community are the ones with its code. */
  lemma MembersHaveCode(devs: seq<Developer>, range: DateRange, metaMap: map<string, MetaData>)
    ensures forall c, d :: c in ProcessedCommunityData(devs, range, metaMap) && d in c.developers ==>
              d.communityCode == c.code
  {
    CommunitiesWellFormed(devs, range, metaMap);
  }

  /** The community sizes add up to the number of filtered developers. */
  lemma SizesSum(devs: seq<Developer>, range: DateRange, metaMap: map<string, MetaData>)
    ensures SumInt(DeveloperCount(), ProcessedCommunityData(devs, range, metaMap))
         == |FilterByDate(devs, range)|
  {
    var r := ProcessedCommunityData(devs, range, metaMap);
    var flat := FlatMap(DevelopersOf(), r);
    PartitionOfFiltered(devs, range, metaMap);
    CommunitiesWellFormed(devs, range, metaMap);
    assert forall c :: c in r ==> DeveloperCount()(c) == |c.developers|;
    SumIntOver(DeveloperCount(), (c: Community) => |c.developers|, r);
    FlatMapLength(DevelopersOf(), (c: Community) => |c.developers|, r);
    assert |flat| == |multiset(flat)| == |multiset(FilterByDate(devs, range))|;
  }

  // ---------------------------------------------------------------- rankings

  /** Worth ranking: some progress or some certification. */
  predicate Eligible(c: Community) {
    c.averageProgress > 0.0 || c.certifiedCount > 0
  }

  function EligibleP(): Community -> bool {
    (c: Community) => Eligible(c)
  }

  /** Progress weighted by one more than the number certified. */
  function Score(): Community -> real {
    (c: Community) => c.averageProgress * (c.certifiedCount as real + 1.0)
  }

  /** The at most five eligible communities with the highest scores. */
  function TopPerformingCommunities(processed: seq<Community>): (r: seq<Community>)
    ensures |r| == if |Filter(EligibleP(), processed)| < 5 then |Filter(EligibleP(), processed)| else 5
    ensures forall c :: c in r ==> c in processed && Eligible(c)
    ensures multiset(r) <= multiset(Filter(EligibleP(), processed))
    ensures SortedDesc(r, Score())
    ensures forall c, t :: c in multiset(Filter(EligibleP(), processed)) - multiset(r) && t in r ==>
              Score()(t) >= Score()(c)
  {
    var eligible := Filter(EligibleP(), processed);
    if |processed| == 0 || |eligible| == 0 then []
    else TopK(eligible, Score(), 5)
  }

  /** The mean completion time over every community's developers. */
  function OverallAverageCompletionDays(processed: seq<Community>): Option<real> {
    AverageCompletionDays(FlatMap(DevelopersOf(), processed))
  }

  /** Averaging over the communities gives the average over the filtered
      developers, so grouping does not change it; it is absent exactly
      when no filtered developer has completed. */
  lemma OverallAverageOfFiltered(devs: seq<Developer>, range: DateRange, metaMap: map<string, MetaData>)
    ensures OverallAverageCompletionDays(ProcessedCommunityData(devs, range, metaMap))
         == AverageCompletionDays(FilterByDate(devs, range))
    ensures OverallAverageCompletionDays(ProcessedCommunityData(devs, range, metaMap)).None?
         <==> forall d :: d in devs && InRange(range, d) ==> !IsCompleted(d)
  {
    PartitionOfFiltered(devs, range, metaMap);
    AverageCompletionDaysPermutation(
      FlatMap(DevelopersOf(), ProcessedCommunityData(devs, range, metaMap)), FilterByDate(devs, range));
  }
}

=== FILE: communityreport.dfy ===
/** The comparative report of components/CommunityReport.tsx: the selected
    community, its statistics for the equally long period just before the
    current date range, the unweighted mean of the other communities, the
    cumulative growth series, the change labels, and the download lists. */
module CommunityReport {
  import opened Wrappers
  import opened Seqs
  import opened Calendar
  import opened Model
  import opened CommunityData
  import opened Timeline

  // ---------------------------------------------------------------- selection

  /** The selected code is truthy: present and not the empty "select" option. */
  predicate Chosen(code: Option<string>) {
    code.Some? && code.value != ""
  }

  /** The first community with code `code`. */
  function FindCommunity(communities: seq<Community>, code: string): (r: Option<Community>)
    ensures r.None? <==> forall c :: c in communities ==> c.code != code
    ensures r.Some? ==> exists i :: 0 <= i < |communities| && communities[i] == r.value
                          && r.value.code == code
                          && (forall j :: 0 <= j < i ==> communities[j].code != code)
  {
    if |communities| == 0 then None
    else if communities[0].code == code then Some(communities[0])
    else
      var r := FindCommunity(communities[1..], code);
      assert forall c :: c in communities[1..] ==> c in communities;
      if r.Some? then
        var i :| 0 <= i < |communities[1..]| && communities[1..][i] == r.value && r.value.code == code
                 && (forall j :: 0 <= j < i ==> communities[1..][j].code != code);
        assert communities[i + 1] == r.value;
        assert forall j :: 1 <= j < i + 1 ==> communities[j] == communities[1..][j - 1];
        r
      else r
  }

  /** The community shown: none until a code is chosen, then the first one
      carrying that code, if any. */
  function SelectedCommunity(communities: seq<Community>, code: Option<string>): (r: Option<Community>)
    ensures r.Some? ==> Chosen(code) && r.value in communities && r.value.code == code.value
    ensures r.None? <==> !Chosen(code) || forall c :: c in communities ==> c.code != code.value
  {
    if !Chosen(code) then None else FindCommunity(communities, code.value)
  }

  // ---------------------------------------------------------------- certifications in range

  /** The developers certified with a completion date; zero without a
      selection. */
  function NewCertifiedCount(selected: Option<Community>): (r: nat)
    ensures selected.None? ==> r == 0
    ensures selected.Some? ==> r <= Count(Certified(), selected.value.developers)
    ensures selected.Some? ==> (r == 0 <==> forall d :: d in selected.value.developers ==> !IsCompleted(d))
    ensures selected.Some? ==>
              var devs := selected.value.developers;
              r == |set i | 0 <= i < |devs| && devs[i].certified && devs[i].completedAt.Some?|
  {
    match selected
    case None => 0
    case Some(c) =>
      FilterMonotone(Completed(), Certified(), c.developers);
      CompletedPositions(c.developers);
      Count(Completed(), c.developers)
  }

  lemma CompletedPositions(devs: seq<Developer>)
    ensures Count(Completed(), devs) == |set i | 0 <= i < |devs| && devs[i].certified && devs[i].completedAt.Some?|
  {
    CountPositions(Completed(), devs);
    assert Positions(Completed(), devs) == set i | 0 <= i < |devs| && devs[i].certified && devs[i].completedAt.Some?;
  }

  /** For a community as the aggregator builds it, the count is at most its
      certified count. */
  lemma NewCertifiedAtMostCertified(devs: seq<Developer>, range: DateRange, metaMap: map<string, MetaData>, c: Community)
    requires c in ProcessedCommunityData(devs, range, metaMap)
    ensures NewCertifiedCount(Some(c)) <= c.certifiedCount <= c.developerCount
  {
    CommunitiesWellFormed(devs, range, metaMap);
  }

  // ---------------------------------------------------------------- previous period

  /** A time window given by two `Date` values; `None` is an invalid date. */
  datatype Window = Window(from: TimeValue, to: TimeValue)

  /** The window of the same length as `from..to` that ends 1 ms before
      `from`. Arithmetic on an invalid date gives an invalid date, and so
      does a result outside the time range. */
  function PreviousWindow(from: TimeValue, to: TimeValue): (w: Window)
    ensures w.to.Some? ==> from.Some? && w.to.value < from.value
    ensures w.from.Some? ==> w.to.Some? && to.Some? && w.to.value - w.from.value == to.value - from.value
    ensures from.Some? && to.Some? && -MaxTime <= from.value - 1 <= MaxTime
            && -MaxTime <= from.value - 1 - (to.value - from.value) <= MaxTime
            ==> w.from.Some? && w.to.Some?
  {
    var prevTo := if from.None? then None else TimeClip(from.value - 1);
    var prevFrom := if prevTo.None? || to.None? then None else TimeClip(prevTo.value - (to.value - from.value));
    Window(prevFrom, prevTo)
  }

  /** Enrolled in community `code` within the window, both ends inclusive; a
      comparison with an invalid date is false. */
  predicate InWindow(w: Window, code: string, d: Developer) {
    d.communityCode == code && w.from.Some? && w.to.Some?
    && w.from.value <= d.enrollmentDate <= w.to.value
  }

  function InWindowP(w: Window, code: string): Developer -> bool {
    (d: Developer) => InWindow(w, code, d)
  }

  datatype PeriodStats = PeriodStats(count: nat, certified: nat, avgProgress: real, from: TimeValue, to: TimeValue)

  /** The selected community's figures for the previous window, over all
      uploaded developers (not only the current range); absent until both
      bounds and a code are set. */
  function PreviousPeriodStats(all: seq<Developer>, range: DateRange, code: Option<string>): (r: Option<PeriodStats>)
    ensures r.None? <==> range.from.None? || range.to.None? || !Chosen(code)
    ensures r.Some? ==>
              var w := PreviousWindow(range.from.value, range.to.value);
              var prev := Filter(InWindowP(w, code.value), all);
              r.value.from == w.from && r.value.to == w.to
              && r.value.count == |prev|
              && r.value.certified == Count(Certified(), prev) <= r.value.count
              && r.value.avgProgress == MeanProgress(prev)
  {
    if range.from.None? || range.to.None? || !Chosen(code) then None
    else
      var w := PreviousWindow(range.from.value, range.to.value);
      Some(StatsOf(Filter(InWindowP(w, code.value), all), w))
  }

  /** The figures of the developers `prev` enrolled in window `w`. */
  function StatsOf(prev: seq<Developer>, w: Window): (r: PeriodStats)
    ensures r.from == w.from && r.to == w.to && r.count == |prev|
    ensures r.certified == Count(Certified(), prev) <= r.count
    ensures r.avgProgress == MeanProgress(prev)
  {
    PeriodStats(|prev|, Count(Certified(), prev), MeanProgress(prev), w.from, w.to)
  }

  /** The mean progress of `prev`, 0 when it is empty. */
  function MeanProgress(prev: seq<Developer>): (r: real)
    ensures |prev| == 0 ==> r == 0.0
    ensures |prev| > 0 ==> r * |prev| as real == SumInt(Progress(), prev) as real
  {
    if |prev| == 0 then 0.0 else Mean(SumInt(Progress(), prev) as real, |prev|)
  }

  /** Nobody counted in the previous period belongs to the current range's
      data when the range has an active start: the windows do not overlap. */
  lemma PreviousPeriodBeforeCurrent(all: seq<Developer>, range: DateRange, code: Option<string>)
    requires range.from.Some? && range.to.Some? && Chosen(code) && BoundActive(range.from)
    ensures forall d :: d in Filter(InWindowP(PreviousWindow(range.from.value, range.to.value), code.value), all)
              ==> d !in FilterByDate(all, range)
  {
  }

  /** An invalid start date leaves the previous period empty. */
  lemma PreviousPeriodOfInvalidStart(all: seq<Developer>, to: TimeValue, code: string)
    requires code != ""
    ensures PreviousPeriodStats(all, DateRange(Some(None), Some(to)), Some(code)).value.count == 0
  {
    var w := PreviousWindow(None, to);
    FilterNone(InWindowP(w, code), all);
  }

  /** Progress values in 0..100 average to a value in 0..100. */
  lemma PreviousAverageBounded(all: seq<Developer>, range: DateRange, code: Option<string>)
    requires forall d :: d in all ==> 0 <= d.certificationProgress <= 100
    requires PreviousPeriodStats(all, range, code).Some?
    ensures 0.0 <= PreviousPeriodStats(all, range, code).value.avgProgress <= 100.0
  {
    var w := PreviousWindow(range.from.value, range.to.value);
    var prev := Filter(InWindowP(w, code.value), all);
    AverageProgressBounds(prev);
  }

  // ---------------------------------------------------------------- peer benchmark

  datatype PeerStats = PeerStats(avgDevCount: real, avgCertifiedCount: real, avgProgress: real)

  function OtherThan(code: string): Community -> bool {
    (c: Community) => c.code != code
  }

  function CertifiedCount(): Community -> int {
    (c: Community) => c.certifiedCount
  }

  function AverageProgress(): Community -> real {
    (c: Community) => c.averageProgress
  }

  /** The unweighted means over the communities other than the selected one;
      absent without a selection or without another community. */
  function PeerStatsOf(communities: seq<Community>, code: Option<string>): (r: Option<PeerStats>)
    ensures r.None? <==> !Chosen(code) || forall c :: c in communities ==> c.code == code.value
    ensures r.Some? ==>
              var others := Filter(OtherThan(code.value), communities);
              |others| > 0 && r.value == MeansOf(others)
  {
    if !Chosen(code) then None
    else
      var others := Filter(OtherThan(code.value), communities);
      if |others| == 0 then None
      else
        assert others[0] in communities;
        Some(MeansOf(others))
  }

  /** The means over the non-empty `others`. */
  function MeansOf(others: seq<Community>): (r: PeerStats)
    requires |others| > 0
    ensures r.avgDevCount * |others| as real == SumInt(DeveloperCount(), others) as real
    ensures r.avgCertifiedCount * |others| as real == SumInt(CertifiedCount(), others) as real
    ensures r.avgProgress * |others| as real == SumReal(AverageProgress(), others)
  {
    var n := |others|;
    PeerStats(Mean(SumInt(DeveloperCount(), others) as real, n),
              Mean(SumInt(CertifiedCount(), others) as real, n),
              Mean(SumReal(AverageProgress(), others), n))
  }

  /** When every community has no more certified than enrolled developers
      and a progress average in 0..100, so do the peer means. */
  lemma PeerMeansBounded(communities: seq<Community>, code: Option<string>)
    requires PeerStatsOf(communities, code).Some?
    requires forall c :: c in communities ==> c.certifiedCount <= c.developerCount
    requires forall c :: c in communities ==> 0.0 <= c.averageProgress <= 100.0
    ensures PeerStatsOf(communities, code).value.avgCertifiedCount <= PeerStatsOf(communities, code).value.avgDevCount
    ensures 0.0 <= PeerStatsOf(communities, code).value.avgProgress <= 100.0
  {
    var others := Filter(OtherThan(code.value), communities);
    assert forall i :: 0 <= i < |others| ==> others[i] in communities;
    MeansBounded(others);
  }

  lemma MeansBounded(others: seq<Community>)
    requires |others| > 0
    requires forall i :: 0 <= i < |others| ==> others[i].certifiedCount <= others[i].developerCount
    requires forall i :: 0 <= i < |others| ==> 0.0 <= others[i].averageProgress <= 100.0
    ensures MeansOf(others).avgCertifiedCount <= MeansOf(others).avgDevCount
    ensures 0.0 <= MeansOf(others).avgProgress <= 100.0
  {
    var m, n := MeansOf(others), |others| as real;
    SumIntMonotone(CertifiedCount(), DeveloperCount(), others);
    CancelFactor(m.avgCertifiedCount, m.avgDevCount, n);
    SumRealBounds(AverageProgress(), others, 0.0, 100.0);
    CancelFactor(0.0, m.avgProgress, n);
    CancelFactor(m.avgProgress, 100.0, n);
  }

  /** The selected community's own figures do not enter the benchmark. */
  lemma PeerStatsIgnoreSelected(communities: seq<Community>, code: string)
    requires code != ""
    ensures PeerStatsOf(communities, Some(code)) == PeerStatsOf(Filter(OtherThan(code), communities), Some(code))
  {
    var others := Filter(OtherThan(code), communities);
    FilterAll(OtherThan(code), others);
    assert forall c :: c in others ==> c in communities;
  }

  // ---------------------------------------------------------------- growth series

  /** One chart point: a UTC day and the running totals after it. */
  datatype GrowthPoint = GrowthPoint(day: int, developers: nat, startedCourse: nat)

  /** The series under construction and the two running totals. */
  datatype Growth = Growth(data: seq<GrowthPoint>, developers: nat, started: nat)

  /** The index of the first point for `day`, as `Array.prototype.find`
      locates it. */
  function FindDay(data: seq<GrowthPoint>, day: int): (r: Option<nat>)
    ensures r.Some? ==> r.value < |data| && data[r.value].day == day
    ensures r.Some? ==> forall i :: 0 <= i < r.value ==> data[i].day != day
    ensures r.None? <==> forall i :: 0 <= i < |data| ==> data[i].day != day
  {
    if |data| == 0 then None
    else if data[0].day == day then Some(0)
    else
      match FindDay(data[1..], day)
      case None => None
      case Some(i) => Some(i + 1)
  }

  /** Has started the course. */
  function Started(): Developer -> bool {
    (d: Developer) => d.certificationProgress > 0
  }

  /** The predicate "started the course and enrolled on UTC day `day` or
      earlier". */
  function StartedBy(day: int): Developer -> bool {
    (d: Developer) => EnrollmentDay(d) <= day && d.certificationProgress > 0
  }

  /** One iteration: bump the totals, then overwrite the point of the
      developer's day or append a new one. */
  function Step(g: Growth, dev: Developer): Growth {
    var developers := g.developers + 1;
    var started := if dev.certificationProgress > 0 then g.started + 1 else g.started;
    var point := GrowthPoint(EnrollmentDay(dev), developers, started);
    match FindDay(g.data, point.day)
    case Some(i) => Growth(g.data[i := point], developers, started)
    case None => Growth(g.data + [point], developers, started)
  }

  /** The loop over `s`, in order. */
  function Accumulate(s: seq<Developer>): Growth
    decreases |s|
  {
    if |s| == 0 then Growth([], 0, 0)
    else Step(Accumulate(s[..|s| - 1]), s[|s| - 1])
  }

  predicate DaysAscending(data: seq<GrowthPoint>) {
    forall i, j :: 0 <= i < j < |data| ==> data[i].day < data[j].day
  }

  function PointDays(data: seq<GrowthPoint>): set<int> {
    set p | p in data :: p.day
  }

  /** One point per enrolment day of `s`, in ascending order of day. */
  predicate Shape(data: seq<GrowthPoint>, s: seq<Developer>) {
    DaysAscending(data) && PointDays(data) == EnrollmentDays(s)
  }

  /** Each point holds the number of developers of `s` enrolled by the end
      of its day and, of those, the number who started the course. */
  predicate Counts(data: seq<GrowthPoint>, s: seq<Developer>) {
    forall i :: 0 <= i < |data| ==> PointCounts(data[i], s)
  }

  /** A point holds the number of developers of `s` enrolled by the end of
      its day and, of those, the number who started, no more than the
      former. */
  predicate PointCounts(p: GrowthPoint, s: seq<Developer>) {
    p.developers == Count(EnrolledBy(p.day), s)
    && p.startedCourse == Count(StartedBy(p.day), s)
    && p.startedCourse <= p.developers
  }

  /** What the loop maintains over the developers `s` seen so far: the
      totals, the shape and counts of the points, and the last point
      matching the totals. */
  predicate GrowthInv(g: Growth, s: seq<Developer>) {
    g.developers == |s| && g.started == Count(Started(), s) && g.started <= g.developers
    && Shape(g.data, s) && Counts(g.data, s)
    && (|s| > 0 ==> |g.data| > 0 && g.data[|g.data| - 1] == GrowthPoint(EnrollmentDay(s[|s| - 1]), g.developers, g.started))
  }

  /** Where the point for the newest day `day` goes: the points before
      index `m` are for earlier days, and `FindDay` finds index `m`, the
      last point, or nothing. */
  lemma NewestDay(data: seq<GrowthPoint>, s: seq<Developer>, day: int) returns (m: nat)
    requires Shape(data, s)
    requires forall x :: x in s ==> EnrollmentDay(x) <= day
    ensures m <= |data|
    ensures FindDay(data, day).Some? ==> FindDay(data, day).value == m == |data| - 1
    ensures FindDay(data, day).None? ==> m == |data|
    ensures forall i :: 0 <= i < m ==> data[i].day < day
  {
    forall i | 0 <= i < |data| ensures data[i].day <= day {
      assert data[i].day in PointDays(data);
    }
    var f := FindDay(data, day);
    m := if f.Some? then |data| - 1 else |data|;
    if f.Some? {
      assert data[f.value].day == day && data[m].day <= day;
    }
  }

  /** The step keeps the count held by each earlier point. */
  lemma StepCounts(data: seq<GrowthPoint>, s: seq<Developer>, d: Developer, m: nat)
    requires m <= |data| && Counts(data, s)
    requires forall x :: x in s ==> EnrollmentDay(x) <= EnrollmentDay(d)
    requires forall i :: 0 <= i < m ==> data[i].day < EnrollmentDay(d)
    ensures Counts(data[..m], s + [d])
    ensures Count(EnrolledBy(EnrollmentDay(d)), s + [d]) == |s| + 1
    ensures Count(StartedBy(EnrollmentDay(d)), s + [d]) == Count(Started(), s + [d])
  {
    forall i | 0 <= i < m ensures PointCounts(data[..m][i], s + [d]) {
      assert data[..m][i] == data[i] && PointCounts(data[i], s);
      CountEnrolledByAppend(s, d, data[i].day);
      CountStartedByAppend(s, d, data[i].day);
    }
    assert forall x :: x in s + [d] ==> x in s || x == d;
    CountEnrolledByAll(s + [d], EnrollmentDay(d));
    CountStartedByAll(s + [d], EnrollmentDay(d));
  }

  /** Appending a developer who enrolled after `day` leaves that day's
      starters unchanged. */
  lemma CountStartedByAppend(s: seq<Developer>, d: Developer, day: int)
    requires day < EnrollmentDay(d)
    ensures Count(StartedBy(day), s + [d]) == Count(StartedBy(day), s)
  {
    FilterAppend(StartedBy(day), s, [d]);
    assert Filter(StartedBy(day), [d]) == [] by {
      assert !StartedBy(day)(d) && [d][1..] == [];
    }
    assert Filter(StartedBy(day), s) + [] == Filter(StartedBy(day), s);
  }

  /** When every developer enrolled by `day`, the starters by that day are
      all the starters. */
  lemma CountStartedByAll(s: seq<Developer>, day: int)
    requires forall d :: d in s ==> EnrollmentDay(d) <= day
    ensures Count(StartedBy(day), s) == Count(Started(), s)
  {
    forall i | 0 <= i < |s| ensures StartedBy(day)(s[i]) == Started()(s[i]) {
      assert s[i] in s;
    }
    FilterCongruent(StartedBy(day), Started(), s);
  }

  /** The step keeps the shape, adding the newest day. */
  lemma StepShape(data: seq<GrowthPoint>, s: seq<Developer>, d: Developer, m: nat, point: GrowthPoint)
    requires m <= |data| && Shape(data, s) && point.day == EnrollmentDay(d)
    requires forall i :: 0 <= i < m ==> data[i].day < EnrollmentDay(d)
    requires m < |data| ==> m == |data| - 1 && data[m].day == EnrollmentDay(d)
    ensures Shape(data[..m] + [point], s + [d])
  {
    var r := data[..m] + [point];
    assert EnrollmentDays(s + [d]) == EnrollmentDays(s) + {point.day} by {
      assert forall x :: x in s + [d] <==> x in s || x == d;
    }
    assert PointDays(r) == PointDays(data[..m]) + {point.day} by {
      assert forall p :: p in r <==> p in data[..m] || p == point;
    }
    if m < |data| {
      assert data == data[..m] + [data[m]];
    } else {
      assert data[..m] == data;
    }
    assert PointDays(data) == PointDays(data[..m]) + (if m < |data| then {point.day} else {}) by {
      assert forall p :: p in data <==> p in data[..m] || (m < |data| && p == data[m]);
    }
  }

  /** Appending a point that is counted correctly keeps the counts. */
  lemma CountsAppend(data: seq<GrowthPoint>, s: seq<Developer>, point: GrowthPoint)
    requires Counts(data, s)
    requires PointCounts(point, s)
    ensures Counts(data + [point], s)
  {
    assert forall i :: 0 <= i < |data| ==> (data + [point])[i] == data[i];
  }

  /** The step's points: the earlier days' points, then the point for the
      developer's day. */
  lemma StepData(g: Growth, s: seq<Developer>, d: Developer) returns (m: nat)
    requires Shape(g.data, s)
    requires forall x :: x in s ==> EnrollmentDay(x) <= EnrollmentDay(d)
    ensures m <= |g.data|
    ensures forall i :: 0 <= i < m ==> g.data[i].day < EnrollmentDay(d)
    ensures m < |g.data| ==> m == |g.data| - 1 && g.data[m].day == EnrollmentDay(d)
    ensures Step(g, d).data == g.data[..m] + [GrowthPoint(EnrollmentDay(d), Step(g, d).developers, Step(g, d).started)]
  {
    m := NewestDay(g.data, s, EnrollmentDay(d));
    var point := GrowthPoint(EnrollmentDay(d), Step(g, d).developers, Step(g, d).started);
    if m < |g.data| {
      assert Step(g, d).data == g.data[m := point];
    }
  }

  /** The totals after a step. */
  lemma StepTotals(g: Growth, s: seq<Developer>, d: Developer)
    requires g.developers == |s| && g.started == Count(Started(), s) && g.started <= g.developers
    ensures Step(g, d).developers == |s + [d]|
    ensures Step(g, d).started == Count(Started(), s + [d]) <= Step(g, d).developers
  {
    FilterAppend(Started(), s, [d]);
  }

  lemma StepInv(g: Growth, s: seq<Developer>, d: Developer)
    requires GrowthInv(g, s)
    requires forall x :: x in s ==> EnrollmentDay(x) <= EnrollmentDay(d)
    ensures GrowthInv(Step(g, d), s + [d])
  {
    var s', g' := s + [d], Step(g, d);
    var point := GrowthPoint(EnrollmentDay(d), g'.developers, g'.started);
    var m := StepData(g, s, d);
    StepTotals(g, s, d);
    StepCounts(g.data, s, d, m);
    CountsAppend(g.data[..m], s', point);
    StepShape(g.data, s, d, m, point);
    assert s'[|s'| - 1] == d;
    assert g'.data[|g'.data| - 1] == point;
  }

  /** The loop establishes the invariant over any ascending input. */
  lemma {:induction false} AccumulateInv(s: seq<Developer>)
    requires EnrolledAscending(s)
    ensures GrowthInv(Accumulate(s), s)
    decreases |s|
  {
    if |s| > 0 {
      var p := s[..|s| - 1];
      assert s == p + [s[|s| - 1]];
      AccumulateInv(p);
      LastDayIsLatest(s);
      assert forall x :: x in p ==> x in s;
      StepInv(Accumulate(p), p, s[|s| - 1]);
    }
  }

  /** Shape and counts depend only on which developers there are, not on
      their order. */
  lemma ReorderedDevelopers(data: seq<GrowthPoint>, a: seq<Developer>, b: seq<Developer>)
    requires multiset(a) == multiset(b)
    requires Shape(data, a) && Counts(data, a)
    ensures Shape(data, b) && Counts(data, b)
  {
    assert forall d :: d in a <==> d in b by {
      assert forall d :: d in a <==> d in multiset(a);
      assert forall d :: d in b <==> d in multiset(b);
    }
    assert EnrollmentDays(a) == EnrollmentDays(b);
    forall i | 0 <= i < |data| ensures PointCounts(data[i], b) {
      assert PointCounts(data[i], a);
      CountPermutation(EnrolledBy(data[i].day), a, b);
      CountPermutation(StartedBy(data[i].day), a, b);
    }
  }

  /** Reordering a sequence keeps every count. */
  lemma CountPermutation(p: Developer -> bool, a: seq<Developer>, b: seq<Developer>)
    requires multiset(a) == multiset(b)
    ensures Count(p, a) == Count(p, b)
  {
    FilterPermutation(p, a, b);
    assert |Filter(p, a)| == |multiset(Filter(p, a))|;
  }

  /** The chart data: the selected community's developers sorted by
      enrolment time and accumulated day by day. */
  function MembershipEvolution(selected: Option<Community>): (r: seq<GrowthPoint>)
    ensures selected.None? ==> r == []
  {
    match selected
    case None => []
    case Some(c) => Accumulate(SortByEnrollment(c.developers)).data
  }

  /** There is one point per enrolment day of the community, in ascending
      order; each counts the developers enrolled by the end of its day and
      those of them who started the course; the last counts all of them. */
  lemma MembershipEvolutionCounts(c: Community)
    ensures var r := MembershipEvolution(Some(c));
            Shape(r, c.developers) && Counts(r, c.developers)
            && (|c.developers| > 0 ==> |r| > 0 && r[|r| - 1].developers == |c.developers|)
  {
    var sorted := SortByEnrollment(c.developers);
    var g := Accumulate(sorted);
    AccumulateInv(sorted);
    assert GrowthInv(g, sorted);
    ReorderedDevelopers(g.data, sorted, c.developers);
  }

  // ---------------------------------------------------------------- change labels

  /** The text beside a figure: a fixed label, or the relative change in
      percent (rendered with one decimal and a `+` when positive; the
      rendering is not modelled). */
  datatype ChangeLabel = Fixed(text: string) | Relative(percent: real)

  /** Shown with a leading `+`. */
  predicate ShowsPlus(l: ChangeLabel) {
    (l.Fixed? && l.text == "+100%") || (l.Relative? && l.percent > 0.0)
  }

  function GetChange(current: real, previous: real): (r: ChangeLabel)
    ensures previous == 0.0 ==> r.Fixed? && (r.text == "+100%" || r.text == "0%")
    ensures previous == 0.0 ==> (r.text == "+100%" <==> current > 0.0)
    ensures previous != 0.0 ==> r.Relative? && r.percent * previous == (current - previous) * 100.0
  {
    if previous == 0.0 then
      if current > 0.0 then Fixed("+100%") else Fixed("0%")
    else
      var change := (current - previous) / previous * 100.0;
      assert (current - previous) / previous * previous == current - previous;
      Relative(change)
  }

  datatype ChangeColor = Green | Red | Neutral

  function GetChangeColor(current: real, previous: real): (r: ChangeColor)
    ensures r == Green <==> current > previous
    ensures r == Red <==> current < previous
  {
    if current > previous then Green
    else if current < previous then Red
    else Neutral
  }

  /** For non-negative figures a `+` appears exactly when the colour is
      green, except that growth from 0 to 0 shows `0%` in neutral. */
  lemma ChangeAgreesWithColor(current: real, previous: real)
    requires current >= 0.0 && previous >= 0.0
    ensures ShowsPlus(GetChange(current, previous)) <==> GetChangeColor(current, previous) == Green
  {
    if previous > 0.0 {
      var p := GetChange(current, previous).percent;
      if p > 0.0 {
        assert p * previous > 0.0;
      } else {
        assert p * previous <= 0.0;
      }
    }
  }

  // ---------------------------------------------------------------- download lists

  datatype ListKind = CertifiedList | SubscriberList

  function Wanted(kind: ListKind): Developer -> bool {
    if kind == CertifiedList then Certified() else Subscribed()
  }

  /** The selected community's certified, or subscribed, developers in
      order; nothing without a selection. */
  function DownloadList(selected: Option<Community>, kind: ListKind): (r: Option<seq<Developer>>)
    ensures r.None? <==> selected.None?
    ensures r.Some? ==> IsSubseq(r.value, selected.value.developers)
    ensures r.Some? ==> forall d :: d in r.value <==>
              (d in selected.value.developers && (if kind == CertifiedList then d.certified else d.subscribed))
  {
    match selected
    case None => None
    case Some(c) => Some(Filter(Wanted(kind), c.developers))
  }

  /** For a community built by the aggregator, the lists have exactly as
      many entries as its certified and subscribed counts. */
  lemma DownloadListSizes(code: string, members: seq<Developer>, metaMap: map<string, MetaData>)
    ensures |DownloadList(Some(Build(code, members, metaMap)), CertifiedList).value|
         == Build(code, members, metaMap).certifiedCount
    ensures |DownloadList(Some(Build(code, members, metaMap)), SubscriberList).value|
         == Build(code, members, metaMap).subscribedCount
  {
    assert Wanted(CertifiedList) == Certified();
    assert Wanted(SubscriberList) == Subscribed();
  }
}

=== FILE: communityupload.dfy ===
/** The reference community list of components/CommunityUpload.tsx: a CSV
    file whose code column, found by its header, gives the list of codes
    the dashboard compares its communities against. The CSV text has already
    been split into a header list and one map per non-empty data row. */
module CommunityUpload {
  import opened Wrappers
  import opened Seqs
  import opened Strings
  import FileUpload

  type Row = FileUpload.Row

  /** A header naming the code column, in any letter case. */
  predicate IsCodeHeader(h: string) {
    var l := Lower(h);
    l == "code" || l == "community code" || l == "community"
  }

  /** The position of the first code header from position `i` on. */
  function CodeHeaderFrom(headers: seq<string>, i: nat): (r: Option<nat>)
    requires i <= |headers|
    ensures r.None? <==> forall j :: i <= j < |headers| ==> !IsCodeHeader(headers[j])
    ensures r.Some? ==> i <= r.value < |headers| && IsCodeHeader(headers[r.value])
                        && forall j :: i <= j < r.value ==> !IsCodeHeader(headers[j])
    decreases |headers| - i
  {
    if i == |headers| then None
    else if IsCodeHeader(headers[i]) then Some(i)
    else CodeHeaderFrom(headers, i + 1)
  }

  /** `headers.find(...)`: the first header naming the code column. */
  function CodeHeader(headers: seq<string>): (r: Option<string>)
    ensures r.None? <==> forall h :: h in headers ==> !IsCodeHeader(h)
    ensures r.Some? ==> exists k :: 0 <= k < |headers| && headers[k] == r.value && IsCodeHeader(r.value)
                                    && forall j :: 0 <= j < k ==> !IsCodeHeader(headers[j])
  {
    match CodeHeaderFrom(headers, 0)
    case None => None
    case Some(k) => Some(headers[k])
  }

  /** The trimmed cells of the code column, with missing and empty ones
      dropped, in row order. */
  function Cells(rows: seq<Row>, header: string): (r: seq<string>)
    ensures forall c :: c in r ==> c != ""
    ensures forall c :: c in r <==> exists i :: 0 <= i < |rows| && header in rows[i] && c == Trim(rows[i][header]) && c != ""
  {
    if |rows| == 0 then []
    else
      var rest := Cells(rows[1..], header);
      assert forall i :: 1 <= i < |rows| ==> rows[i] == rows[1..][i - 1];
      if header in rows[0] && Trim(rows[0][header]) != "" then [Trim(rows[0][header])] + rest else rest
  }

  /** What choosing a file leads to. */
  datatype Outcome = NotCsv | NoCodeColumn | Loaded(codes: seq<string>)

  /** `handleFileChange` and the `complete` callback: the file name must end
      in `.csv` and a header must name the code column; the list is then the
      distinct non-empty trimmed codes in order of first appearance. */
  function HandleCommunityFile(fileName: string, headers: seq<string>, rows: seq<Row>): (r: Outcome)
    ensures r.NotCsv? <==> !EndsWith(fileName, ".csv")
    ensures r.NoCodeColumn? <==> EndsWith(fileName, ".csv") && forall h :: h in headers ==> !IsCodeHeader(h)
    ensures r.Loaded? ==> r.codes == Dedupe(Cells(rows, CodeHeader(headers).value))
  {
    if !EndsWith(fileName, ".csv") then NotCsv
    else
      match CodeHeader(headers)
      case None => NoCodeColumn
      case Some(h) => Loaded(Dedupe(Cells(rows, h)))
  }

  /** A loaded list holds each non-empty trimmed cell of the code column
      once, and nothing else; every code is already trimmed. */
  lemma LoadedList(fileName: string, headers: seq<string>, rows: seq<Row>)
    requires HandleCommunityFile(fileName, headers, rows).Loaded?
    ensures var codes := HandleCommunityFile(fileName, headers, rows).codes;
            var h := CodeHeader(headers).value;
            NoDups(codes)
            && (forall c :: c in codes <==> exists i :: 0 <= i < |rows| && h in rows[i] && c == Trim(rows[i][h]) && c != "")
            && (forall c :: c in codes ==> c != "" && Trim(c) == c)
  {
    var h := CodeHeader(headers).value;
    forall c | c in Dedupe(Cells(rows, h)) ensures Trim(c) == c {
      var i :| 0 <= i < |rows| && h in rows[i] && c == Trim(rows[i][h]) && c != "";
      TrimIdempotent(rows[i][h]);
    }
  }

  /** A code column already clean (trimmed, non-empty, distinct cells) is
      loaded exactly as written. */
  lemma CleanColumnLoadedAsIs(fileName: string, headers: seq<string>, rows: seq<Row>, column: seq<string>)
    requires HandleCommunityFile(fileName, headers, rows).Loaded?
    requires |column| == |rows|
    requires forall i :: 0 <= i < |rows| ==> CodeHeader(headers).value in rows[i] && rows[i][CodeHeader(headers).value] == column[i]
    requires forall i :: 0 <= i < |column| ==> column[i] != "" && Trim(column[i]) == column[i]
    requires NoDups(column)
    ensures HandleCommunityFile(fileName, headers, rows).codes == column
  {
    CleanCells(rows, CodeHeader(headers).value, column);
    DedupeNoDups(column);
  }

  lemma {:induction false} CleanCells(rows: seq<Row>, header: string, column: seq<string>)
    requires |column| == |rows|
    requires forall i :: 0 <= i < |rows| ==> header in rows[i] && rows[i][header] == column[i]
    requires forall i :: 0 <= i < |column| ==> column[i] != "" && Trim(column[i]) == column[i]
    ensures Cells(rows, header) == column
  {
    if |rows| > 0 {
      var rest, tail := rows[1..], column[1..];
      forall i | 0 <= i < |rest| ensures header in rest[i] && rest[i][header] == tail[i] {
        assert rest[i] == rows[i + 1] && tail[i] == column[i + 1];
      }
      forall i | 0 <= i < |tail| ensures tail[i] != "" && Trim(tail[i]) == tail[i] {
        assert tail[i] == column[i + 1];
      }
      CleanCells(rest, header, tail);
      assert header in rows[0] && Trim(rows[0][header]) == column[0] != "";
      assert Cells(rows, header) == [column[0]] + Cells(rest, header);
      assert [column[0]] + tail == column;
    }
  }
}

=== FILE: developermetrics.dfy ===
/** The anomaly heuristics of hooks/useDeveloperMetrics.ts: identifiers
    (e-mail addresses) that look like throw-away accounts, and completions
    that came suspiciously soon after enrolment. */
module DeveloperMetrics {
  import opened Seqs
  import opened Strings
  import opened Model
  import opened CommunityData

  /** The 13 disposable-mail domains, in lower case. */
  const DisposableDomains: set<string> := {
    "mailinator.com", "temp-mail.org", "10minutemail.com", "guerrillamail.com", "yopmail.com",
    "sharklasers.com", "getnada.com", "throwawaymail.com", "tempmailo.com", "incognitomail.org",
    "tempr.email", "moakt.com", "maildrop.cc"
  }

  /** The first `'@'`-separated piece of the identifier. */
  function UserName(id: string): string {
    Split(id, {'@'})[0]
  }

  /** The second `'@'`-separated piece, `""` when there is none. */
  function Domain(id: string): string {
    var parts := Split(id, {'@'});
    if |parts| >= 2 then parts[1] else ""
  }

  /** Flagged when there is a non-empty domain and the domain is disposable,
      or the identifier contains `'+'` anywhere, or the user name is all
      digits. */
  predicate IsPotentialFake(id: string) {
    var domain := Domain(id);
    domain != "" && (Lower(domain) in DisposableDomains || '+' in id || IsDigits(UserName(id)))
  }

  /** An identifier without `'@'` is never flagged. */
  lemma NoAtNeverFake(id: string)
    requires '@' !in id
    ensures !IsPotentialFake(id)
  {
    SplitNoSeparator(id, {'@'});
  }

  /** For an identifier `user@domain...`, where `user` and `domain` hold no
      `'@'` and whatever follows starts with `'@'`, the three criteria apply
      to exactly those pieces; an empty domain is never flagged. */
  lemma FakeShape(user: string, domain: string, rest: string)
    requires '@' !in user && '@' !in domain
    requires rest == "" || rest[0] == '@'
    ensures IsPotentialFake(user + "@" + domain + rest) <==>
              domain != "" &&
              (Lower(domain) in DisposableDomains || '+' in user + "@" + domain + rest || IsDigits(user))
  {
    var id := user + "@" + domain + rest;
    assert id == user + ['@'] + (domain + rest);
    SplitAtFirst(user, '@', domain + rest, {'@'});
    if rest == "" {
      assert domain + rest == domain;
      SplitNoSeparator(domain, {'@'});
    } else {
      assert domain + rest == domain + ['@'] + rest[1..];
      SplitAtFirst(domain, '@', rest[1..], {'@'});
    }
    assert Split(id, {'@'})[0] == user && Split(id, {'@'})[1] == domain;
  }

  function IsFakeP(): Developer -> bool {
    (d: Developer) => IsPotentialFake(d.developerId)
  }

  /** The number of flagged developers and their share in percent. */
  datatype FakeAccounts = FakeAccounts(count: nat, percentage: real)

  function PotentialFakeAccounts(devs: seq<Developer>): (r: FakeAccounts)
    ensures r.count == |Filter(IsFakeP(), devs)| <= |devs|
    ensures |devs| == 0 ==> r.percentage == 0.0
    ensures 0.0 <= r.percentage <= 100.0
    ensures r.percentage == Percent(r.count, |devs|)
  {
    var fakes := Filter(IsFakeP(), devs);
    FakeAccounts(|fakes|, Percent(|fakes|, |devs|))
  }

  function IsRapidP(): Developer -> bool {
    (d: Developer) => IsRapid(d)
  }

  /** The developers who completed less than 5 hours after enrolling (by the
      signed difference), in input order, and their number. */
  datatype RapidCompletions = RapidCompletions(count: nat, developers: seq<Developer>)

  function RapidCompletionList(devs: seq<Developer>): (r: RapidCompletions)
    ensures r.count == |r.developers|
    ensures IsSubseq(r.developers, devs)
    ensures forall d :: d in r.developers <==>
              (d in devs && d.completedAt.Some? && d.completedAt.value - d.enrollmentDate < 5 * 3600000)
    ensures forall d :: multiset(r.developers)[d] ==
              if d.completedAt.Some? && d.completedAt.value - d.enrollmentDate < 5 * 3600000
              then multiset(devs)[d] else 0
    ensures r.count == |set i | 0 <= i < |devs| && devs[i].completedAt.Some?
                                 && devs[i].completedAt.value - devs[i].enrollmentDate < 5 * 3600000|
  {
    var rapid := Filter(IsRapidP(), devs);
    CountPositions(IsRapidP(), devs);
    assert Positions(IsRapidP(), devs) == set i | 0 <= i < |devs| && devs[i].completedAt.Some?
                                 && devs[i].completedAt.value - devs[i].enrollmentDate < 5 * 3600000;
    RapidCompletions(|rapid|, rapid)
  }
}

=== FILE: emailmanager.dfy ===
/** The campaign builder of components/EmailManager.tsx: the `{{tag}}`
    substitution of templates, the audience filter with its two progress
    sliders, and the guards applied before a campaign is sent. */
module EmailManager {
  import opened Wrappers
  import opened Seqs
  import opened Strings
  import opened Model

  // ---------------------------------------------------------------- tags

  const FirstNameTag := "{{first_name}}"
  const LastNameTag := "{{last_name}}"
  const EmailTag := "{{email}}"
  const ProgressTag := "{{completion_percentage}}"
  const CodeTag := "{{community_code}}"
  const EventNameTag := "{{event_name}}"
  const EventDateTag := "{{event_date}}"
  const EventLinkTag := "{{event_link}}"

  /** The five tags filled from the developer and the three filled from an
      event. */
  const DeveloperTagList := [FirstNameTag, LastNameTag, EmailTag, ProgressTag, CodeTag]
  const EventTagList := [EventNameTag, EventDateTag, EventLinkTag]

  /** `{{name}}` with no brace inside the name. */
  predicate IsTag(t: string) {
    |t| >= 4 && t[0] == '{' && t[1] == '{' && t[|t| - 2] == '}' && t[|t| - 1] == '}'
    && (forall i :: 2 <= i < |t| ==> t[i] != '{')
    && (forall i :: 0 <= i < |t| - 2 ==> t[i] != '}')
  }

  /** Text in which no tag can start. */
  predicate NoBrace(s: string) {
    forall i :: 0 <= i < |s| ==> s[i] != '{'
  }

  /** The link shown for an event: `event.link || '#'`. */
  function LinkShown(link: string): (r: string)
    ensures r != ""
    ensures link != "" ==> r == link
  {
    if link == "" then "#" else link
  }

  /** The five developer tags replaced, in the order `replaceTags` chains
      its `replace` calls. */
  function DeveloperTags(text: string, d: Developer): string {
    var s1 := ReplaceAll(text, FirstNameTag, d.firstName);
    var s2 := ReplaceAll(s1, LastNameTag, d.lastName);
    var s3 := ReplaceAll(s2, EmailTag, d.developerId);
    var s4 := ReplaceAll(s3, ProgressTag, IntToString(d.certificationProgress));
    ReplaceAll(s4, CodeTag, d.communityCode)
  }

  /** The three event tags replaced; `localeDate` renders the event's date
      (`new Date(event.date).toLocaleDateString()`). */
  function EventTags(text: string, e: Event, localeDate: string -> string): string {
    var s1 := ReplaceAll(text, EventNameTag, e.name);
    var s2 := ReplaceAll(s1, EventDateTag, localeDate(e.date));
    ReplaceAll(s2, EventLinkTag, LinkShown(e.link))
  }

  /** `replaceTags`: empty text stays empty; otherwise the developer tags
      are filled, and the event tags too when an event is chosen. */
  function ReplaceTags(text: string, d: Developer, event: Option<Event>, localeDate: string -> string): (r: string)
    ensures text == "" ==> r == ""
    ensures NoTags(text) ==> r == text
  {
    if text == "" then ""
    else
      NoTagUnchanged(text, d, event, localeDate);
      var s := DeveloperTags(text, d);
      if event.Some? then EventTags(s, event.value, localeDate) else s
  }

  /** None of the eight tags occurs in `text`. */
  predicate NoTags(text: string) {
    forall t :: t in DeveloperTagList + EventTagList ==> !Contains(text, t)
  }

  /** What each tag stands for: the developer's fields, the event's fields
      when an event is chosen, and the tag itself otherwise. */
  function TagValue(t: string, d: Developer, event: Option<Event>, localeDate: string -> string): string {
    if t == FirstNameTag then d.firstName
    else if t == LastNameTag then d.lastName
    else if t == EmailTag then d.developerId
    else if t == ProgressTag then IntToString(d.certificationProgress)
    else if t == CodeTag then d.communityCode
    else if event.None? then t
    else if t == EventNameTag then event.value.name
    else if t == EventDateTag then localeDate(event.value.date)
    else if t == EventLinkTag then LinkShown(event.value.link)
    else t
  }

  /** None of the substituted values can start a tag. */
  predicate PlainValues(d: Developer, event: Option<Event>, localeDate: string -> string) {
    NoBrace(d.firstName) && NoBrace(d.lastName) && NoBrace(d.developerId) && NoBrace(d.communityCode)
    && (event.Some? ==> NoBrace(event.value.name) && NoBrace(localeDate(event.value.date)) && NoBrace(event.value.link))
  }

  /** A tag between plain text is replaced by what it stands for. */
  lemma TagReplaced(a: string, t: string, b: string, d: Developer, event: Option<Event>, localeDate: string -> string)
    requires t in DeveloperTagList || t in EventTagList
    requires NoBrace(a) && NoBrace(b) && PlainValues(d, event, localeDate)
    ensures ReplaceTags(a + t + b, d, event, localeDate) == a + TagValue(t, d, event, localeDate) + b
  {
    DeveloperTagsAreTags();
    EventTagsAreTags();
    assert |a + t + b| > 0;
    var x := DeveloperStage(a, t, b, d);
    if event.Some? {
      var y := EventStage(a, x, b, event.value, localeDate);
    }
  }

  /** The developer tags replaced around a tag or a plain value. */
  lemma DeveloperStage(a: string, t: string, b: string, d: Developer) returns (x: string)
    requires IsTag(t) || NoBrace(t)
    requires NoBrace(a) && NoBrace(b)
    requires NoBrace(d.firstName) && NoBrace(d.lastName) && NoBrace(d.developerId) && NoBrace(d.communityCode)
    ensures IsTag(x) || NoBrace(x)
    ensures x == if t == FirstNameTag then d.firstName
                 else if t == LastNameTag then d.lastName
                 else if t == EmailTag then d.developerId
                 else if t == ProgressTag then IntToString(d.certificationProgress)
                 else if t == CodeTag then d.communityCode
                 else t
    ensures DeveloperTags(a + t + b, d) == a + x + b
  {
    DeveloperTagsAreTags();
    NumberNoBrace(d.certificationProgress);
    var x1 := Step(a, t, b, FirstNameTag, d.firstName);
    var x2 := Step(a, x1, b, LastNameTag, d.lastName);
    var x3 := Step(a, x2, b, EmailTag, d.developerId);
    var x4 := Step(a, x3, b, ProgressTag, IntToString(d.certificationProgress));
    x := Step(a, x4, b, CodeTag, d.communityCode);
  }

  /** The event tags replaced around a tag or a plain value. */
  lemma EventStage(a: string, t: string, b: string, e: Event, localeDate: string -> string) returns (x: string)
    requires IsTag(t) || NoBrace(t)
    requires NoBrace(a) && NoBrace(b)
    requires NoBrace(e.name) && NoBrace(localeDate(e.date)) && NoBrace(e.link)
    ensures x == if t == EventNameTag then e.name
                 else if t == EventDateTag then localeDate(e.date)
                 else if t == EventLinkTag then LinkShown(e.link)
                 else t
    ensures EventTags(a + t + b, e, localeDate) == a + x + b
  {
    EventTagsAreTags();
    assert NoBrace(LinkShown(e.link)) by {
      if e.link == "" {
        assert LinkShown(e.link) == "#";
      }
    }
    var x1 := Step(a, t, b, EventNameTag, e.name);
    var x2 := Step(a, x1, b, EventDateTag, localeDate(e.date));
    x := Step(a, x2, b, EventLinkTag, LinkShown(e.link));
  }

  /** Each stage leaves a template without any of the eight tags as
      written. */
  lemma NoTagUnchanged(text: string, d: Developer, event: Option<Event>, localeDate: string -> string)
    ensures NoTags(text) ==> DeveloperTags(text, d) == text
    ensures NoTags(text) && event.Some? ==> EventTags(text, event.value, localeDate) == text
  {
    if NoTags(text) {
      ReplaceAllAbsent(text, FirstNameTag, d.firstName);
      ReplaceAllAbsent(text, LastNameTag, d.lastName);
      ReplaceAllAbsent(text, EmailTag, d.developerId);
      ReplaceAllAbsent(text, ProgressTag, IntToString(d.certificationProgress));
      ReplaceAllAbsent(text, CodeTag, d.communityCode);
      if event.Some? {
        ReplaceAllAbsent(text, EventNameTag, event.value.name);
        ReplaceAllAbsent(text, EventDateTag, localeDate(event.value.date));
        ReplaceAllAbsent(text, EventLinkTag, LinkShown(event.value.link));
      }
    }
  }

  lemma DeveloperTagsAreTags()
    ensures forall t :: t in DeveloperTagList ==> IsTag(t)
  {
    assert IsTag(FirstNameTag);
    assert IsTag(LastNameTag);
    assert IsTag(EmailTag);
    assert IsTag(ProgressTag);
    assert IsTag(CodeTag);
  }

  lemma EventTagsAreTags()
    ensures forall t :: t in EventTagList ==> IsTag(t)
  {
    assert IsTag(EventNameTag);
    assert IsTag(EventDateTag);
    assert IsTag(EventLinkTag);
  }

  lemma NumberNoBrace(n: int)
    ensures NoBrace(IntToString(n))
  {
    if n < 0 {
      assert forall i :: 1 <= i < |IntToString(n)| ==> IntToString(n)[i] == NatToString(-n)[i - 1];
    }
  }

  /** One `replace` call on plain text around a tag or a plain value:
      returns what stands between `a` and `b` afterwards. */
  lemma Step(a: string, x: string, b: string, pat: string, rep: string) returns (y: string)
    requires NoBrace(a) && NoBrace(b) && NoBrace(rep) && IsTag(pat)
    requires IsTag(x) || NoBrace(x)
    ensures y == if x == pat then rep else x
    ensures IsTag(y) || NoBrace(y)
    ensures ReplaceAll(a + x + b, pat, rep) == a + y + b
  {
    y := if x == pat then rep else x;
    assert a + x + b == a + (x + b);
    ReplaceAllSkip(a, x + b, pat, rep);
    if IsTag(x) {
      ReplaceAllTag(x, b, pat, rep);
    } else {
      assert NoBrace(x + b);
      ReplaceAllSkip(x + b, "", pat, rep);
      assert x + b + "" == x + b;
    }
  }

  /** Plain text before the rest is copied through. */
  lemma {:induction false} ReplaceAllSkip(a: string, rest: string, pat: string, rep: string)
    requires |pat| > 0 && pat[0] == '{' && NoBrace(a)
    ensures ReplaceAll(a + rest, pat, rep) == a + ReplaceAll(rest, pat, rep)
    decreases |a|
  {
    if |a| > 0 {
      var s := a + rest;
      if |s| >= |pat| {
        assert s[..|pat|][0] == a[0];
        assert s[1..] == a[1..] + rest;
        ReplaceAllSkip(a[1..], rest, pat, rep);
      } else {
        assert |rest| < |pat|;
      }
    } else {
      assert a + rest == rest;
    }
  }

  /** A tag followed by plain text: the tag is replaced when it is the
      pattern and kept otherwise. */
  lemma ReplaceAllTag(t: string, b: string, pat: string, rep: string)
    requires IsTag(t) && IsTag(pat) && NoBrace(b)
    ensures ReplaceAll(t + b, pat, rep) == (if t == pat then rep else t) + b
  {
    var s := t + b;
    if t == pat {
      assert s[..|pat|] == pat && s[|pat|..] == b;
      ReplaceAllSkip(b, "", pat, rep);
      assert b + "" == b;
    } else {
      TagNotPrefix(t, b, pat);
      var s1 := s[1..];
      assert s1 == t[1..] + b;
      if |s1| >= |pat| {
        assert s1[..|pat|][1] == t[2];
      }
      assert s1[1..] == t[2..] + b;
      assert NoBrace(t[2..] + b);
      ReplaceAllSkip(t[2..] + b, "", pat, rep);
      assert t[2..] + b + "" == t[2..] + b;
      assert t + b == [t[0]] + ([t[1]] + (t[2..] + b));
    }
  }

  /** A different tag does not start where a tag starts. */
  lemma TagNotPrefix(t: string, b: string, pat: string)
    requires IsTag(t) && IsTag(pat) && t != pat
    ensures !(|t + b| >= |pat| && (t + b)[..|pat|] == pat)
  {
    if |t + b| >= |pat| {
      var head := (t + b)[..|pat|];
      if |pat| > |t| {
        assert head[|t| - 2] == '}' && pat[|t| - 2] != '}';
      } else if |pat| == |t| {
        assert head == t;
      } else {
        assert head[|pat| - 2] == t[|pat| - 2] != '}';
      }
    }
  }

  // ---------------------------------------------------------------- audience

  /** The target community (`'all'` or a code) and the progress window. */
  datatype Audience = Audience(community: string, minProgress: int, maxProgress: int)

  /** The filter before any edit. */
  const InitialAudience := Audience("all", 0, 100)

  /** Subscribed, in the target community, and with progress in the window. */
  predicate Targeted(a: Audience, d: Developer) {
    d.subscribed
    && (a.community == "all" || d.communityCode == a.community)
    && a.minProgress <= d.certificationProgress <= a.maxProgress
  }

  function TargetedP(a: Audience): Developer -> bool {
    (d: Developer) => Targeted(a, d)
  }

  /** `filteredDevelopers`: the targeted developers, in order. */
  function FilteredDevelopers(devs: seq<Developer>, a: Audience): (r: seq<Developer>)
    ensures IsSubseq(r, devs)
    ensures forall d :: d in r <==> d in devs && d.subscribed
                                    && (a.community == "all" || d.communityCode == a.community)
                                    && a.minProgress <= d.certificationProgress <= a.maxProgress
    ensures forall d :: multiset(r)[d] == if Targeted(a, d) then multiset(devs)[d] else 0
  {
    Filter(TargetedP(a), devs)
  }

  function Subscribed(): Developer -> bool {
    (d: Developer) => d.subscribed
  }

  /** Before any edit, every subscribed developer with progress within
      0..100 is targeted. */
  lemma InitialAudienceTargetsSubscribed(devs: seq<Developer>)
    requires forall d :: d in devs ==> 0 <= d.certificationProgress <= 100
    ensures FilteredDevelopers(devs, InitialAudience) == Filter(Subscribed(), devs)
  {
    assert forall i :: 0 <= i < |devs| ==> devs[i] in devs;
    FilterCongruent(TargetedP(InitialAudience), Subscribed(), devs);
  }

  /** Targeting one community picks that community's developers out of the
      audience for all communities (a code spelled `all` means all). */
  lemma CommunityNarrows(devs: seq<Developer>, a: Audience, code: string)
    requires code != "all"
    ensures FilteredDevelopers(devs, a.(community := code))
         == Filter(CodeIs(code), FilteredDevelopers(devs, a.(community := "all")))
  {
    NarrowBy(devs, a.(community := "all"), a.(community := code), code);
  }

  lemma NarrowBy(devs: seq<Developer>, all: Audience, one: Audience, code: string)
    requires all.community == "all" && code != "all" && one == all.(community := code)
    ensures Filter(TargetedP(one), devs) == Filter(CodeIs(code), Filter(TargetedP(all), devs))
  {
    FilterFilter(TargetedP(all), CodeIs(code), devs);
    forall i | 0 <= i < |devs|
      ensures Both(TargetedP(all), CodeIs(code))(devs[i]) == TargetedP(one)(devs[i])
    {
    }
    FilterCongruent(Both(TargetedP(all), CodeIs(code)), TargetedP(one), devs);
  }

  /** A move of one slider to a position in 0..100. */
  datatype SliderMove = MoveMin(value: int) | MoveMax(value: int)

  /** The lower slider cannot pass the upper one (`Math.min`) and the upper
      one cannot pass the lower one (`Math.max`). */
  function MoveSlider(a: Audience, m: SliderMove): (r: Audience)
    ensures r.community == a.community
    ensures m.MoveMin? ==> r.maxProgress == a.maxProgress && r.minProgress <= m.value
    ensures m.MoveMax? ==> r.minProgress == a.minProgress && r.maxProgress >= m.value
    ensures m.MoveMin? && m.value <= a.maxProgress ==> r.minProgress == m.value
    ensures m.MoveMax? && m.value >= a.minProgress ==> r.maxProgress == m.value
  {
    match m
    case MoveMin(v) => a.(minProgress := if v < a.maxProgress then v else a.maxProgress)
    case MoveMax(v) => a.(maxProgress := if v > a.minProgress then v else a.minProgress)
  }

  function MoveSliders(a: Audience, moves: seq<SliderMove>): Audience
    decreases |moves|
  {
    if |moves| == 0 then a else MoveSliders(MoveSlider(a, moves[0]), moves[1..])
  }

  predicate WindowOk(a: Audience) {
    0 <= a.minProgress <= a.maxProgress <= 100
  }

  /** Slider moves within 0..100 keep the window ordered and inside
      0..100. */
  lemma {:induction false} SlidersKeepWindow(a: Audience, moves: seq<SliderMove>)
    requires WindowOk(a)
    requires forall i :: 0 <= i < |moves| ==> 0 <= moves[i].value <= 100
    ensures WindowOk(MoveSliders(a, moves))
    decreases |moves|
  {
    if |moves| > 0 {
      SlidersKeepWindow(MoveSlider(a, moves[0]), moves[1..]);
    }
  }

  // ---------------------------------------------------------------- sending

  datatype Template = Template(id: string, name: string, subject: string, body: string)

  /** What the send button does: refuse for missing credentials, refuse for
      an empty audience, or hand the subscribers' e-mail addresses over with
      the subject filled for the first of them. */
  datatype SendOutcome = MissingCredentials | NoTargets | Dispatch(subscribers: seq<string>, subject: string)

  function HandleSendEmails(apiKey: string, groupId: string, targets: seq<Developer>, template: Template,
                            event: Option<Event>, localeDate: string -> string): (r: SendOutcome)
    ensures r.MissingCredentials? <==> apiKey == "" || groupId == ""
    ensures r.NoTargets? <==> apiKey != "" && groupId != "" && |targets| == 0
    ensures r.Dispatch? ==> |r.subscribers| == |targets|
                            && (forall i :: 0 <= i < |targets| ==> r.subscribers[i] == targets[i].developerId)
                            && r.subject == ReplaceTags(template.subject, targets[0], event, localeDate)
  {
    if apiKey == "" || groupId == "" then MissingCredentials
    else if |targets| == 0 then NoTargets
    else
      Dispatch(seq(|targets|, i requires 0 <= i < |targets| => targets[i].developerId),
               ReplaceTags(template.subject, targets[0], event, localeDate))
  }

  /** `events.find(e => e.id === id)`: the first event with that id. */
  function FindEvent(events: seq<Event>, id: string): (r: Option<Event>)
    ensures r.None? <==> forall e :: e in events ==> e.id != id
    ensures r.Some? ==> r.value in events && r.value.id == id
  {
    if |events| == 0 then None
    else if events[0].id == id then Some(events[0])
    else
      assert forall e :: e in events ==> e == events[0] || e in events[1..];
      FindEvent(events[1..], id)
  }
}

=== FILE: eventsdashboard.dfy ===
/** The events screen of components/EventsDashboard.tsx: the event form with
    its defaults and validation, the split of the events into an upcoming
    and a past list, and the date fallback App.tsx applies when saving. */
module EventsDashboard {
  import opened Wrappers
  import opened Seqs
  import opened Sorting
  import opened Model

  // ---------------------------------------------------------------- form

  /** The form fields, which are also the fields handed to `onSave`: an event
      without its id. */
  datatype Draft = Draft(
    name: string,
    date: string,
    description: string,
    kind: EventKind,
    category: string,
    communityCode: string,
    link: string)

  const DefaultCategory := "Webinar"
  const AllCommunities := "All"

  /** The form for a new event. */
  const BlankForm := Draft("", "", "", Upcoming, DefaultCategory, AllCommunities, "")

  /** The fields of a stored event. */
  function DraftOf(e: Event): Draft {
    Draft(e.name, e.date, e.description, e.kind, e.category, e.communityCode, e.link)
  }

  /** The form after `useEffect` runs for `editing`: blank for a new event;
      otherwise the event's fields, with a missing category, community or
      link shown as "Webinar", "All" or empty. */
  function FormFor(editing: Option<Event>): (f: Draft)
    ensures editing.None? ==> f == BlankForm
    ensures editing.Some? ==>
              f.name == editing.value.name && f.date == editing.value.date
              && f.description == editing.value.description && f.kind == editing.value.kind
              && f.link == editing.value.link
    ensures f.category != "" && f.communityCode != ""
    ensures editing.Some? && editing.value.category != "" ==> f.category == editing.value.category
    ensures editing.Some? && editing.value.communityCode != "" ==> f.communityCode == editing.value.communityCode
  {
    match editing
    case None => BlankForm
    case Some(e) =>
      Draft(e.name, e.date, e.description, e.kind,
            if e.category == "" then DefaultCategory else e.category,
            if e.communityCode == "" then AllCommunities else e.communityCode,
            e.link)
  }

  datatype Submission = Refused | Save(draft: Draft, id: Option<string>)

  /** `handleSubmit`: refused without a name or a date; otherwise every field
      goes to `onSave` with the id of the event being edited, if any. */
  function Submit(form: Draft, editing: Option<Event>): (r: Submission)
    ensures r.Refused? <==> form.name == "" || form.date == ""
    ensures r.Save? ==> r.draft == form
    ensures r.Save? ==> (r.id.Some? <==> editing.Some?)
    ensures r.Save? && editing.Some? ==> r.id == Some(editing.value.id)
  {
    if form.name == "" || form.date == "" then Refused
    else Save(form, if editing.Some? then Some(editing.value.id) else None)
  }

  /** The blank form cannot be submitted as it is. */
  lemma BlankFormRefused()
    ensures Submit(FormFor(None), None) == Refused
  {
  }

  /** Opening a complete event for editing and submitting the form unchanged
      saves the event as it was, under its own id. */
  lemma EditRoundTrip(e: Event)
    requires e.name != "" && e.date != "" && e.category != "" && e.communityCode != ""
    ensures Submit(FormFor(Some(e)), Some(e)) == Save(DraftOf(e), Some(e.id))
  {
  }

  /** `handleSaveEvent` in App.tsx: an empty date becomes `today`, the
      `YYYY-MM-DD` of the current time, which is a parameter. */
  function SaveFallback(d: Draft, today: string): (r: Draft)
    ensures d.date != "" ==> r == d
    ensures d.date == "" ==> r == d.(date := today)
  {
    if d.date == "" then d.(date := today) else d
  }

  /** What the form hands over is what App.tsx saves: the date fallback
      never applies to a submitted form. */
  lemma SubmittedDateKept(form: Draft, editing: Option<Event>, today: string)
    ensures Submit(form, editing).Save? ==> SaveFallback(Submit(form, editing).draft, today) == form
  {
  }

  // ---------------------------------------------------------------- lists

  function IsUpcoming(): Event -> bool {
    (e: Event) => e.kind == Upcoming
  }

  function IsPast(): Event -> bool {
    (e: Event) => e.kind == Past
  }

  /** Sorting key for ascending time: the negated time of the date. The time
      `new Date(date).getTime()` gives is the parameter `time`. */
  function Earlier(time: string -> int): Event -> real {
    (e: Event) => -(time(e.date) as real)
  }

  function Later(time: string -> int): Event -> real {
    (e: Event) => time(e.date) as real
  }

  /** `upcomingEvents`: the upcoming events, earliest first. */
  function UpcomingEvents(events: seq<Event>, time: string -> int): (r: seq<Event>)
    ensures multiset(r) == multiset(Filter(IsUpcoming(), events))
    ensures forall i, j :: 0 <= i < j < |r| ==> time(r[i].date) <= time(r[j].date)
  {
    var r := SortDesc(Filter(IsUpcoming(), events), Earlier(time));
    assert forall i, j :: 0 <= i < j < |r| ==> Earlier(time)(r[i]) >= Earlier(time)(r[j]);
    r
  }

  /** `pastEvents`: the past events, latest first. */
  function PastEvents(events: seq<Event>, time: string -> int): (r: seq<Event>)
    ensures multiset(r) == multiset(Filter(IsPast(), events))
    ensures forall i, j :: 0 <= i < j < |r| ==> time(r[i].date) >= time(r[j].date)
  {
    var r := SortDesc(Filter(IsPast(), events), Later(time));
    assert forall i, j :: 0 <= i < j < |r| ==> Later(time)(r[i]) >= Later(time)(r[j]);
    r
  }

  /** Every event is listed exactly once: the two lists together are a
      reordering of the events. */
  lemma ListsPartitionEvents(events: seq<Event>, time: string -> int)
    ensures multiset(UpcomingEvents(events, time)) + multiset(PastEvents(events, time)) == multiset(events)
  {
    FilterComplement(IsUpcoming(), events);
    FilterCongruent(Not(IsUpcoming()), IsPast(), events);
  }

  /** An event is in the upcoming list exactly when it is one of the events
      and marked upcoming, and likewise for the past list. */
  lemma ListMembership(events: seq<Event>, time: string -> int, e: Event)
    ensures e in UpcomingEvents(events, time) <==> e in events && e.kind == Upcoming
    ensures e in PastEvents(events, time) <==> e in events && e.kind == Past
  {
    assert e in UpcomingEvents(events, time) <==> e in multiset(Filter(IsUpcoming(), events));
    assert e in PastEvents(events, time) <==> e in multiset(Filter(IsPast(), events));
  }

  /** Upcoming events on the same date (the same key `v`) keep the order they arrived in. */
  lemma SameDateKeepsOrderUpcoming(events: seq<Event>, time: string -> int, v: real)
    ensures WithKey(UpcomingEvents(events, time), Earlier(time), v)
         == WithKey(Filter(IsUpcoming(), events), Earlier(time), v)
  {
    var s := Filter(IsUpcoming(), events);
    assert UpcomingEvents(events, time) == SortDesc(s, Earlier(time));
    SortStable(s, Earlier(time), v);
  }

  /** Past events on the same date (the same key `v`) keep the order they arrived in. */
  lemma SameDateKeepsOrderPast(events: seq<Event>, time: string -> int, v: real)
    ensures WithKey(PastEvents(events, time), Later(time), v)
         == WithKey(Filter(IsPast(), events), Later(time), v)
  {
    var s := Filter(IsPast(), events);
    assert PastEvents(events, time) == SortDesc(s, Later(time));
    SortStable(s, Later(time), v);
  }
}

=== FILE: fileupload.dfy ===
/** Turning an uploaded developer CSV into developer records
    (components/FileUpload.tsx). The CSV text has already been split into a
    header list and one map per non-empty data row; a cell the row lacks is
    absent from its map (`undefined`). */
module FileUpload {
  import opened Wrappers
  import opened Seqs
  import opened Strings
  import opened Calendar
  import opened Model

  /** The columns an upload must have, in the order they are reported. */
  const RequiredHeaders: seq<string> := [
    "Email", "Code", "Country", "Percentage Completed", "Created At",
    "Accepted Marketing", "Accepted Membership", "Completed At"
  ]

  type Row = map<string, string>

  /** `row[key]`: `None` is `undefined`. */
  function Cell(row: Row, key: string): Option<string> {
    if key in row then Some(row[key]) else None
  }

  /** A cell is truthy when it is present and not the empty string. */
  predicate Truthy(cell: Option<string>) {
    cell.Some? && cell.value != ""
  }

  /** Why an upload is rejected. Row errors carry the spreadsheet line:
      the 0-based row index plus 2. */
  datatype UploadError =
    | NotCsv
    | MissingHeaders(missing: seq<string>)
    | InvalidProgress(line: nat, cell: Option<string>)
    | InvalidCreatedAt(line: nat, cell: Option<string>)
    | InvalidCompletedAt(line: nat, text: string)

  function Absent(headers: seq<string>): string -> bool {
    h => h !in headers
  }

  /** The required columns the header list lacks, in the required order. */
  function Missing(headers: seq<string>): (r: seq<string>)
    ensures IsSubseq(r, RequiredHeaders)
    ensures forall h :: h in r <==> h in RequiredHeaders && h !in headers
    ensures |r| == 0 <==> forall h :: h in RequiredHeaders ==> h in headers
  {
    var r := Filter(Absent(headers), RequiredHeaders);
    assert |r| > 0 ==> r[0] in r;
    r
  }

  /** `parseInt(cell, 10)` accepted only in 0..100; `undefined` is NaN. */
  function ParseProgress(cell: Option<string>): (r: Option<int>)
    ensures r.Some? ==> 0 <= r.value <= 100
    ensures r.Some? <==> cell.Some? && ParseInt(cell.value).Some? && 0 <= ParseInt(cell.value).value <= 100
    ensures r.Some? ==> r == ParseInt(cell.value)
  {
    if cell.None? then None
    else
      match ParseInt(cell.value)
      case None => None
      case Some(p) => if p < 0 || p > 100 then None else Some(p)
  }

  /** Any rendering of a percentage, zero-padded or not, is read back. */
  lemma ProgressRoundTrip(n: nat, width: nat)
    requires n <= 100
    ensures ParseProgress(Some(PadStart(NatToString(n), width))) == Some(n)
  {
    ParseIntPadded(n, width);
  }

  /** A marketing or membership flag: `"true"`, `"yes"` or `"1"`, in any
      letter case. */
  predicate Flag(cell: Option<string>) {
    cell.Some? && Lower(cell.value) in {"true", "yes", "1"}
  }

  /** Letter case does not matter to a flag. */
  lemma FlagIgnoresCase(s: string)
    ensures Flag(Some(s)) == Flag(Some(Lower(s)))
  {
    LowerIdempotent(s);
  }

  /** The trimmed country, or `"Unknown"` when that is empty or absent. */
  function Country(cell: Option<string>): (r: string)
    ensures r != "" && Trim(r) == r
    ensures r == "Unknown" || (cell.Some? && r == Trim(cell.value))
    ensures cell.Some? && Trim(cell.value) != "" ==> r == Trim(cell.value)
  {
    if cell.Some? && Trim(cell.value) != "" then
      TrimIdempotent(cell.value);
      Trim(cell.value)
    else
      assert TrimOffset("Unknown") == 0;
      assert TrailCount(IsWhitespace, "Unknown") == 0;
      "Unknown"
  }

  const TwelveHours: int := 12 * MsPerHour

  /** The repair of a completion time read with the wrong half of the day:
      a completion before enrolment moves 12 hours later, but only when that
      is a valid date strictly after enrolment. */
  function RepairCompletion(completed: int, enrolled: int): (r: int)
    ensures completed >= enrolled ==> r == completed
    ensures r == completed || (r == completed + TwelveHours && completed < enrolled < r)
    ensures completed < enrolled < completed + TwelveHours && -MaxTime <= completed + TwelveHours <= MaxTime ==>
              r == completed + TwelveHours
  {
    if completed < enrolled then
      var adjusted := TimeClip(completed + TwelveHours);
      if adjusted.Some? && adjusted.value > enrolled then adjusted.value else completed
    else completed
  }

  /** A completion exactly 12 hours before enrolment stays as it is. */
  lemma RepairNeedsStrictlyLater(enrolled: int)
    ensures RepairCompletion(enrolled - TwelveHours, enrolled) == enrolled - TwelveHours
  {
  }

  /** Repairing is idempotent: a repaired time is never moved again. */
  lemma RepairIdempotent(completed: int, enrolled: int)
    ensures RepairCompletion(RepairCompletion(completed, enrolled), enrolled) == RepairCompletion(completed, enrolled)
  {
  }

  /** The characters the e-mail fallback replaces by spaces. */
  const NameSeparators: set<char> := {'.', '_', '-'}

  /** The characters that end a name token. */
  const TokenSeparators: set<char> := {'.', '_', '-', ' '}

  function NonEmpty(): string -> bool {
    (p: string) => |p| > 0
  }

  /** The name tokens of an e-mail address: the part before the first `'@'`
      with `.`, `_` and `-` replaced by spaces, split on spaces, empty pieces
      dropped; that is, the non-empty pieces between token separators. */
  function NameTokens(email: string): (r: seq<string>)
    ensures r == Filter(NonEmpty(), Split(Split(email, {'@'})[0], TokenSeparators))
  {
    var local := Split(email, {'@'})[0];
    SplitReplaced(local, NameSeparators, ' ');
    assert NameSeparators + {' '} == TokenSeparators;
    Filter(NonEmpty(), Split(ReplaceChars(local, NameSeparators, ' '), {' '}))
  }

  /** Name tokens are non-empty and hold no token separator. */
  lemma NameTokensClean(email: string)
    ensures forall k :: 0 <= k < |NameTokens(email)| ==>
              |NameTokens(email)[k]| > 0 && forall c :: c in NameTokens(email)[k] ==> c !in TokenSeparators
  {
    var pieces := Split(Split(email, {'@'})[0], TokenSeparators);
    var r := NameTokens(email);
    forall k | 0 <= k < |r|
      ensures |r[k]| > 0 && forall c :: c in r[k] ==> c !in TokenSeparators
    {
      assert r[k] in r;
      var j :| 0 <= j < |pieces| && pieces[j] == r[k];
    }
  }

  /** A name column's trimmed value, or `""` when the column is missing or
      the cell is empty. */
  function CsvName(row: Row, hasColumn: bool, key: string): string {
    if hasColumn && Truthy(Cell(row, key)) then Trim(Cell(row, key).value) else ""
  }

  datatype Names = Names(first: string, last: string)

  /** First and last name: from the name columns, or, when no first name
      results, from the e-mail address's first and last name tokens,
      capitalised. A last-name token replaces the column's last name only
      when the address has at least two tokens. */
  function DeriveNames(row: Row, hasFirst: bool, hasLast: bool): (r: Names)
    ensures CsvName(row, hasFirst, "First Name") != "" ==>
              r == Names(CsvName(row, hasFirst, "First Name"), CsvName(row, hasLast, "Last Name"))
    ensures !Truthy(Cell(row, "Email")) ==>
              r == Names(CsvName(row, hasFirst, "First Name"), CsvName(row, hasLast, "Last Name"))
    ensures r.first == "" <==>
              CsvName(row, hasFirst, "First Name") == "" &&
              (!Truthy(Cell(row, "Email")) || |NameTokens(Cell(row, "Email").value)| == 0)
    ensures r.last != CsvName(row, hasLast, "Last Name") ==>
              CsvName(row, hasFirst, "First Name") == "" && Truthy(Cell(row, "Email")) &&
              |NameTokens(Cell(row, "Email").value)| >= 2
    ensures CsvName(row, hasFirst, "First Name") == "" && Truthy(Cell(row, "Email")) ==>
              var tokens := NameTokens(Cell(row, "Email").value);
              (|tokens| > 0 ==> r.first == Capitalize(tokens[0])) &&
              (|tokens| >= 2 ==> r.last == Capitalize(tokens[|tokens| - 1]))
  {
    var first := CsvName(row, hasFirst, "First Name");
    var last := CsvName(row, hasLast, "Last Name");
    if first == "" && Truthy(Cell(row, "Email")) then EmailNames(Cell(row, "Email").value, first, last)
    else Names(first, last)
  }

  /** The names an address gives: its first token for the first name and,
      when it has two or more, its last token for the last name, each
      capitalised; otherwise the names already found stay. */
  function EmailNames(email: string, first: string, last: string): (r: Names)
    ensures |NameTokens(email)| > 0 ==> r.first == Capitalize(NameTokens(email)[0]) && r.first != ""
    ensures |NameTokens(email)| == 0 ==> r.first == first
    ensures |NameTokens(email)| >= 2 ==> r.last == Capitalize(NameTokens(email)[|NameTokens(email)| - 1])
    ensures |NameTokens(email)| < 2 ==> r.last == last
  {
    var tokens := NameTokens(email);
    NameTokensClean(email);
    Names(if |tokens| > 0 then Capitalize(tokens[0]) else first,
          if |tokens| > 1 then Capitalize(tokens[|tokens| - 1]) else last)
  }

  /** Without name columns, `ann.smith@example.org` becomes Ann Smith: the
      tokens on either side of the separator, capitalised. */
  lemma DottedEmailNames(a: string, sep: char, b: string, domain: string, row: Row)
    requires sep in TokenSeparators
    requires |a| > 0 && |b| > 0
    requires forall c :: c in a ==> c !in TokenSeparators && c != '@'
    requires forall c :: c in b ==> c !in TokenSeparators && c != '@'
    requires row == map["Email" := a + [sep] + b + "@" + domain]
    ensures DeriveNames(row, false, false) == Names(Capitalize(a), Capitalize(b))
  {
    var email := a + [sep] + b + "@" + domain;
    TwoTokens(a, sep, b, domain);
    assert Cell(row, "Email") == Some(email);
    assert CsvName(row, false, "First Name") == "";
  }

  /** The address `a + [sep] + b + "@" + domain` has exactly the tokens
      `a` and `b`. */
  lemma TwoTokens(a: string, sep: char, b: string, domain: string)
    requires sep in TokenSeparators
    requires |a| > 0 && |b| > 0
    requires forall c :: c in a ==> c !in TokenSeparators && c != '@'
    requires forall c :: c in b ==> c !in TokenSeparators && c != '@'
    ensures NameTokens(a + [sep] + b + "@" + domain) == [a, b]
  {
    var local := a + [sep] + b;
    assert forall c :: c in local ==> c !in {'@'};
    assert a + [sep] + b + "@" + domain == local + ['@'] + domain;
    SplitAtFirst(local, '@', domain, {'@'});
    SplitAtFirst(a, sep, b, TokenSeparators);
    SplitNoSeparator(b, TokenSeparators);
    assert Split(local, TokenSeparators) == [a, b];
    assert Filter(NonEmpty(), [b]) == [b] by {
      assert Filter(NonEmpty(), [b][1..]) == [];
    }
    assert [a, b][1..] == [b];
  }

  /** What the upload needs to know beyond the row: whether the name columns
      exist, and how `new Date(text)` reads a date. */
  datatype Upload = Upload(hasFirstName: bool, hasLastName: bool, parseDate: string -> TimeValue)

  /** `new Date(cell)`: `undefined` gives an invalid date. */
  function DateOf(u: Upload, cell: Option<string>): TimeValue {
    if cell.None? then None else u.parseDate(cell.value)
  }

  /** The completion time of a row: none for an empty or absent cell, an
      error for an unreadable one, otherwise the repaired time. */
  function CompletionOf(u: Upload, row: Row, index: nat, enrolled: int): (r: Result<Option<int>, UploadError>)
    ensures r.Failure? <==> Truthy(Cell(row, "Completed At")) && DateOf(u, Cell(row, "Completed At")).None?
    ensures r.Failure? ==> r.error == InvalidCompletedAt(index + 2, Cell(row, "Completed At").value)
    ensures r.Success? ==> (r.value.None? <==> !Truthy(Cell(row, "Completed At")))
    ensures r.Success? && r.value.Some? ==>
              var parsed := DateOf(u, Cell(row, "Completed At")).value;
              r.value.value == RepairCompletion(parsed, enrolled)
  {
    var cell := Cell(row, "Completed At");
    if !Truthy(cell) then Success(None)
    else
      match DateOf(u, cell)
      case None => Failure(InvalidCompletedAt(index + 2, cell.value))
      case Some(c) => Success(Some(RepairCompletion(c, enrolled)))
  }

  /** A text cell a record copies verbatim; an absent one becomes `""`. */
  function Text(row: Row, key: string): string {
    if key in row then row[key] else ""
  }

  /** One data row, or the first check it fails: progress, then enrolment
      date, then completion date. */
  function ParseRow(u: Upload, row: Row, index: nat): (r: Result<Developer, UploadError>)
    ensures r.Failure? ==> r.error.InvalidProgress? || r.error.InvalidCreatedAt? || r.error.InvalidCompletedAt?
    ensures r.Failure? ==> r.error.line == index + 2
    ensures r.Failure? && !r.error.InvalidProgress? ==> ParseProgress(Cell(row, "Percentage Completed")).Some?
    ensures r.Failure? && r.error.InvalidCompletedAt? ==> DateOf(u, Cell(row, "Created At")).Some?
    ensures r.Success? <==>
              ParseProgress(Cell(row, "Percentage Completed")).Some? &&
              DateOf(u, Cell(row, "Created At")).Some? &&
              (Truthy(Cell(row, "Completed At")) ==> DateOf(u, Cell(row, "Completed At")).Some?)
    ensures r.Success? ==> Valid(r.value)
    ensures r.Success? ==> Some(r.value.enrollmentDate) == DateOf(u, Cell(row, "Created At"))
    ensures r.Success? ==> (r.value.completedAt.None? <==> !Truthy(Cell(row, "Completed At")))
    ensures r.Success? && r.value.completedAt.Some? ==>
              r.value.completedAt.value ==
                RepairCompletion(DateOf(u, Cell(row, "Completed At")).value, r.value.enrollmentDate)
    ensures r.Success? ==> Some(r.value.certificationProgress) == ParseInt(Cell(row, "Percentage Completed").value)
    ensures r.Success? ==> Names(r.value.firstName, r.value.lastName) == DeriveNames(row, u.hasFirstName, u.hasLastName)
    ensures r.Success? ==> r.value.country == Country(Cell(row, "Country"))
    ensures r.Success? ==> r.value.developerId == Text(row, "Email") && r.value.communityCode == Text(row, "Code")
    ensures r.Success? ==> r.value.subscribed == Flag(Cell(row, "Accepted Marketing"))
    ensures r.Success? ==> r.value.acceptedMembership == Flag(Cell(row, "Accepted Membership"))
  {
    var progress := ParseProgress(Cell(row, "Percentage Completed"));
    if progress.None? then Failure(InvalidProgress(index + 2, Cell(row, "Percentage Completed")))
    else
      var enrolled := DateOf(u, Cell(row, "Created At"));
      if enrolled.None? then Failure(InvalidCreatedAt(index + 2, Cell(row, "Created At")))
      else
        var completed := CompletionOf(u, row, index, enrolled.value);
        if completed.Failure? then Failure(completed.error)
        else
          var names := DeriveNames(row, u.hasFirstName, u.hasLastName);
          Success(Developer(
            Text(row, "Email"), names.first, names.last, Text(row, "Code"),
            Country(Cell(row, "Country")), progress.value, enrolled.value, completed.value,
            Flag(Cell(row, "Accepted Marketing")), Flag(Cell(row, "Accepted Membership")),
            progress.value == 100))
  }

  /** What every uploaded record satisfies: progress in 0..100, certified
      exactly at 100, and a trimmed, non-empty country. */
  predicate Valid(d: Developer) {
    0 <= d.certificationProgress <= 100 &&
    (d.certified <==> d.certificationProgress == 100) &&
    d.country != "" && Trim(d.country) == d.country
  }

  /** `xs[i..]` mapped through `f`, which is given each element's index:
      all results, or the error of the first element that fails (an
      `Array.prototype.map` whose callback throws stops there). */
  function TryMap<A, B, E(==)>(f: (A, nat) -> Result<B, E>, xs: seq<A>, i: nat): (r: Result<seq<B>, E>)
    requires i <= |xs|
    ensures r.Success? ==> |r.value| == |xs| - i
    ensures r.Success? ==> forall k :: i <= k < |xs| ==> f(xs[k], k).Success? && r.value[k - i] == f(xs[k], k).value
    ensures r.Failure? ==> exists k: nat :: FirstFailure(f, xs, i, k) && f(xs[k], k).error == r.error
    decreases |xs| - i
  {
    if i == |xs| then Success([])
    else
      var head := f(xs[i], i);
      if head.Failure? then
        assert FirstFailure(f, xs, i, i);
        Failure(head.error)
      else
        var tail := TryMap(f, xs, i + 1);
        if tail.Failure? then
          var k: nat :| FirstFailure(f, xs, i + 1, k) && f(xs[k], k).error == tail.error;
          assert FirstFailure(f, xs, i, k);
          Failure(tail.error)
        else Success([head.value] + tail.value)
  }

  /** Element `k` is the first from `i` on that fails. */
  predicate FirstFailure<A, B, E>(f: (A, nat) -> Result<B, E>, xs: seq<A>, i: nat, k: nat) {
    i <= k < |xs| && f(xs[k], k).Failure? &&
    forall j :: i <= j < k ==> f(xs[j], j).Success?
  }

  function ParseRowOf(u: Upload): (Row, nat) -> Result<Developer, UploadError> {
    (row: Row, index: nat) => ParseRow(u, row, index)
  }

  /** All data rows, or the error of the first row that fails. */
  function ParseRows(u: Upload, rows: seq<Row>): (r: Result<seq<Developer>, UploadError>)
    ensures r.Success? ==> |r.value| == |rows|
    ensures r.Success? ==> forall k :: 0 <= k < |rows| ==> ParseRow(u, rows[k], k) == Success(r.value[k])
    ensures r.Failure? ==>
              exists k: nat :: FirstFailure(ParseRowOf(u), rows, 0, k) && ParseRow(u, rows[k], k).error == r.error
  {
    TryMap(ParseRowOf(u), rows, 0)
  }

  /** The upload of file `fileName` with header list `headers` and data rows
      `rows`: rejected unless the name ends in `.csv` and every required
      column is present, then all rows or the first row error. */
  function HandleFile(u: Upload, fileName: string, headers: seq<string>, rows: seq<Row>): (r: Result<seq<Developer>, UploadError>)
    requires u.hasFirstName == ("First Name" in headers) && u.hasLastName == ("Last Name" in headers)
    ensures !EndsWith(fileName, ".csv") ==> r == Failure(NotCsv)
    ensures EndsWith(fileName, ".csv") && |Missing(headers)| > 0 ==> r == Failure(MissingHeaders(Missing(headers)))
    ensures EndsWith(fileName, ".csv") && |Missing(headers)| == 0 ==> r == ParseRows(u, rows)
  {
    if !EndsWith(fileName, ".csv") then Failure(NotCsv)
    else
      var missing := Missing(headers);
      if |missing| > 0 then Failure(MissingHeaders(missing))
      else ParseRows(u, rows)
  }

  /** Every record of a successful upload is valid. */
  lemma UploadedValid(u: Upload, rows: seq<Row>)
    requires ParseRows(u, rows).Success?
    ensures forall k :: 0 <= k < |ParseRows(u, rows).value| ==> Valid(ParseRows(u, rows).value[k])
  {
    var devs := ParseRows(u, rows).value;
    forall k | 0 <= k < |devs| ensures Valid(devs[k]) {
      var row := ParseRow(u, rows[k], k);
      assert row == Success(devs[k]);
    }
  }
}

=== FILE: filtercontrols.dfy ===
/** The value shown in the date inputs of components/FilterControls.tsx:
    the local calendar date of a bound as `year-MM-DD`, which the inputs'
    change handler in hooks/useFilters.ts reads back. */
module FilterControls {
  import opened Wrappers
  import opened Strings
  import opened Calendar
  import opened Model
  import opened Filters

  /** `String(n).padStart(2, '0')`. */
  function TwoDigits(n: nat): string {
    PadStart(NatToString(n), 2)
  }

  /** `year-MM-DD` for a calendar date, with the 1-based month. */
  function Shown(c: CivilDate): string
    requires c.month >= 0 && c.date >= 0
  {
    IntToString(c.year) + "-" + TwoDigits(c.month + 1) + "-" + TwoDigits(c.date)
  }

  /** `''` for no bound; otherwise the local year, the 1-based month and the
      date, month and date padded to two digits. An invalid date renders
      every part as `NaN`. */
  function FormatDateForInput(date: Option<TimeValue>, offset: int): (r: string)
    ensures date.None? ==> r == ""
    ensures date == Some(None) ==> r == "NaN-NaN-NaN"
    ensures date.Some? && date.value.Some? ==> r == Shown(LocalCivil(date.value.value, offset))
  {
    if date.None? then ""
    else if date.value.None? then "NaN-NaN-NaN"
    else Shown(LocalCivil(date.value.value, offset))
  }

  /** Four-digit years give the 10 characters of `YYYY-MM-DD`. */
  lemma FormatLength(t: int, offset: int)
    requires 1000 <= LocalCivil(t, offset).year <= 9999
    ensures |FormatDateForInput(Some(Some(t)), offset)| == 10
  {
    var c := LocalCivil(t, offset);
    assert FormatDateForInput(Some(Some(t)), offset) == Shown(c);
    ShownLength(c);
  }

  lemma ShownLength(c: CivilDate)
    requires 1000 <= c.year <= 9999 && 0 <= c.month < 12 && 1 <= c.date <= 31
    ensures |Shown(c)| == 10
  {
    FourDigits(c.year);
    AtMostTwoDigits(c.month + 1);
    AtMostTwoDigits(c.date);
    assert |Shown(c)| == |IntToString(c.year)| + 1 + |TwoDigits(c.month + 1)| + 1 + |TwoDigits(c.date)|;
  }

  lemma FourDigits(n: int)
    ensures 1000 <= n <= 9999 ==> |IntToString(n)| == 4
  {
    if 1000 <= n <= 9999 {
      assert |NatToString(n / 1000)| == 1;
      assert |NatToString(n / 100)| == 2;
      assert |NatToString(n / 10)| == 3;
    }
  }

  lemma AtMostTwoDigits(n: nat)
    ensures n <= 99 ==> |TwoDigits(n)| == 2
  {
    if 10 <= n <= 99 {
      assert |NatToString(n / 10)| == 1;
    }
  }

  /** A shown date of a non-negative year splits into its three parts. */
  lemma SplitShown(c: CivilDate)
    requires c.year >= 0 && c.month >= 0 && c.date >= 0
    ensures Split(Shown(c), {'-'}) == [NatToString(c.year), TwoDigits(c.month + 1), TwoDigits(c.date)]
  {
    var ys, ms, ds := NatToString(c.year), TwoDigits(c.month + 1), TwoDigits(c.date);
    assert Shown(c) == ys + ['-'] + ms + ['-'] + ds;
    SplitThree(ys, ms, ds, '-');
  }

  /** Reading a shown date gives `new Date` of its year, month and date. */
  lemma ParseShownDate(c: CivilDate, offset: int)
    requires c.year >= 0 && c.month >= 0 && c.date >= 0
    ensures ParseDateInput(Shown(c), offset) == LocalDate(Some(c.year), Some(c.month), Some(c.date), offset)
  {
    var a, b, d := NatToString(c.year), TwoDigits(c.month + 1), TwoDigits(c.date);
    SplitShown(c);
    ParseIntPadded(c.year, 0);
    assert ParseInt(a) == Some(c.year);
    ParseIntPadded(c.month + 1, 2);
    ParseIntPadded(c.date, 2);
    ParseThree(Shown(c), offset, a, b, d);
  }

  /** Reading a shown date of a year from 100 on gives local midnight of
      that date. */
  lemma ParseShown(c: CivilDate, offset: int)
    requires c.year >= 100 && c.month >= 0 && c.date >= 0
    ensures ParseDateInput(Shown(c), offset) == Midnight(MakeDay(c.year, c.month, c.date), offset)
  {
    ParseShownDate(c, offset);
    LocalDateOfYearIs(c, offset, ParseDateInput(Shown(c), offset));
  }

  lemma LocalDateOfYearIs(c: CivilDate, offset: int, v: TimeValue)
    requires c.year >= 100
    requires v == LocalDate(Some(c.year), Some(c.month), Some(c.date), offset)
    ensures v == Midnight(MakeDay(c.year, c.month, c.date), offset)
  {
    LocalDateOfYear(c.year, c.month, c.date, offset);
  }

  /** Reading the shown local date of `t` gives local midnight of `t`. */
  lemma ParseShownStart(t: int, offset: int)
    requires LocalCivil(t, offset).year >= 100
    ensures ParseDateInput(FormatDateForInput(Some(Some(t)), offset), offset) == StartOfLocalDay(Some(t), offset)
  {
    var c := LocalCivil(t, offset);
    ParseShown(c, offset);
    StartOfLocalDayCivil(t, offset);
  }

  /** Splitting the shown value on `'-'` as the change handler does gives
      back the year, the month and the date, for years from 100 on (earlier
      years would be read as 1900 plus the year): re-entering a shown start
      keeps it, and re-entering it as an end gives the end of that day. */
  lemma FormatRoundTrip(prev: DateRange, t: int, offset: int)
    requires LocalCivil(t, offset).year >= 100
    ensures HandleDateChange(prev, FormatDateForInput(Some(Some(t)), offset), From, offset).from
         == Some(StartOfLocalDay(Some(t), offset))
    ensures HandleDateChange(prev, FormatDateForInput(Some(Some(t)), offset), To, offset).to
         == Some(if StartOfLocalDay(Some(t), offset).Some? then EndOfLocalDay(Some(t), offset) else None)
  {
    ParseShownStart(t, offset);
    if StartOfLocalDay(Some(t), offset).Some? {
      DayBoundsOfStart(t, offset);
    }
  }
}

=== FILE: filters.dfy ===
/** The date-range filter state of hooks/useFilters.ts: the range seeded
    from the data, and the edits made through the two date inputs. Local
    time is UTC plus a fixed `offset` in milliseconds. */
module Filters {
  import opened Wrappers
  import opened Seqs
  import opened Strings
  import opened Calendar
  import opened Model
  import opened CommunityData

  /** The earliest enrolment time (`Math.min` over the data). */
  function MinEnrollment(data: seq<Developer>): (r: int)
    requires |data| > 0
    ensures forall d :: d in data ==> r <= d.enrollmentDate
    ensures exists d :: d in data && r == d.enrollmentDate
    decreases |data|
  {
    var last := data[|data| - 1];
    if |data| == 1 then last.enrollmentDate
    else
      var m := MinEnrollment(data[..|data| - 1]);
      assert forall d :: d in data ==> d in data[..|data| - 1] || d == last;
      if m < last.enrollmentDate then m else last.enrollmentDate
  }

  /** The latest enrolment time (`Math.max` over the data). */
  function MaxEnrollment(data: seq<Developer>): (r: int)
    requires |data| > 0
    ensures forall d :: d in data ==> d.enrollmentDate <= r
    ensures exists d :: d in data && r == d.enrollmentDate
    decreases |data|
  {
    var last := data[|data| - 1];
    if |data| == 1 then last.enrollmentDate
    else
      var m := MaxEnrollment(data[..|data| - 1]);
      assert forall d :: d in data ==> d in data[..|data| - 1] || d == last;
      if m > last.enrollmentDate then m else last.enrollmentDate
  }

  /** The range spanning the data: from local midnight of the day of the
      earliest enrolment to 23:59:59.999 of the local day of the latest; no
      bounds for no data. */
  function InitialDateRange(data: seq<Developer>, offset: int): (r: DateRange)
    ensures |data| == 0 ==> r == DateRange(None, None)
    ensures |data| > 0 ==> r.from.Some? && r.to.Some?
    ensures forall d :: d in data && r.from.Some? && r.from.value.Some? ==> r.from.value.value <= d.enrollmentDate
    ensures forall d :: d in data && r.to.Some? && r.to.value.Some? ==> d.enrollmentDate <= r.to.value.value
    ensures r.from.Some? && r.from.value.Some? ==> TimeWithinDay(r.from.value.value + offset) == 0
    ensures r.to.Some? && r.to.value.Some? ==> TimeWithinDay(r.to.value.value + offset) == MsPerDay - 1
  {
    if |data| == 0 then DateRange(None, None)
    else
      DateRange(Some(StartOfLocalDay(Some(MinEnrollment(data)), offset)),
                Some(EndOfLocalDay(Some(MaxEnrollment(data)), offset)))
  }

  /** The bounds of `r` fall on the local days of `lo` and `hi`, each less
      than a day from it: together with their times of day, this fixes
      them. */
  predicate OnLocalDays(r: DateRange, lo: int, hi: int, offset: int) {
    (r.from.Some? && r.from.value.Some? ==>
       Day(r.from.value.value + offset) == Day(lo + offset) && lo - r.from.value.value < MsPerDay)
    && (r.to.Some? && r.to.value.Some? ==>
          Day(r.to.value.value + offset) == Day(hi + offset) && r.to.value.value - hi < MsPerDay)
  }

  /** The seeded bounds fall on the local days of the earliest and of the
      latest enrolment. */
  lemma InitialRangeDays(data: seq<Developer>, offset: int)
    requires |data| > 0
    ensures OnLocalDays(InitialDateRange(data, offset), MinEnrollment(data), MaxEnrollment(data), offset)
  {
    InitialRangeBounds(data, offset);
    DayBoundsNear(InitialDateRange(data, offset), MinEnrollment(data), MaxEnrollment(data), offset);
  }

  /** With data, the seeded range runs from the start of the local day of the
      earliest enrolment to the end of the local day of the latest. */
  lemma InitialRangeBounds(data: seq<Developer>, offset: int)
    requires |data| > 0
    ensures InitialDateRange(data, offset).from == Some(StartOfLocalDay(Some(MinEnrollment(data)), offset))
    ensures InitialDateRange(data, offset).to == Some(EndOfLocalDay(Some(MaxEnrollment(data)), offset))
  {
  }

  /** A range from the start of the local day of `lo` to the end of the
      local day of `hi` lies on those days. */
  lemma DayBoundsNear(r: DateRange, lo: int, hi: int, offset: int)
    requires r.from == Some(StartOfLocalDay(Some(lo), offset))
    requires r.to == Some(EndOfLocalDay(Some(hi), offset))
    ensures OnLocalDays(r, lo, hi, offset)
  {
    StartOfDayClose(lo, offset);
    EndOfDayClose(hi, offset);
  }

  lemma StartOfDayClose(t: int, offset: int)
    ensures var s := StartOfLocalDay(Some(t), offset);
            s.Some? ==> Day(s.value + offset) == Day(t + offset) && t - s.value < MsPerDay
  {
    var s := StartOfLocalDay(Some(t), offset);
    if s.Some? {
      SameDayClose(s.value + offset, t + offset);
    }
  }

  lemma EndOfDayClose(t: int, offset: int)
    ensures var e := EndOfLocalDay(Some(t), offset);
            e.Some? ==> Day(e.value + offset) == Day(t + offset) && e.value - t < MsPerDay
  {
    var e := EndOfLocalDay(Some(t), offset);
    if e.Some? {
      SameDayClose(t + offset, e.value + offset);
    }
  }

  /** Two times of the same day are less than a day apart. */
  lemma SameDayClose(a: int, b: int)
    requires Day(a) == Day(b)
    ensures b - a < MsPerDay
  {
  }

  /** The seeded range filters nothing out. */
  lemma InitialRangeKeepsAll(data: seq<Developer>, offset: int)
    ensures FilterByDate(data, InitialDateRange(data, offset)) == data
  {
    var r := InitialDateRange(data, offset);
    assert forall i :: 0 <= i < |data| ==> data[i] in data;
    FilterAll(InRangeP(r), data);
  }

  /** Away from the ends of the time range both seeded bounds are valid
      dates, the first no later than the second. */
  lemma InitialRangeValid(data: seq<Developer>, offset: int)
    requires |data| > 0
    requires forall d :: d in data ==> -MaxTime + MsPerDay <= d.enrollmentDate <= MaxTime - MsPerDay
    ensures InitialDateRange(data, offset).from.value.Some?
    ensures InitialDateRange(data, offset).to.value.Some?
    ensures InitialDateRange(data, offset).from.value.value <= InitialDateRange(data, offset).to.value.value
  {
    LocalDayBoundsDefined(MinEnrollment(data), offset);
    LocalDayBoundsDefined(MaxEnrollment(data), offset);
  }

  // ---------------------------------------------------------------- date inputs

  datatype Field = From | To

  /** `new Date(parts[0], parts[1] - 1, parts[2])` for the `'-'`-separated
      pieces of a date input's value, each read by `parseInt`: a missing or
      unreadable piece makes the date invalid. */
  function ParseDateInput(value: string, offset: int): (r: TimeValue)
    ensures r.Some? ==> |Split(value, {'-'})| >= 3
    ensures r.Some? ==>
              var parts := Split(value, {'-'});
              ParseInt(parts[0]).Some? && ParseInt(parts[1]).Some? && ParseInt(parts[2]).Some?
              && r == LocalDate(ParseInt(parts[0]), Some(ParseInt(parts[1]).value - 1), ParseInt(parts[2]), offset)
  {
    var parts := Split(value, {'-'});
    var year := ParseInt(parts[0]);
    var month := if |parts| >= 2 && ParseInt(parts[1]).Some? then Some(ParseInt(parts[1]).value - 1) else None;
    var date := if |parts| >= 3 then ParseInt(parts[2]) else None;
    LocalDate(year, month, date, offset)
  }

  /** A value of three `'-'`-separated pieces is read piece by piece. */
  lemma ParseThree(value: string, offset: int, a: string, b: string, c: string)
    requires Split(value, {'-'}) == [a, b, c]
    requires ParseInt(b).Some?
    ensures ParseDateInput(value, offset) == LocalDate(ParseInt(a), Some(ParseInt(b).value - 1), ParseInt(c), offset)
  {
    var parts := Split(value, {'-'});
    assert |parts| == 3 && parts[0] == a && parts[1] == b && parts[2] == c;
  }

  /** An edit of one date input: an empty value clears that bound; any other
      value sets it to the start (for `From`) or end (for `To`) of the local
      day it names. The other bound is untouched. */
  function HandleDateChange(prev: DateRange, value: string, field: Field, offset: int): (r: DateRange)
    ensures field == From ==> r.to == prev.to
    ensures field == To ==> r.from == prev.from
    ensures value == "" ==> (if field == From then r.from else r.to).None?
    ensures value != "" && field == From ==> r.from == Some(StartOfLocalDay(ParseDateInput(value, offset), offset))
    ensures value != "" && field == To ==> r.to == Some(EndOfLocalDay(ParseDateInput(value, offset), offset))
  {
    if value == "" then
      if field == From then prev.(from := None) else prev.(to := None)
    else
      var date := ParseDateInput(value, offset);
      if field == From then prev.(from := Some(StartOfLocalDay(date, offset)))
      else prev.(to := Some(EndOfLocalDay(date, offset)))
  }

  /** The start of a day's start is that start; the end of a day's start is
      that day's end. */
  lemma DayBoundsOfStart(t: int, offset: int)
    requires StartOfLocalDay(Some(t), offset).Some?
    ensures StartOfLocalDay(StartOfLocalDay(Some(t), offset), offset) == StartOfLocalDay(Some(t), offset)
    ensures EndOfLocalDay(StartOfLocalDay(Some(t), offset), offset) == EndOfLocalDay(Some(t), offset)
  {
    var s := StartOfLocalDay(Some(t), offset).value;
    assert Day(s + offset) == Day(t + offset);
  }

  // ---------------------------------------------------------------- seeding

  /** The effect seeding the range: only when connected, with data, and
      with no start date set (any `Date` object counts as set, even an
      invalid one). */
  function SeedRange(connected: bool, data: seq<Developer>, current: DateRange, offset: int): (r: DateRange)
    ensures !connected || |data| == 0 || current.from.Some? ==> r == current
    ensures connected && |data| > 0 && current.from.None? ==> r == InitialDateRange(data, offset) && r.from.Some?
  {
    if connected && |data| > 0 && current.from.None? then InitialDateRange(data, offset) else current
  }

  /** The effect running again on the range it has just seeded leaves it
      alone. This is not "seeded at most once": see ClearFromReseeds. */
  lemma SeedOnce(connected: bool, data: seq<Developer>, data': seq<Developer>, current: DateRange, offset: int)
    ensures var r := SeedRange(connected, data, current, offset);
            r != current ==> SeedRange(connected, data', r, offset) == r
  {
  }

  /** Clearing the start input sets `from` to none, and the effect depends
      on `from`: with data loaded it seeds both bounds again, so an end date
      the user chose is replaced by the data's last day. */
  lemma ClearFromReseeds(data: seq<Developer>, r: DateRange, offset: int)
    requires |data| > 0
    ensures var cleared := HandleDateChange(r, "", From, offset);
            cleared.from.None? && cleared.to == r.to
            && SeedRange(true, data, cleared, offset) == InitialDateRange(data, offset)
  {
  }
}

=== FILE: jsobject.dfy ===
/** The order in which `Object.keys`, `Object.values` and `Object.entries`
    visit a plain object's properties (OrdinaryOwnPropertyKeys, section
    10.1.11.1 of ECMA-262): keys that are array indices first, in ascending
    numeric order, then the other string keys in the order they were created.
    The dashboard builds objects keyed by community code and by country and
    reads them back this way. */
module JsObject {
  import opened Seqs
  import opened Strings
  import opened Sorting

  /** A canonical array index: the shortest decimal rendering of an integer
      below 2^32 - 1. */
  predicate IsArrayIndex(k: string) {
    IsDigits(k) && (|k| == 1 || k[0] != '0') && DigitsValue(k) < 4294967295
  }

  function IndexValue(k: string): int {
    if IsArrayIndex(k) then DigitsValue(k) else 0
  }

  function IndexKey(): string -> bool {
    k => IsArrayIndex(k)
  }

  function NamedKey(): string -> bool {
    Not(IndexKey())
  }

  /** Sorting by non-increasing negated value sorts by ascending value. */
  function NegatedIndex(): string -> real {
    k => -(IndexValue(k) as real)
  }

  /** The visiting order of an object whose keys were created in the order
      `keys`. */
  function KeyOrder(keys: seq<string>): (r: seq<string>)
    ensures multiset(r) == multiset(keys)
    ensures forall i, j :: 0 <= i < j < |r| && IsArrayIndex(r[j]) ==> IsArrayIndex(r[i])
    ensures forall i, j :: 0 <= i < j < |r| && IsArrayIndex(r[i]) && IsArrayIndex(r[j]) ==>
              IndexValue(r[i]) <= IndexValue(r[j])
    ensures Filter(NamedKey(), r) == Filter(NamedKey(), keys)
  {
    var indices := Filter(IndexKey(), keys);
    var named := Filter(NamedKey(), keys);
    var sorted := SortDesc(indices, NegatedIndex());
    FilterComplement(IndexKey(), keys);
    AllIndices(sorted, indices);
    SortedIndices(sorted);
    NamedPart(sorted, named);
    sorted + named
  }

  lemma AllIndices(sorted: seq<string>, indices: seq<string>)
    requires forall k :: k in indices ==> IsArrayIndex(k)
    requires multiset(sorted) == multiset(indices)
    ensures forall i :: 0 <= i < |sorted| ==> IsArrayIndex(sorted[i])
  {
    forall i | 0 <= i < |sorted| ensures IsArrayIndex(sorted[i]) {
      assert sorted[i] in multiset(indices);
    }
  }

  lemma SortedIndices(sorted: seq<string>)
    requires SortedDesc(sorted, NegatedIndex())
    ensures forall i, j :: 0 <= i < j < |sorted| ==> IndexValue(sorted[i]) <= IndexValue(sorted[j])
  {
    forall i, j | 0 <= i < j < |sorted| ensures IndexValue(sorted[i]) <= IndexValue(sorted[j]) {
      assert NegatedIndex()(sorted[i]) >= NegatedIndex()(sorted[j]);
    }
  }

  lemma NamedPart(sorted: seq<string>, named: seq<string>)
    requires forall i :: 0 <= i < |sorted| ==> IsArrayIndex(sorted[i])
    requires forall k :: k in named ==> !IsArrayIndex(k)
    ensures Filter(NamedKey(), sorted + named) == named
    ensures forall i, j :: 0 <= i < j < |sorted + named| && IsArrayIndex((sorted + named)[j]) ==>
              IsArrayIndex((sorted + named)[i])
  {
    FilterAppend(NamedKey(), sorted, named);
    FilterNone(NamedKey(), sorted);
    FilterAll(NamedKey(), named);
  }
}

=== FILE: membershipdashboard.dfy ===
/** The membership view of components/MembershipDashboard.tsx: the
    developers who accepted membership, the membership rate, and the growth
    chart that counts members day by day. */
module MembershipDashboard {
  import opened Seqs
  import opened Calendar
  import opened Model
  import opened Timeline

  function Accepted(): Developer -> bool {
    (d: Developer) => d.acceptedMembership
  }

  /** `members`: the developers who accepted membership, in order. */
  function Members(devs: seq<Developer>): (r: seq<Developer>)
    ensures |r| <= |devs|
    ensures IsSubseq(r, devs)
    ensures forall d :: d in r <==> d in devs && d.acceptedMembership
    ensures forall d :: multiset(r)[d] == if d.acceptedMembership then multiset(devs)[d] else 0
    ensures |r| == |set i | 0 <= i < |devs| && devs[i].acceptedMembership|
  {
    CountPositions(Accepted(), devs);
    assert Positions(Accepted(), devs) == set i | 0 <= i < |devs| && devs[i].acceptedMembership;
    Filter(Accepted(), devs)
  }

  /** `membershipRate` before rounding: members per hundred developers, and
      0 without developers. */
  function MembershipRate(devs: seq<Developer>): (r: real)
    ensures |devs| == 0 ==> r == 0.0
    ensures 0.0 <= r <= 100.0
    ensures |devs| > 0 ==> r == (|Members(devs)| as real / |devs| as real) * 100.0
    ensures |devs| > 0 ==>
              r == (|set i | 0 <= i < |devs| && devs[i].acceptedMembership| as real / |devs| as real) * 100.0
  {
    Percent(|Members(devs)|, |devs|)
  }

  // ---------------------------------------------------------------- growth chart

  /** One chart point: a UTC day and the number of members enrolled by its
      end. */
  datatype MemberPoint = MemberPoint(day: int, members: nat)

  /** One step of the `reduce`: a member enrolled on the day of the last
      point bumps it; any other starts a new point one above the last. */
  function AddMember(acc: seq<MemberPoint>, d: Developer): seq<MemberPoint> {
    var day := EnrollmentDay(d);
    if |acc| > 0 && acc[|acc| - 1].day == day then
      acc[|acc| - 1 := MemberPoint(day, acc[|acc| - 1].members + 1)]
    else
      acc + [MemberPoint(day, (if |acc| > 0 then acc[|acc| - 1].members else 0) + 1)]
  }

  /** The `reduce` over `s`, in order. */
  function Reduce(s: seq<Developer>): seq<MemberPoint>
    decreases |s|
  {
    if |s| == 0 then [] else AddMember(Reduce(s[..|s| - 1]), s[|s| - 1])
  }

  /** `memberGrowthData`: the members sorted by enrolment time and reduced. */
  function MemberGrowth(devs: seq<Developer>): seq<MemberPoint> {
    Reduce(SortByEnrollment(Members(devs)))
  }

  function MemberDays(data: seq<MemberPoint>): set<int> {
    set p | p in data :: p.day
  }

  /** Strictly ascending days. */
  predicate DaysAscending(data: seq<MemberPoint>) {
    forall i, j :: 0 <= i < j < |data| ==> data[i].day < data[j].day
  }

  /** One point per enrolment day of `s`, in ascending order of day. */
  predicate Days(data: seq<MemberPoint>, s: seq<Developer>) {
    DaysAscending(data) && MemberDays(data) == EnrollmentDays(s)
  }

  /** Each point counts the developers of `s` enrolled by the end of its
      day. */
  predicate CountsMatch(data: seq<MemberPoint>, s: seq<Developer>) {
    forall i :: 0 <= i < |data| ==> data[i].members == Count(EnrolledBy(data[i].day), s)
  }

  /** Counts of at least one, strictly increasing. */
  predicate Rising(data: seq<MemberPoint>) {
    (forall i :: 0 <= i < |data| ==> data[i].members >= 1)
    && (forall i, j :: 0 <= i < j < |data| ==> data[i].members < data[j].members)
  }

  predicate Cumulative(data: seq<MemberPoint>, s: seq<Developer>) {
    CountsMatch(data, s) && Rising(data)
  }

  /** What the `reduce` maintains over the members `s` seen so far. */
  predicate ReduceInv(data: seq<MemberPoint>, s: seq<Developer>) {
    (|data| == 0 <==> |s| == 0)
    && Days(data, s) && Cumulative(data, s)
    && (|s| > 0 ==> data[|data| - 1] == MemberPoint(EnrollmentDay(s[|s| - 1]), |s|))
  }

  /** The step keeps the points of earlier days, `data[..m]`, and puts the
      new running total after them. */
  lemma StepForm(data: seq<MemberPoint>, s: seq<Developer>, d: Developer) returns (m: nat)
    requires DaysAscending(data) && (|data| == 0 <==> |s| == 0)
    requires |s| > 0 ==> data[|data| - 1] == MemberPoint(EnrollmentDay(s[|s| - 1]), |s|)
    requires forall x :: x in s ==> EnrollmentDay(x) <= EnrollmentDay(d)
    ensures m <= |data|
    ensures forall i :: 0 <= i < m ==> data[i].day < EnrollmentDay(d)
    ensures m < |data| ==> m == |data| - 1 && data[m].day == EnrollmentDay(d)
    ensures AddMember(data, d) == data[..m] + [MemberPoint(EnrollmentDay(d), |s| + 1)]
  {
    var n, day := |data|, EnrollmentDay(d);
    if n > 0 && data[n - 1].day == day {
      m := n - 1;
      assert forall i :: 0 <= i < m ==> data[i].day < data[m].day;
    } else {
      m := n;
      if n > 0 {
        assert s[|s| - 1] in s;
        assert forall i :: 0 <= i < n - 1 ==> data[i].day < data[n - 1].day;
      }
    }
  }

  lemma AddDay(s: seq<Developer>, d: Developer)
    ensures EnrollmentDays(s + [d]) == EnrollmentDays(s) + {EnrollmentDay(d)}
  {
    assert forall x :: x in s + [d] <==> x in s || x == d;
  }

  lemma AddPoint(data: seq<MemberPoint>, p: MemberPoint)
    ensures MemberDays(data + [p]) == MemberDays(data) + {p.day}
  {
    assert forall q :: q in data + [p] <==> q in data || q == p;
  }

  /** The new point list has the days of `s + [d]`, ascending. */
  lemma StepDays(data: seq<MemberPoint>, s: seq<Developer>, d: Developer, m: nat, point: MemberPoint)
    requires m <= |data| && Days(data, s) && point.day == EnrollmentDay(d)
    requires forall i :: 0 <= i < m ==> data[i].day < EnrollmentDay(d)
    requires m < |data| ==> m == |data| - 1 && data[m].day == EnrollmentDay(d)
    ensures Days(data[..m] + [point], s + [d])
  {
    AddDay(s, d);
    AddPoint(data[..m], point);
    if m < |data| {
      assert data == data[..m] + [data[m]];
      AddPoint(data[..m], data[m]);
    } else {
      assert data[..m] == data;
    }
  }

  /** The new point list counts correctly over `s + [d]`. */
  lemma StepCountsMatch(data: seq<MemberPoint>, s: seq<Developer>, d: Developer, m: nat)
    requires m <= |data| && CountsMatch(data, s)
    requires forall x :: x in s ==> EnrollmentDay(x) <= EnrollmentDay(d)
    requires forall i :: 0 <= i < m ==> data[i].day < EnrollmentDay(d)
    ensures CountsMatch(data[..m] + [MemberPoint(EnrollmentDay(d), |s| + 1)], s + [d])
  {
    var r := data[..m] + [MemberPoint(EnrollmentDay(d), |s| + 1)];
    forall i | 0 <= i < m ensures r[i].members == Count(EnrolledBy(r[i].day), s + [d]) {
      CountEnrolledByAppend(s, d, data[i].day);
    }
    assert forall x :: x in s + [d] ==> x in s || x == d;
    CountEnrolledByAll(s + [d], EnrollmentDay(d));
  }

  /** The new running total is above every kept count. */
  lemma StepRising(data: seq<MemberPoint>, s: seq<Developer>, m: nat, point: MemberPoint)
    requires m <= |data| && CountsMatch(data, s) && Rising(data)
    requires point.members == |s| + 1
    ensures Rising(data[..m] + [point])
  {
    forall i | 0 <= i < m ensures data[i].members < point.members {
      assert data[i].members == |Filter(EnrolledBy(data[i].day), s)|;
    }
  }

  lemma StepInv(data: seq<MemberPoint>, s: seq<Developer>, d: Developer)
    requires ReduceInv(data, s)
    requires forall x :: x in s ==> EnrollmentDay(x) <= EnrollmentDay(d)
    ensures ReduceInv(AddMember(data, d), s + [d])
  {
    var point := MemberPoint(EnrollmentDay(d), |s| + 1);
    var m := StepForm(data, s, d);
    StepDays(data, s, d, m, point);
    StepCountsMatch(data, s, d, m);
    StepRising(data, s, m, point);
    assert (s + [d])[|s + [d]| - 1] == d;
  }

  lemma {:induction false} ReduceInvHolds(s: seq<Developer>)
    requires EnrolledAscending(s)
    ensures ReduceInv(Reduce(s), s)
    decreases |s|
  {
    if |s| > 0 {
      var p, d := s[..|s| - 1], s[|s| - 1];
      assert s == p + [d];
      ReduceInvHolds(p);
      LastDayIsLatest(s);
      assert forall x :: x in p ==> x in s;
      StepInv(Reduce(p), p, d);
    }
  }

  /** Days and counts depend only on which developers there are. */
  lemma Reordered(data: seq<MemberPoint>, a: seq<Developer>, b: seq<Developer>)
    requires multiset(a) == multiset(b)
    requires Days(data, a) && Cumulative(data, a)
    ensures Days(data, b) && Cumulative(data, b)
  {
    assert forall d :: d in a <==> d in b by {
      assert forall d :: d in a <==> d in multiset(a);
      assert forall d :: d in b <==> d in multiset(b);
    }
    assert EnrollmentDays(a) == EnrollmentDays(b);
    forall i | 0 <= i < |data| ensures Count(EnrolledBy(data[i].day), a) == Count(EnrolledBy(data[i].day), b) {
      FilterPermutation(EnrolledBy(data[i].day), a, b);
      assert |Filter(EnrolledBy(data[i].day), a)| == |multiset(Filter(EnrolledBy(data[i].day), a))|;
    }
  }

  /** The growth chart has one point per enrolment day of a member, in
      ascending order of day; each counts the members enrolled by the end of
      its day, at least one and more than the point before; the last counts
      every member, and there are no points without members. */
  lemma MemberGrowthSpec(devs: seq<Developer>)
    ensures var r := MemberGrowth(devs);
            Days(r, Members(devs)) && Cumulative(r, Members(devs))
            && (|r| == 0 <==> |Members(devs)| == 0)
            && (|r| > 0 ==> r[|r| - 1].members == |Members(devs)|)
  {
    GrowthOf(Members(devs));
  }

  lemma GrowthOf(m: seq<Developer>)
    ensures var r := Reduce(SortByEnrollment(m));
            Days(r, m) && Cumulative(r, m)
            && (|r| == 0 <==> |m| == 0)
            && (|r| > 0 ==> r[|r| - 1].members == |m|)
  {
    var sorted := SortByEnrollment(m);
    ReduceInvHolds(sorted);
    Reordered(Reduce(sorted), sorted, m);
  }
}

=== FILE: metricsdashboard.dfy ===
/** The summary cards and charts of components/MetricsDashboard.tsx: the
    developers per community, the tally of developers per country, and the
    counters and rates over the developers in view. */
module MetricsDashboard {
  import opened Wrappers
  import opened Seqs
  import opened Sorting
  import opened JsObject
  import opened Model
  import opened CommunityData
  import opened CommunityReport

  // ---------------------------------------------------------------- bars

  /** One bar of "Developers by Community". */
  datatype Bar = Bar(name: string, developers: nat)

  function BarOf(): Community -> Bar {
    (c: Community) => Bar(c.code, c.developerCount)
  }

  function BarHeight(): Bar -> int {
    (b: Bar) => b.developers
  }

  /** `developersByCommunity`: one bar per community, in the order given. */
  function DevelopersByCommunity(data: seq<Community>): (r: seq<Bar>)
    ensures |r| == |data|
  {
    if |data| == 0 then [] else [BarOf()(data[0])] + DevelopersByCommunity(data[1..])
  }

  lemma {:induction false} BarsAt(data: seq<Community>)
    ensures forall i :: 0 <= i < |data| ==> DevelopersByCommunity(data)[i] == Bar(data[i].code, data[i].developerCount)
  {
    if |data| > 0 {
      BarsAt(data[1..]);
      forall i | 1 <= i < |data|
        ensures DevelopersByCommunity(data)[i] == Bar(data[i].code, data[i].developerCount)
      {
        assert DevelopersByCommunity(data)[i] == DevelopersByCommunity(data[1..])[i - 1];
      }
    }
  }

  lemma {:induction false} BarsSum(data: seq<Community>)
    ensures SumInt(BarHeight(), DevelopersByCommunity(data)) == SumInt(DeveloperCount(), data)
  {
    if |data| > 0 {
      BarsSum(data[1..]);
    }
  }

  /** Over the communities of the date range, the chart has one bar per
      community code, no code twice, every bar at least one high, and the
      bars together as high as the number of developers in the range. */
  lemma BarsOfProcessed(devs: seq<Developer>, range: DateRange, metaMap: map<string, MetaData>)
    ensures var bars := DevelopersByCommunity(ProcessedCommunityData(devs, range, metaMap));
            (forall i, j :: 0 <= i < j < |bars| ==> bars[i].name != bars[j].name)
            && (forall i :: 0 <= i < |bars| ==> bars[i].developers >= 1)
            && SumInt(BarHeight(), bars) == |FilterByDate(devs, range)|
  {
    var data := ProcessedCommunityData(devs, range, metaMap);
    CommunitiesWellFormed(devs, range, metaMap);
    assert forall c, c' :: c in data && c' in data && c.code == c'.code ==> c == c';
    BarsDistinct(data);
    BarsSum(data);
    SizesSum(devs, range, metaMap);
  }

  /** Communities occurring once and determined by their codes give bars
      with distinct names, each as high as its community is large. */
  lemma BarsDistinct(data: seq<Community>)
    requires forall c :: c in data ==> multiset(data)[c] == 1 && c.developerCount >= 1
    requires forall c, c' :: c in data && c' in data && c.code == c'.code ==> c == c'
    ensures var bars := DevelopersByCommunity(data);
            (forall i, j :: 0 <= i < j < |bars| ==> bars[i].name != bars[j].name)
            && (forall i :: 0 <= i < |bars| ==> bars[i].developers >= 1)
  {
    var bars := DevelopersByCommunity(data);
    BarsAt(data);
    forall i, j | 0 <= i < j < |bars| ensures bars[i].name != bars[j].name {
      assert data[i] in data && data[j] in data;
      if data[i].code == data[j].code {
        TwoOccurrences(data, i, j);
      }
    }
    forall i | 0 <= i < |bars| ensures bars[i].developers >= 1 {
      assert data[i] in data;
    }
  }

  // ---------------------------------------------------------------- countries

  /** `dev.country || 'Unknown'`: the country, or "Unknown" when it is
      blank. */
  function CountryLabel(d: Developer): (r: string)
    ensures r != ""
    ensures d.country != "" ==> r == d.country
    ensures d.country == "" ==> r == "Unknown"
  {
    if d.country == "" then "Unknown" else d.country
  }

  /** The label of each developer, in order. */
  function Labels(devs: seq<Developer>): (r: seq<string>)
    ensures |r| == |devs|
    ensures forall i :: 0 <= i < |r| ==> r[i] == CountryLabel(devs[i])
  {
    seq(|devs|, i requires 0 <= i < |devs| => CountryLabel(devs[i]))
  }

  /** The number of developers labelled `k`. */
  function Developers(devs: seq<Developer>, k: string): nat {
    multiset(Labels(devs))[k]
  }

  /** The `forEach` filling `geoDistribution`, one developer at a time: the
      label's entry is created at 1 or bumped by 1. */
  function Tally(devs: seq<Developer>): map<string, nat>
    decreases |devs|
  {
    if |devs| == 0 then map[]
    else
      var t := Tally(devs[..|devs| - 1]);
      var k := CountryLabel(devs[|devs| - 1]);
      t[k := (if k in t then t[k] else 0) + 1]
  }

  /** The tally has an entry for each label in use, holding the number of
      developers with that label. */
  lemma {:induction false} TallyCounts(devs: seq<Developer>)
    ensures forall k :: k in Tally(devs) <==> k in Labels(devs)
    ensures forall k :: k in Tally(devs) ==> Tally(devs)[k] == Developers(devs, k)
    decreases |devs|
  {
    if |devs| > 0 {
      var p := devs[..|devs| - 1];
      TallyCounts(p);
      assert Labels(devs) == Labels(p) + [CountryLabel(devs[|devs| - 1])];
    }
  }

  /** The order `Object.entries` visits the tally: the labels in the order
      their entries were created, array-index labels first. */
  function GeoKeys(devs: seq<Developer>): (r: seq<string>)
    ensures NoDups(r)
    ensures forall k :: k in r <==> k in Labels(devs)
  {
    var firsts := Dedupe(Labels(devs));
    var r := KeyOrder(firsts);
    MultisetNoDups(firsts, r);
    assert forall k :: k in r <==> k in multiset(firsts);
    r
  }

  /** One bar of "Geographic Distribution". */
  datatype GeoEntry = GeoEntry(name: string, developers: nat)

  function EntrySize(): GeoEntry -> real {
    (e: GeoEntry) => e.developers as real
  }

  function EntryCount(): GeoEntry -> int {
    (e: GeoEntry) => e.developers
  }

  /** `.map(([name, developers]) => ({ name, developers }))`. */
  function Entries(keys: seq<string>, t: map<string, nat>): (r: seq<GeoEntry>)
    requires forall k :: k in keys ==> k in t
    ensures |r| == |keys|
  {
    if |keys| == 0 then [] else [GeoEntry(keys[0], t[keys[0]])] + Entries(keys[1..], t)
  }

  lemma {:induction false} EntriesAt(keys: seq<string>, t: map<string, nat>)
    requires forall k :: k in keys ==> k in t
    ensures forall i :: 0 <= i < |keys| ==> Entries(keys, t)[i] == GeoEntry(keys[i], t[keys[i]])
  {
    if |keys| > 0 {
      EntriesAt(keys[1..], t);
      forall i | 1 <= i < |keys| ensures Entries(keys, t)[i] == GeoEntry(keys[i], t[keys[i]]) {
        assert Entries(keys, t)[i] == Entries(keys[1..], t)[i - 1];
      }
    }
  }

  lemma {:induction false} EntriesSum(keys: seq<string>, t: map<string, nat>, m: multiset<string>)
    requires forall k :: k in keys ==> k in t && t[k] == m[k]
    ensures SumInt(EntryCount(), Entries(keys, t)) == SumInt((k: string) => m[k], keys)
  {
    if |keys| > 0 {
      assert keys[0] in keys;
      EntriesSum(keys[1..], t, m);
    }
  }

  /** `geoData`: the tally's entries sorted by non-increasing count. */
  function GeoData(devs: seq<Developer>): seq<GeoEntry> {
    TallyCounts(devs);
    SortDesc(Entries(GeoKeys(devs), Tally(devs)), EntrySize())
  }

  /** The country chart has one entry per label in use, never blank and
      never twice; each counts the developers with its label, so at least
      one; the counts add up to the number of developers; and the entries
      run from the largest count down. */
  lemma GeoDataSpec(devs: seq<Developer>)
    ensures var r := GeoData(devs);
            SortedDesc(r, EntrySize())
            && (forall i, j :: 0 <= i < j < |r| ==> r[i].name != r[j].name)
            && (forall e :: e in r ==>
                  e.name in Labels(devs) && e.name != "" && e.developers == Developers(devs, e.name) && e.developers >= 1)
            && (forall d :: d in devs ==> exists e :: e in r && e.name == CountryLabel(d))
            && SumInt(EntryCount(), r) == |devs|
  {
    TallyIsTallyOf(devs);
    SortedEntries(Labels(devs), GeoKeys(devs), Tally(devs));
    LabelsOf(devs);
  }

  lemma TallyIsTallyOf(devs: seq<Developer>)
    ensures TallyOf(Tally(devs), Labels(devs))
  {
    TallyCounts(devs);
  }

  /** Labels are never blank, and every developer's label is among them. */
  lemma LabelsOf(devs: seq<Developer>)
    ensures forall k :: k in Labels(devs) ==> k != ""
    ensures forall d :: d in devs ==> CountryLabel(d) in Labels(devs)
  {
    var labels := Labels(devs);
    forall d | d in devs ensures CountryLabel(d) in labels {
      var i :| 0 <= i < |devs| && devs[i] == d;
      assert labels[i] == CountryLabel(d);
    }
  }

  /** What the tally holds: an entry per label, counting its occurrences. */
  predicate TallyOf(t: map<string, nat>, labels: seq<string>) {
    (forall k :: k in labels ==> k in t)
    && (forall k :: k in t ==> k in labels && t[k] == multiset(labels)[k])
  }

  /** The sorted entries of a tally visited in the order `keys`. */
  lemma SortedEntries(labels: seq<string>, keys: seq<string>, t: map<string, nat>)
    requires TallyOf(t, labels)
    requires NoDups(keys) && forall k :: k in keys <==> k in labels
    ensures var r := SortDesc(Entries(keys, t), EntrySize());
            (forall i, j :: 0 <= i < j < |r| ==> r[i].name != r[j].name)
            && (forall e :: e in r ==> e.name in labels && e.developers == multiset(labels)[e.name] && e.developers >= 1)
            && (forall k :: k in labels ==> exists e :: e in r && e.name == k)
            && SumInt(EntryCount(), r) == |labels|
  {
    var entries := Entries(keys, t);
    var r := SortDesc(entries, EntrySize());
    EntriesShape(keys, t);
    GeoNamesDistinct(entries, r, t);
    ReorderedEntries(labels, t, entries, r);
    EntriesCover(labels, keys, t, r);
    EntriesSum(keys, t, multiset(labels));
    MultiplicitiesSum(keys, multiset(labels));
    SumIntPermutation(EntryCount(), r, entries);
  }

  lemma ReorderedEntries(labels: seq<string>, t: map<string, nat>, entries: seq<GeoEntry>, r: seq<GeoEntry>)
    requires TallyOf(t, labels)
    requires forall e :: e in entries ==> e.name in t && e == GeoEntry(e.name, t[e.name])
    requires multiset(r) == multiset(entries)
    ensures forall e :: e in r ==> e.name in labels && e.developers == multiset(labels)[e.name] && e.developers >= 1
  {
    forall e | e in r ensures e.name in labels && e.developers == multiset(labels)[e.name] && e.developers >= 1 {
      assert e in multiset(entries);
    }
  }

  lemma EntriesCover(labels: seq<string>, keys: seq<string>, t: map<string, nat>, r: seq<GeoEntry>)
    requires forall k :: k in labels ==> k in keys
    requires forall k :: k in keys ==> k in t
    requires multiset(r) == multiset(Entries(keys, t))
    ensures forall k :: k in labels ==> exists e :: e in r && e.name == k
  {
    EntriesAt(keys, t);
    forall k | k in labels ensures exists e :: e in r && e.name == k {
      var j :| 0 <= j < |keys| && keys[j] == k;
      assert Entries(keys, t)[j] in multiset(r);
    }
  }

  /** Each entry is named by its key and holds the key's count. */
  lemma EntriesShape(keys: seq<string>, t: map<string, nat>)
    requires NoDups(keys) && forall k :: k in keys ==> k in t
    ensures var entries := Entries(keys, t);
            (forall i, j :: 0 <= i < j < |entries| ==> entries[i].name != entries[j].name)
            && (forall e :: e in entries ==> e.name in keys && e.name in t && e == GeoEntry(e.name, t[e.name]))
  {
    EntriesAt(keys, t);
  }

  /** Entries determined by their names keep distinct names through a
      reordering. */
  lemma GeoNamesDistinct(entries: seq<GeoEntry>, r: seq<GeoEntry>, t: map<string, nat>)
    requires forall i, j :: 0 <= i < j < |entries| ==> entries[i].name != entries[j].name
    requires forall e :: e in entries ==> e.name in t && e == GeoEntry(e.name, t[e.name])
    requires multiset(r) == multiset(entries)
    ensures forall i, j :: 0 <= i < j < |r| ==> r[i].name != r[j].name
  {
    assert NoDups(entries);
    MultisetNoDups(entries, r);
    forall i, j | 0 <= i < j < |r| ensures r[i].name != r[j].name {
      assert r[i] in multiset(entries) && r[j] in multiset(entries);
    }
  }

  // ---------------------------------------------------------------- summary cards

  /** Has a developer who started the course. */
  predicate IsActive(c: Community) {
    exists d :: d in c.developers && d.certificationProgress > 0
  }

  function Active(): Community -> bool {
    (c: Community) => IsActive(c)
  }

  /** The numbers on the summary cards. `startedShare` is the percentage
      shown beside "Users Started Course", absent (the empty text) without
      developers; the two rates are 0 without developers. Rounding to one
      decimal is left to the display. */
  datatype Summary = Summary(
    registered: nat,
    started: nat,
    certified: nat,
    subscribed: nat,
    activeCommunities: nat,
    startedShare: Option<real>,
    certificationRate: real,
    subscriberRate: real)

  function SummaryOf(data: seq<Community>, devs: seq<Developer>): (r: Summary)
    ensures r.registered == |devs|
    ensures r.started <= r.registered && r.certified <= r.registered && r.subscribed <= r.registered
    ensures r.activeCommunities <= |data|
    ensures r.startedShare.None? <==> |devs| == 0
    ensures r.startedShare.Some? ==> 0.0 <= r.startedShare.value <= 100.0
    ensures |devs| == 0 ==> r.certificationRate == 0.0 && r.subscriberRate == 0.0
    ensures 0.0 <= r.certificationRate <= 100.0 && 0.0 <= r.subscriberRate <= 100.0
    ensures r.startedShare.Some? ==> r.startedShare.value == (r.started as real / r.registered as real) * 100.0
    ensures |devs| > 0 ==> r.certificationRate == (r.certified as real / r.registered as real) * 100.0
    ensures |devs| > 0 ==> r.subscriberRate == (r.subscribed as real / r.registered as real) * 100.0
    ensures r.started == Count(Started(), devs) && r.certified == Count(Certified(), devs)
    ensures r.subscribed == Count(Subscribed(), devs) && r.activeCommunities == Count(Active(), data)
  {
    var n := |devs|;
    var started := Count(Started(), devs);
    var certified := Count(Certified(), devs);
    var subscribed := Count(Subscribed(), devs);
    Summary(
      n, started, certified, subscribed,
      Count(Active(), data),
      if n > 0 then Some(Percent(started, n)) else None,
      Percent(certified, n),
      Percent(subscribed, n))
  }

  /** The counters count what their cards say: a developer is counted as
      started, certified or subscribed exactly when the record says so. */
  lemma CountersSpec(data: seq<Community>, devs: seq<Developer>)
    ensures var r := SummaryOf(data, devs);
            (r.started == 0 <==> forall d :: d in devs ==> d.certificationProgress <= 0)
            && (r.certified == r.registered <==> forall d :: d in devs ==> d.certified)
            && (r.subscribed == r.registered <==> forall d :: d in devs ==> d.subscribed)
            && (r.activeCommunities == 0 <==> forall c :: c in data ==> !IsActive(c))
  {
    var r := SummaryOf(data, devs);
    if r.started != 0 {
      assert Filter(Started(), devs)[0] in Filter(Started(), devs);
    }
    if r.activeCommunities != 0 {
      assert Filter(Active(), data)[0] in Filter(Active(), data);
    }
    FilterAllIff(Certified(), devs);
    FilterAllIff(Subscribed(), devs);
  }

  /** Each counter is the number of positions holding a record of its kind:
      developers with progress above 0, certified developers, subscribed
      developers, and communities with a developer whose progress is above 0. */
  lemma CountersCount(data: seq<Community>, devs: seq<Developer>)
    ensures var r := SummaryOf(data, devs);
            r.started == |set i | 0 <= i < |devs| && devs[i].certificationProgress > 0|
            && r.certified == |set i | 0 <= i < |devs| && devs[i].certified|
            && r.subscribed == |set i | 0 <= i < |devs| && devs[i].subscribed|
            && r.activeCommunities ==
                 |set i | 0 <= i < |data| && (exists d :: d in data[i].developers && d.certificationProgress > 0)|
  {
    StartedPositions(devs);
    CertifiedPositions(devs);
    SubscribedPositions(devs);
    ActivePositions(data);
  }

  lemma StartedPositions(devs: seq<Developer>)
    ensures Count(Started(), devs) == |set i | 0 <= i < |devs| && devs[i].certificationProgress > 0|
  {
    CountPositions(Started(), devs);
    assert Positions(Started(), devs) == set i | 0 <= i < |devs| && devs[i].certificationProgress > 0;
  }

  lemma CertifiedPositions(devs: seq<Developer>)
    ensures Count(Certified(), devs) == |set i | 0 <= i < |devs| && devs[i].certified|
  {
    CountPositions(Certified(), devs);
    assert Positions(Certified(), devs) == set i | 0 <= i < |devs| && devs[i].certified;
  }

  lemma SubscribedPositions(devs: seq<Developer>)
    ensures Count(Subscribed(), devs) == |set i | 0 <= i < |devs| && devs[i].subscribed|
  {
    CountPositions(Subscribed(), devs);
    assert Positions(Subscribed(), devs) == set i | 0 <= i < |devs| && devs[i].subscribed;
  }

  lemma ActivePositions(data: seq<Community>)
    ensures Count(Active(), data) ==
            |set i | 0 <= i < |data| && (exists d :: d in data[i].developers && d.certificationProgress > 0)|
  {
    CountPositions(Active(), data);
    assert Positions(Active(), data) ==
           set i | 0 <= i < |data| && (exists d :: d in data[i].developers && d.certificationProgress > 0);
  }

  /** Filtering keeps everything exactly when everything passes. */
  lemma FilterAllIff<T(!new)>(p: T -> bool, s: seq<T>)
    ensures |Filter(p, s)| == |s| <==> forall x :: x in s ==> p(x)
  {
    if forall x :: x in s ==> p(x) {
      FilterAll(p, s);
    } else {
      var x :| x in s && !p(x);
      var i :| 0 <= i < |s| && s[i] == x;
      FilterComplement(p, s);
      assert x in Filter(Not(p), s);
      assert |Filter(p, s)| + |Filter(Not(p), s)| == |s| by {
        assert |multiset(Filter(p, s)) + multiset(Filter(Not(p), s))| == |multiset(s)|;
      }
    }
  }

  /** Over the communities of the date range, no more communities are active
      than developers started, and some community is active exactly when
      some developer in the range started. */
  lemma ActiveCommunitiesOfProcessed(devs: seq<Developer>, range: DateRange, metaMap: map<string, MetaData>)
    ensures var r := SummaryOf(ProcessedCommunityData(devs, range, metaMap), FilterByDate(devs, range));
            r.activeCommunities <= r.started
            && (r.activeCommunities == 0 <==> r.started == 0)
  {
    PartitionOfFiltered(devs, range, metaMap);
    ActiveVersusStarted(ProcessedCommunityData(devs, range, metaMap), FilterByDate(devs, range));
  }

  /** For communities that partition `devs`, the same relation between
      active communities and started developers. */
  lemma ActiveVersusStarted(data: seq<Community>, devs: seq<Developer>)
    requires multiset(FlatMap(DevelopersOf(), data)) == multiset(devs)
    ensures Count(Active(), data) <= Count(Started(), devs)
    ensures Count(Active(), data) == 0 <==> Count(Started(), devs) == 0
  {
    var flat := FlatMap(DevelopersOf(), data);
    FilterPermutation(Started(), flat, devs);
    assert |Filter(Started(), flat)| == |Filter(Started(), devs)| by {
      assert |multiset(Filter(Started(), flat))| == |multiset(Filter(Started(), devs))|;
    }
    StartedPerCommunity(data);
    ActiveAtMostStarted(data);
    if Count(Started(), devs) != 0 {
      var d := Filter(Started(), devs)[0];
      assert d in devs && d.certificationProgress > 0;
      assert d in multiset(flat);
      InFlatMap(DevelopersOf(), data, d);
      var c :| c in data && d in c.developers;
      assert c in Filter(Active(), data);
    }
  }

  /** The started developers of the flattened communities are those of each
      community, added up. */
  lemma {:induction false} StartedPerCommunity(data: seq<Community>)
    ensures |Filter(Started(), FlatMap(DevelopersOf(), data))|
         == SumInt((c: Community) => |Filter(Started(), c.developers)|, data)
  {
    if |data| > 0 {
      StartedPerCommunity(data[1..]);
      FilterAppend(Started(), data[0].developers, FlatMap(DevelopersOf(), data[1..]));
    }
  }

  /** Every active community holds at least one started developer. */
  lemma {:induction false} ActiveAtMostStarted(data: seq<Community>)
    ensures Count(Active(), data) <= SumInt((c: Community) => |Filter(Started(), c.developers)|, data)
  {
    if |data| > 0 {
      ActiveAtMostStarted(data[1..]);
      FilterCons(Active(), data[0], data[1..]);
      assert data == [data[0]] + data[1..];
      if IsActive(data[0]) {
        var d :| d in data[0].developers && d.certificationProgress > 0;
        assert d in Filter(Started(), data[0].developers);
      }
    }
  }
}

=== FILE: model.dfy ===
/** The records the dashboard passes between its parts: developer records
    from the uploaded CSV, aggregated communities, the date-range filter,
    events, user profiles and the community registry. */
module Model {
  import opened Wrappers
  import opened Calendar

  /** One enrolment in the certification programme. `developerId` is the
      e-mail address; times are milliseconds since the epoch. */
  datatype Developer = Developer(
    developerId: string,
    firstName: string,
    lastName: string,
    communityCode: string,
    country: string,
    certificationProgress: int,
    enrollmentDate: int,
    completedAt: Option<int>,
    subscribed: bool,
    acceptedMembership: bool,
    certified: bool)

  /** Per-community notes kept by administrators. */
  datatype MetaData = MetaData(isImportant: bool, followUpDate: Option<string>)

  /** The metadata of a community nobody has annotated. */
  const DefaultMeta := MetaData(false, None)

  /** The metrics of one community over the developers of the date range. */
  datatype Community = Community(
    code: string,
    developerCount: nat,
    subscribedCount: nat,
    certifiedCount: nat,
    averageProgress: real,
    averageCompletionDays: Option<real>,
    developers: seq<Developer>,
    meta: MetaData,
    hasRapidCompletions: bool)

  /** The date filter. An absent bound is `None` (`null`); a bound holding an
      invalid date is `Some(None)`. */
  datatype DateRange = DateRange(from: Option<TimeValue>, to: Option<TimeValue>)

  datatype EventKind = Upcoming | Past

  /** A programme event; `date` is the `YYYY-MM-DD` text of a date input and
      `communityCode` is a code or `"All"`. */
  datatype Event = Event(
    id: string,
    name: string,
    date: string,
    description: string,
    kind: EventKind,
    category: string,
    communityCode: string,
    link: string)

  /** The role stored in a user's profile; any other stored text is kept as
      `Unrecognised` (see `RoleOf`). */
  datatype Role = SuperAdmin | CommunityAdmin | Viewer | Unrecognised(name: string)

  /** The three role names the program writes. */
  const KnownRoleNames: seq<string> := ["super_admin", "community_admin", "viewer"]

  /** A role that some stored text decodes to: `Unrecognised` never holds
      one of the known names. */
  predicate StoredRole(r: Role) {
    r.Unrecognised? ==> r.name !in KnownRoleNames
  }

  /** The stored text of a role. */
  function RoleName(r: Role): (t: string)
    ensures StoredRole(r) ==> (t in KnownRoleNames <==> !r.Unrecognised?)
  {
    match r
    case SuperAdmin => "super_admin"
    case CommunityAdmin => "community_admin"
    case Viewer => "viewer"
    case Unrecognised(name) => name
  }

  /** The role a stored text stands for. */
  function RoleOf(t: string): (r: Role)
    ensures StoredRole(r)
    ensures r.Unrecognised? <==> t !in KnownRoleNames
    ensures RoleName(r) == t
  {
    if t == "super_admin" then SuperAdmin
    else if t == "community_admin" then CommunityAdmin
    else if t == "viewer" then Viewer
    else Unrecognised(t)
  }

  /** Decoding the text of a stored role gives that role back. */
  lemma RoleRoundTrip(r: Role)
    requires StoredRole(r)
    ensures RoleOf(RoleName(r)) == r
  {
  }

  datatype UserProfile = UserProfile(
    uid: string,
    email: string,
    displayName: string,
    photoURL: Option<string>,
    role: Role,
    allowedCommunities: seq<string>,
    createdAt: int,
    lastLogin: int)

  /** Where a registry entry came from: detected in uploaded data or created
      by hand. */
  datatype Source = Csv | Manual

  datatype ManagedCommunity = ManagedCommunity(
    code: string,
    name: string,
    description: Option<string>,
    source: Source,
    createdAt: int,
    createdBy: Option<string>)

  /** The community codes of `devs`, in order. */
  function CodesOf(devs: seq<Developer>): (r: seq<string>)
    ensures |r| == |devs|
    ensures forall i :: 0 <= i < |devs| ==> r[i] == devs[i].communityCode
  {
    seq(|devs|, i requires 0 <= i < |devs| => devs[i].communityCode)
  }

  /** The predicate "belongs to community `code`". */
  function CodeIs(code: string): Developer -> bool {
    (d: Developer) => d.communityCode == code
  }

  /** The predicate "belongs to one of `codes`". */
  function CodeIn(codes: seq<string>): Developer -> bool {
    (d: Developer) => d.communityCode in codes
  }
}

=== FILE: participantslist.dfy ===
/** The participants directory of components/ParticipantsList.tsx: the
    search over five fields, the avatar initial, the status badges and the
    colour of the progress bar. */
module ParticipantsList {
  import opened Seqs
  import opened Strings
  import opened Model

  /** Some field, lower-cased, contains `term` (the lower-cased search
      text). */
  predicate MatchesTerm(d: Developer, term: string) {
    Contains(Lower(d.firstName), term)
    || Contains(Lower(d.lastName), term)
    || Contains(Lower(d.developerId), term)
    || Contains(Lower(d.communityCode), term)
    || Contains(Lower(d.country), term)
  }

  function MatchesP(term: string): Developer -> bool {
    (d: Developer) => MatchesTerm(d, term)
  }

  /** `filteredData`: the developers matching the search text, in order. The
      footer's "Showing n of m" shows `|r|` and `|data|`. */
  function FilteredData(data: seq<Developer>, searchTerm: string): (r: seq<Developer>)
    ensures IsSubseq(r, data)
    ensures |r| <= |data|
    ensures forall d :: d in r <==> d in data && MatchesTerm(d, Lower(searchTerm))
    ensures forall d :: multiset(r)[d] == if MatchesTerm(d, Lower(searchTerm)) then multiset(data)[d] else 0
  {
    Filter(MatchesP(Lower(searchTerm)), data)
  }

  /** With an empty search box every participant is shown. */
  lemma EmptySearchShowsAll(data: seq<Developer>)
    ensures FilteredData(data, "") == data
  {
    forall i | 0 <= i < |data| ensures MatchesP("")(data[i]) {
      ContainsEmpty(Lower(data[i].firstName));
    }
    FilterAll(MatchesP(""), data);
  }

  /** The search does not depend on the case of the search text. */
  lemma SearchIgnoresCase(data: seq<Developer>, searchTerm: string)
    ensures FilteredData(data, Lower(searchTerm)) == FilteredData(data, searchTerm)
  {
    LowerIdempotent(searchTerm);
  }

  /** Typing more narrows the list: the participants shown for a longer
      search text are among, and in the order of, those shown for its
      prefix. */
  lemma LongerSearchNarrows(data: seq<Developer>, searchTerm: string, more: string)
    ensures IsSubseq(FilteredData(data, searchTerm + more), FilteredData(data, searchTerm))
  {
    var t, u := Lower(searchTerm), Lower(more);
    assert Lower(searchTerm + more) == t + u;
    forall d | MatchesTerm(d, t + u) ensures MatchesTerm(d, t) {
      ContainsPrefix(Lower(d.firstName), t, u);
      ContainsPrefix(Lower(d.lastName), t, u);
      ContainsPrefix(Lower(d.developerId), t, u);
      ContainsPrefix(Lower(d.communityCode), t, u);
      ContainsPrefix(Lower(d.country), t, u);
    }
    FilterStronger(MatchesP(t + u), MatchesP(t), data);
  }

  /** A string containing `t + u` contains `t`. */
  lemma {:induction false} ContainsPrefix(s: string, t: string, u: string)
    ensures Contains(s, t + u) ==> Contains(s, t)
    decreases |s|
  {
    if |s| > 0 {
      ContainsPrefix(s[1..], t, u);
      if StartsWith(s, t + u) {
        assert s[..|t|] == (t + u)[..|t|] == t;
      }
    } else if StartsWith(s, t + u) {
      assert |t| == 0;
      assert StartsWith(s, t);
    }
  }

  /** The avatar letter: the first character of the first name, or, without
      a first name, the upper-cased first character of the id (nothing when
      that is empty too). */
  function Initial(d: Developer): (r: string)
    ensures |r| <= 1
    ensures r == "" <==> d.firstName == "" && d.developerId == ""
    ensures d.firstName != "" ==> r == [d.firstName[0]]
    ensures d.firstName == "" && d.developerId != "" ==> r == [UpperChar(d.developerId[0])]
  {
    if d.firstName != "" then d.firstName[..1]
    else if d.developerId != "" then [UpperChar(d.developerId[0])]
    else ""
  }

  datatype Badge = CertifiedBadge | SubscribedBadge | EnrolledBadge

  /** The badges of the status column, left to right. */
  function Badges(d: Developer): (r: seq<Badge>)
    ensures CertifiedBadge in r <==> d.certified
    ensures SubscribedBadge in r <==> d.subscribed
    ensures EnrolledBadge in r <==> !d.certified && !d.subscribed
    ensures 1 <= |r| <= 2
    ensures EnrolledBadge in r ==> r == [EnrolledBadge]
  {
    (if d.certified then [CertifiedBadge] else [])
    + (if d.subscribed then [SubscribedBadge] else [])
    + (if !d.certified && !d.subscribed then [EnrolledBadge] else [])
  }

  datatype BarColour = Green | Blue | Grey

  /** The progress bar is green at 100, blue above 50, grey otherwise. */
  function ProgressColour(progress: int): (r: BarColour)
    ensures r == Green <==> progress == 100
    ensures r == Blue <==> 50 < progress && progress != 100
    ensures r == Grey <==> progress <= 50
  {
    if progress == 100 then Green else if progress > 50 then Blue else Grey
  }

  /** For a record certified exactly at 100, as every uploaded one is, the
      bar is green exactly when the certified badge shows. */
  lemma GreenIffCertified(d: Developer)
    requires d.certified <==> d.certificationProgress == 100
    ensures ProgressColour(d.certificationProgress) == Green <==> CertifiedBadge in Badges(d)
  {
  }
}

=== FILE: reportgenerator.dfy ===
/** The export of components/ReportGenerator.tsx: one flat row per developer
    of each community, carrying the community's notes, the enrolment day as
    `toISOString` writes it, and the guard that refuses to export nothing. */
module ReportGenerator {
  import opened Wrappers
  import opened Seqs
  import opened Strings
  import opened Calendar
  import opened Model
  import opened CommunityData
  import opened FilterControls

  // ---------------------------------------------------------------- ISO dates

  /** The year of `toISOString`: four digits for years 0 to 9999, otherwise a
      sign and six digits. */
  function IsoYear(y: int): string {
    if 0 <= y <= 9999 then PadStart(NatToString(y), 4)
    else if y < 0 then "-" + PadStart(NatToString(-y), 6)
    else "+" + PadStart(NatToString(y), 6)
  }

  /** `new Date(t).toISOString().split('T')[0]`: the UTC calendar date of
      `t`. */
  function IsoDay(t: int): string {
    IsoText(UtcCivil(t))
  }

  /** A calendar date written `YYYY-MM-DD` with a 1-based month. */
  function IsoText(c: CivilDate): string
    requires 0 <= c.month && 0 <= c.date
  {
    IsoYear(c.year) + "-" + TwoDigits(c.month + 1) + "-" + TwoDigits(c.date)
  }

  /** `text` splits at its dashes into three pieces that read as `y`, `m`
      and `d`. */
  predicate ReadsBack(text: string, y: int, m: int, d: int) {
    var parts := Split(text, {'-'});
    |parts| == 3 && ParseInt(parts[0]) == Some(y) && ParseInt(parts[1]) == Some(m) && ParseInt(parts[2]) == Some(d)
  }

  /** For years 0 to 9999 the text splits at its dashes into a year, a
      1-based month and a date that read back as the UTC calendar date of
      `t`, the date whose day number is the day of `t`. */
  lemma IsoDayReadsBack(t: int)
    requires 0 <= UtcCivil(t).year <= 9999
    ensures ReadsBack(IsoDay(t), UtcCivil(t).year, UtcCivil(t).month + 1, UtcCivil(t).date)
    ensures MakeDay(UtcCivil(t).year, UtcCivil(t).month, UtcCivil(t).date) == Day(t)
  {
    IsoTextReadsBack(UtcCivil(t));
  }

  /** A date of a four-digit year reads back from its text. */
  lemma IsoTextReadsBack(c: CivilDate)
    requires 0 <= c.year <= 9999 && 0 <= c.month && 0 <= c.date
    ensures ReadsBack(IsoText(c), c.year, c.month + 1, c.date)
  {
    IsoPartsReadBack(IsoText(c), c.year, c.month + 1, c.date);
  }

  lemma IsoPartsReadBack(text: string, y: nat, m: nat, d: nat)
    requires y <= 9999
    requires text == IsoYear(y) + "-" + TwoDigits(m) + "-" + TwoDigits(d)
    ensures ReadsBack(text, y, m, d)
  {
    assert IsoYear(y) == PadStart(NatToString(y), 4);
    PaddedPartsReadBack(y, m, d, 4, 2);
  }

  /** Numbers padded to any widths and joined by dashes split and read back
      as themselves. */
  lemma PaddedPartsReadBack(y: nat, m: nat, d: nat, wy: nat, wmd: nat)
    ensures ReadsBack(PadStart(NatToString(y), wy) + "-" + PadStart(NatToString(m), wmd) + "-" + PadStart(NatToString(d), wmd), y, m, d)
  {
    var ys, ms, ds := PadStart(NatToString(y), wy), PadStart(NatToString(m), wmd), PadStart(NatToString(d), wmd);
    PaddedDigits(y, wy);
    PaddedDigits(m, wmd);
    PaddedDigits(d, wmd);
    ParseIntPadded(y, wy);
    ParseIntPadded(m, wmd);
    ParseIntPadded(d, wmd);
    DashedReadBack(ys, ms, ds, y, m, d);
  }

  /** A number padded with zeros is all digits. */
  lemma PaddedDigits(n: nat, width: nat)
    ensures var s := PadStart(NatToString(n), width);
            forall i :: 0 <= i < |s| ==> IsDigit(s[i])
  {
    var s := NatToString(n);
    var r := PadStart(s, width);
    forall i | 0 <= i < |r| ensures IsDigit(r[i]) {
      if i >= |r| - |s| {
        assert r[i] == s[i - (|r| - |s|)];
      }
    }
  }

  /** Three digit strings that read as `y`, `m` and `d`, joined by dashes,
      split into parts that read as `y`, `m` and `d`. */
  lemma DashedReadBack(ys: string, ms: string, ds: string, y: nat, m: nat, d: nat)
    requires forall i :: 0 <= i < |ys| ==> IsDigit(ys[i])
    requires forall i :: 0 <= i < |ms| ==> IsDigit(ms[i])
    requires forall i :: 0 <= i < |ds| ==> IsDigit(ds[i])
    requires ParseInt(ys) == Some(y) && ParseInt(ms) == Some(m) && ParseInt(ds) == Some(d)
    ensures var parts := Split(ys + "-" + ms + "-" + ds, {'-'});
            |parts| == 3
            && ParseInt(parts[0]) == Some(y) && ParseInt(parts[1]) == Some(m) && ParseInt(parts[2]) == Some(d)
  {
    SplitDashed(ys, ms, ds);
  }

  /** Three digit strings joined by dashes split back into themselves. */
  lemma SplitDashed(ys: string, ms: string, ds: string)
    requires forall i :: 0 <= i < |ys| ==> IsDigit(ys[i])
    requires forall i :: 0 <= i < |ms| ==> IsDigit(ms[i])
    requires forall i :: 0 <= i < |ds| ==> IsDigit(ds[i])
    ensures Split(ys + "-" + ms + "-" + ds, {'-'}) == [ys, ms, ds]
  {
    NoDash(ys);
    NoDash(ms);
    NoDash(ds);
    assert ys + "-" + ms + "-" + ds == ys + ['-'] + ms + ['-'] + ds;
    SplitThree(ys, ms, ds, '-');
  }

  /** Zero-padded digits hold no dash. */
  lemma NoDash(s: string)
    requires forall i :: 0 <= i < |s| ==> IsDigit(s[i])
    ensures '-' !in s
  {
  }

  /** The date of four-digit years is the 10 characters of `YYYY-MM-DD`. */
  lemma IsoDayLength(t: int)
    requires 1000 <= UtcCivil(t).year <= 9999
    ensures |IsoDay(t)| == 10
  {
    var c := UtcCivil(t);
    FourDigits(c.year);
    AtMostTwoDigits(c.month + 1);
    AtMostTwoDigits(c.date);
    assert IntToString(c.year) == NatToString(c.year);
  }

  // ---------------------------------------------------------------- rows

  /** One row of the export. */
  datatype ExportRow = ExportRow(
    developerId: string,
    communityCode: string,
    country: string,
    certificationProgress: int,
    enrollmentDate: string,
    subscribed: bool,
    certified: bool,
    communityIsImportant: bool,
    communityFollowUpDate: string)

  /** `community.meta.followUpDate || 'N/A'`. */
  function FollowUpText(m: MetaData): (r: string)
    ensures r != ""
    ensures r == "N/A" <==> m.followUpDate.None? || m.followUpDate.value == "" || m.followUpDate.value == "N/A"
    ensures m.followUpDate.Some? && m.followUpDate.value != "" ==> r == m.followUpDate.value
  {
    if m.followUpDate.None? || m.followUpDate.value == "" then "N/A" else m.followUpDate.value
  }

  /** The row of developer `d` listed under community `c`. */
  function RowOf(c: Community, d: Developer): ExportRow {
    ExportRow(d.developerId, d.communityCode, d.country, d.certificationProgress,
              IsoDay(d.enrollmentDate), d.subscribed, d.certified,
              c.meta.isImportant, FollowUpText(c.meta))
  }

  /** The rows of one community, in developer order. */
  function CommunityRows(c: Community): (r: seq<ExportRow>)
    ensures |r| == |c.developers|
    ensures forall i :: 0 <= i < |r| ==> r[i] == RowOf(c, c.developers[i])
  {
    seq(|c.developers|, i requires 0 <= i < |c.developers| => RowOf(c, c.developers[i]))
  }

  function RowsOf(): Community -> seq<ExportRow> {
    (c: Community) => CommunityRows(c)
  }

  /** `flattenedData`: the rows of every community, community after
      community. */
  function FlattenedData(data: seq<Community>): seq<ExportRow> {
    FlatMap(RowsOf(), data)
  }

  /** There is one row per developer listed under the communities. */
  lemma RowCount(data: seq<Community>)
    ensures |FlattenedData(data)| == |FlatMap(DevelopersOf(), data)|
  {
    var len := (c: Community) => |c.developers|;
    FlatMapLength(RowsOf(), len, data);
    FlatMapLength(DevelopersOf(), len, data);
  }

  /** Rows keep community order: the rows of a list of communities are the
      rows of its first part followed by those of the rest, and one
      community's rows follow its developers. */
  lemma RowsInOrder(a: seq<Community>, b: seq<Community>, c: Community)
    ensures FlattenedData(a + b) == FlattenedData(a) + FlattenedData(b)
    ensures FlattenedData([c]) == CommunityRows(c)
  {
    FlatMapAppend(RowsOf(), a, b);
    assert FlatMap(RowsOf(), [c]) == RowsOf()([c][0]) + FlatMap(RowsOf(), [c][1..]);
    assert [c][1..] == [];
  }

  /** A row is exported exactly when it is the row of some developer listed
      under some community of the data. */
  lemma RowMembership(data: seq<Community>, row: ExportRow)
    ensures row in FlattenedData(data) <==> exists c, d :: c in data && d in c.developers && row == RowOf(c, d)
  {
    InFlatMap(RowsOf(), data, row);
    if row in FlattenedData(data) {
      var c :| c in data && row in CommunityRows(c);
      RowOfSomeDeveloper(c, row);
    }
    if exists c, d :: c in data && d in c.developers && row == RowOf(c, d) {
      var c, d :| c in data && d in c.developers && row == RowOf(c, d);
      DeveloperHasRow(c, d);
    }
  }

  lemma RowOfSomeDeveloper(c: Community, row: ExportRow)
    requires row in CommunityRows(c)
    ensures exists d :: d in c.developers && row == RowOf(c, d)
  {
    var i :| 0 <= i < |c.developers| && CommunityRows(c)[i] == row;
    assert c.developers[i] in c.developers;
  }

  lemma DeveloperHasRow(c: Community, d: Developer)
    requires d in c.developers
    ensures RowOf(c, d) in CommunityRows(c)
  {
    var i :| 0 <= i < |c.developers| && c.developers[i] == d;
    assert CommunityRows(c)[i] == RowOf(c, d);
  }

  /** Over the communities of the date range, the export has exactly one row
      per developer in the range. */
  lemma RowsOfProcessed(devs: seq<Developer>, range: DateRange, metaMap: map<string, MetaData>)
    ensures |FlattenedData(ProcessedCommunityData(devs, range, metaMap))| == |FilterByDate(devs, range)|
  {
    var data := ProcessedCommunityData(devs, range, metaMap);
    RowCount(data);
    PartitionOfFiltered(devs, range, metaMap);
    assert |FlatMap(DevelopersOf(), data)| == |multiset(FlatMap(DevelopersOf(), data))|;
  }

  // ---------------------------------------------------------------- export

  datatype Format = CsvFormat | PdfFormat

  datatype ExportOutcome = NoData | Exported(fileName: string, rows: seq<ExportRow>)

  /** The base name the dashboard exports under: it passes no `fileName`. */
  const DefaultBaseName := "developer_community_report"

  function Extension(format: Format): string {
    match format
    case CsvFormat => ".csv"
    case PdfFormat => ".pdf"
  }

  /** `handleExport`: refused ("No data available to export.") without
      communities; otherwise the rows go to a file named after the base name
      and the UTC day of the current time `now`. */
  function HandleExport(data: seq<Community>, format: Format, baseFileName: string, now: int): (r: ExportOutcome)
    ensures r.NoData? <==> |data| == 0
    ensures r.Exported? ==> r.rows == FlattenedData(data)
    ensures r.Exported? ==> r.fileName == baseFileName + "_" + IsoDay(now) + Extension(format)
  {
    if |data| == 0 then NoData
    else Exported(baseFileName + "_" + IsoDay(now) + Extension(format), FlattenedData(data))
  }

  /** The dashboard's export is named `developer_community_report_`, then
      the UTC day of the export as `YYYY-MM-DD` (which reads back as that
      day for four-digit years), then the format's extension. */
  lemma DashboardFileName(data: seq<Community>, format: Format, now: int)
    ensures var r := HandleExport(data, format, DefaultBaseName, now);
            r.Exported? ==> |r.fileName| >= 27 && r.fileName[..27] == "developer_community_report_"
    ensures var r := HandleExport(data, format, DefaultBaseName, now);
            var c := UtcCivil(now);
            r.Exported? && 1000 <= c.year <= 9999 ==>
              |r.fileName| == 41 && ReadsBack(r.fileName[27..37], c.year, c.month + 1, c.date)
              && r.fileName[37..] == Extension(format)
  {
    var r := HandleExport(data, format, DefaultBaseName, now);
    if r.Exported? {
      FileNameParts(r.fileName, IsoDay(now), Extension(format));
      if 1000 <= UtcCivil(now).year <= 9999 {
        IsoDayLength(now);
        IsoDayReadsBack(now);
      }
    }
  }

  /** The pieces of a default file name: the base with its `_`, the day and
      the extension. */
  lemma FileNameParts(name: string, day: string, ext: string)
    requires |ext| == 4
    requires name == DefaultBaseName + "_" + day + ext
    ensures |name| >= 27 && name[..27] == "developer_community_report_"
    ensures |day| == 10 ==> |name| == 41 && name[27..37] == day && name[37..] == ext
  {
    assert |DefaultBaseName + "_"| == 27;
  }

  /** Communities always have developers on the dashboard, so whenever the
      export goes ahead it has rows. */
  lemma ExportNeverEmpty(devs: seq<Developer>, range: DateRange, metaMap: map<string, MetaData>, format: Format, baseFileName: string, now: int)
    ensures var r := HandleExport(ProcessedCommunityData(devs, range, metaMap), format, baseFileName, now);
            r.Exported? ==> |r.rows| > 0
  {
    var data := ProcessedCommunityData(devs, range, metaMap);
    if |data| > 0 {
      FirstCommunityHasDevelopers(devs, range, metaMap);
      FirstRows(data);
    }
  }

  lemma FirstCommunityHasDevelopers(devs: seq<Developer>, range: DateRange, metaMap: map<string, MetaData>)
    requires |ProcessedCommunityData(devs, range, metaMap)| > 0
    ensures |ProcessedCommunityData(devs, range, metaMap)[0].developers| > 0
  {
    var data := ProcessedCommunityData(devs, range, metaMap);
    CommunitiesWellFormed(devs, range, metaMap);
    assert data[0] in data;
  }

  lemma FirstRows(data: seq<Community>)
    requires |data| > 0 && |data[0].developers| > 0
    ensures |FlattenedData(data)| > 0
  {
    assert FlattenedData(data) == CommunityRows(data[0]) + FlattenedData(data[1..]);
  }
}

=== FILE: seqs.dfy ===
/** Sequence operations shared by every component: the dashboard's many
    `Array.prototype.filter`, `reduce` and `new Set(...)` calls are all
    instances of the few functions defined here. */
module Seqs {

  /** `r` can be obtained from `s` by deleting elements, keeping the order. */
  predicate IsSubseq<T(==)>(r: seq<T>, s: seq<T>)
    decreases |s|
  {
    |r| == 0 || (|s| > 0 && ((r[0] == s[0] && IsSubseq(r[1..], s[1..])) || IsSubseq(r, s[1..])))
  }

  lemma {:induction false} SubseqLength<T>(r: seq<T>, s: seq<T>)
    requires IsSubseq(r, s)
    ensures |r| <= |s|
    ensures forall x :: x in r ==> x in s
    decreases |s|
  {
    if |r| > 0 {
      if r[0] == s[0] && IsSubseq(r[1..], s[1..]) {
        SubseqLength(r[1..], s[1..]);
        assert r == [r[0]] + r[1..];
      } else {
        SubseqLength(r, s[1..]);
      }
    }
  }

  /** The order-preserving subsequence of the elements of `s` that satisfy `p`
      (JavaScript's `Array.prototype.filter`). */
  function Filter<T(==,!new)>(p: T -> bool, s: seq<T>): (r: seq<T>)
    ensures |r| <= |s|
    ensures forall x :: x in r <==> x in s && p(x)
    ensures forall x :: multiset(r)[x] == if p(x) then multiset(s)[x] else 0
    ensures IsSubseq(r, s)
  {
    if |s| == 0 then []
    else
      assert s == [s[0]] + s[1..];
      if p(s[0]) then [s[0]] + Filter(p, s[1..])
      else Filter(p, s[1..])
  }

  /** Filtering a sequence with a head element. */
  lemma FilterCons<T(!new)>(p: T -> bool, a: T, s: seq<T>)
    ensures Filter(p, [a] + s) == (if p(a) then [a] else []) + Filter(p, s)
  {
    assert ([a] + s)[0] == a;
    assert ([a] + s)[1..] == s;
  }

  /** Filtering distributes over concatenation. */
  lemma {:induction false} FilterAppend<T(!new)>(p: T -> bool, a: seq<T>, b: seq<T>)
    ensures Filter(p, a + b) == Filter(p, a) + Filter(p, b)
  {
    if |a| > 0 {
      assert (a + b)[0] == a[0];
      assert (a + b)[1..] == a[1..] + b;
      FilterAppend(p, a[1..], b);
      if p(a[0]) {
        calc {
          Filter(p, a + b);
          [a[0]] + Filter(p, a[1..] + b);
          [a[0]] + (Filter(p, a[1..]) + Filter(p, b));
          ([a[0]] + Filter(p, a[1..])) + Filter(p, b);
        }
      }
    } else {
      assert a + b == b;
    }
  }

  /** Filtering two permutations of each other yields permutations of each other. */
  lemma FilterPermutation<T(!new)>(p: T -> bool, a: seq<T>, b: seq<T>)
    requires multiset(a) == multiset(b)
    ensures multiset(Filter(p, a)) == multiset(Filter(p, b))
  {
    assert forall x :: multiset(Filter(p, a))[x] == multiset(Filter(p, b))[x];
  }

  /** The negation of a predicate. */
  function Not<T>(p: T -> bool): T -> bool {
    x => !p(x)
  }

  /** An element satisfies `p` or not: the two filters partition `s`. */
  lemma FilterComplement<T(!new)>(p: T -> bool, s: seq<T>)
    ensures multiset(Filter(p, s)) + multiset(Filter(Not(p), s)) == multiset(s)
  {
    forall x ensures multiset(Filter(p, s))[x] + multiset(Filter(Not(p), s))[x] == multiset(s)[x] {
      assert Not(p)(x) == !p(x);
    }
  }

  /** Filtering with a predicate that no element satisfies leaves nothing. */
  lemma FilterNone<T(!new)>(p: T -> bool, s: seq<T>)
    requires forall i :: 0 <= i < |s| ==> !p(s[i])
    ensures Filter(p, s) == []
  {
  }

  /** Predicates that agree on the elements of `s` filter it alike. */
  lemma {:induction false} FilterCongruent<T(!new)>(p: T -> bool, q: T -> bool, s: seq<T>)
    requires forall i :: 0 <= i < |s| ==> p(s[i]) == q(s[i])
    ensures Filter(p, s) == Filter(q, s)
  {
    if |s| > 0 {
      FilterCongruent(p, q, s[1..]);
    }
  }

  /** Filtering twice keeps what satisfies both predicates. */
  lemma {:induction false} FilterFilter<T(!new)>(p: T -> bool, q: T -> bool, s: seq<T>)
    ensures Filter(q, Filter(p, s)) == Filter(Both(p, q), s)
  {
    if |s| > 0 {
      FilterFilter(p, q, s[1..]);
      var x, rest := s[0], Filter(p, s[1..]);
      assert Both(p, q)(x) == (p(x) && q(x));
      if p(x) {
        assert Filter(p, s) == [x] + rest;
        assert ([x] + rest)[0] == x && ([x] + rest)[1..] == rest;
        if q(x) {
          assert Filter(q, [x] + rest) == [x] + Filter(q, rest);
        } else {
          assert Filter(q, [x] + rest) == Filter(q, rest);
        }
      } else {
        assert Filter(p, s) == rest;
      }
    }
  }

  /** The conjunction of two predicates. */
  function Both<T>(p: T -> bool, q: T -> bool): T -> bool {
    x => p(x) && q(x)
  }

  /** The number of elements of `s` that satisfy `p`. */
  function Count<T(==,!new)>(p: T -> bool, s: seq<T>): nat {
    |Filter(p, s)|
  }

  /** The positions of `s` whose element satisfies `p`. */
  function Positions<T>(p: T -> bool, s: seq<T>): set<int> {
    set i | 0 <= i < |s| && p(s[i])
  }

  /** The count is the number of positions whose element satisfies `p`. */
  lemma {:induction false} CountPositions<T(!new)>(p: T -> bool, s: seq<T>)
    ensures Count(p, s) == |Positions(p, s)|
  {
    if |s| > 0 {
      var n := |s| - 1;
      assert s == s[..n] + [s[n]];
      CountPositions(p, s[..n]);
      CountSnoc(p, s[..n], s[n]);
      PositionsSnoc(p, s[..n], s[n]);
    }
  }

  lemma CountSnoc<T(!new)>(p: T -> bool, s: seq<T>, x: T)
    ensures Count(p, s + [x]) == Count(p, s) + if p(x) then 1 else 0
  {
    FilterAppend(p, s, [x]);
    FilterCons(p, x, []);
    assert [x] + [] == [x];
  }

  lemma PositionsSnoc<T>(p: T -> bool, s: seq<T>, x: T)
    ensures |Positions(p, s + [x])| == |Positions(p, s)| + if p(x) then 1 else 0
  {
    var n := |s|;
    assert |s| !in Positions(p, s);
    assert Positions(p, s + [x]) == Positions(p, s) + (if p(x) then {n} else {});
  }

  /** No element occurs twice. */
  predicate NoDups<T(==)>(s: seq<T>) {
    forall i, j :: 0 <= i < j < |s| ==> s[i] != s[j]
  }

  lemma NoDupsTail<T>(s: seq<T>)
    requires NoDups(s) && |s| > 0
    ensures NoDups(s[1..]) && s[0] !in s[1..]
  {
    forall i, j | 0 <= i < j < |s| - 1 ensures s[1..][i] != s[1..][j] {
      assert s[1..][i] == s[i + 1] && s[1..][j] == s[j + 1];
    }
  }

  /** In a duplicate-free sequence each element occurs once. */
  lemma {:induction false} NoDupsCount<T>(s: seq<T>, x: T)
    requires NoDups(s)
    ensures multiset(s)[x] == if x in s then 1 else 0
  {
    if |s| > 0 {
      NoDupsTail(s);
      NoDupsCount(s[1..], x);
      assert s == [s[0]] + s[1..];
    }
  }

  /** A duplicate-free sequence has as many distinct elements as positions. */
  lemma {:induction false} CardNoDups<T>(s: seq<T>)
    requires NoDups(s)
    ensures |set x | x in s| == |s|
  {
    if |s| > 0 {
      NoDupsTail(s);
      CardNoDups(s[1..]);
      assert (set x | x in s) == {s[0]} + (set x | x in s[1..]);
    }
  }

  /** A value at two positions occurs at least twice. */
  lemma TwoOccurrences<T>(s: seq<T>, i: nat, j: nat)
    requires i < j < |s| && s[i] == s[j]
    ensures multiset(s)[s[i]] >= 2
  {
    assert s == s[..j] + s[j..];
    assert s[i] == s[..j][i];
    assert s[j] == s[j..][0];
    assert multiset(s[..j])[s[i]] >= 1 && multiset(s[j..])[s[i]] >= 1;
  }

  /** A reordering of a duplicate-free sequence is duplicate-free. */
  lemma MultisetNoDups<T>(a: seq<T>, b: seq<T>)
    requires NoDups(a) && multiset(a) == multiset(b)
    ensures NoDups(b)
  {
    forall i, j | 0 <= i < j < |b| ensures b[i] != b[j] {
      if b[i] == b[j] {
        TwoOccurrences(b, i, j);
        NoDupsCount(a, b[i]);
      }
    }
  }

  /** The position of the first occurrence of `x` in `s`. */
  function FirstIndex<T(==)>(s: seq<T>, x: T): (i: nat)
    requires x in s
    ensures i < |s| && s[i] == x
    ensures forall j :: 0 <= j < i ==> s[j] != x
  {
    if s[0] == x then 0 else 1 + FirstIndex(s[1..], x)
  }

  /** The elements of `s` not in `seen`, each once, at its first occurrence. */
  function DedupeExcept<T(==,!new)>(s: seq<T>, seen: set<T>): (r: seq<T>)
    ensures NoDups(r)
    ensures forall x :: x in r <==> x in s && x !in seen
    ensures IsSubseq(r, s)
    ensures forall i, j :: 0 <= i < j < |r| ==> FirstIndex(s, r[i]) < FirstIndex(s, r[j])
  {
    if |s| == 0 then []
    else if s[0] in seen then DedupeExcept(s[1..], seen)
    else [s[0]] + DedupeExcept(s[1..], seen + {s[0]})
  }

  /** `Array.from(new Set(s))`: the distinct elements of `s` in order of first appearance. */
  function Dedupe<T(==,!new)>(s: seq<T>): (r: seq<T>)
    ensures NoDups(r)
    ensures forall x :: x in r <==> x in s
    ensures IsSubseq(r, s)
    ensures forall i, j :: 0 <= i < j < |r| ==> FirstIndex(s, r[i]) < FirstIndex(s, r[j])
  {
    DedupeExcept(s, {})
  }

  /** A sequence without duplicates is its own de-duplication. */
  lemma DedupeNoDups<T(!new)>(s: seq<T>)
    requires NoDups(s)
    ensures Dedupe(s) == s
  {
    DedupeExceptFresh(s, {});
  }

  lemma {:induction false} DedupeExceptFresh<T(!new)>(s: seq<T>, seen: set<T>)
    requires NoDups(s)
    requires forall i :: 0 <= i < |s| ==> s[i] !in seen
    ensures DedupeExcept(s, seen) == s
  {
    if |s| > 0 {
      NoDupsTail(s);
      assert forall i :: 0 <= i < |s[1..]| ==> s[1..][i] == s[i + 1] && s[i + 1] != s[0];
      DedupeExceptFresh(s[1..], seen + {s[0]});
      assert [s[0]] + s[1..] == s;
    }
  }

  /** The predicate "differs from `x`", as a value that can be passed to `Filter`. */
  function Differs<T(==)>(x: T): T -> bool {
    y => y != x
  }

  /** `s.filter(y => y !== x)`: every occurrence of `x` removed, the rest kept in order. */
  function RemoveAll<T(==,!new)>(s: seq<T>, x: T): (r: seq<T>)
    ensures x !in r
    ensures forall y :: y != x ==> (y in r <==> y in s)
    ensures IsSubseq(r, s)
    ensures x !in s ==> r == s
  {
    var r := Filter(Differs(x), s);
    if x !in s then FilterAll(Differs(x), s); r else r
  }

  /** Filtering with a predicate that every element satisfies changes nothing. */
  lemma {:induction false} FilterAll<T(!new)>(p: T -> bool, s: seq<T>)
    requires forall i :: 0 <= i < |s| ==> p(s[i])
    ensures Filter(p, s) == s
  {
    if |s| > 0 {
      FilterAll(p, s[1..]);
    }
  }

  /** Removing elements keeps a duplicate-free sequence duplicate-free. */
  lemma {:induction false} SubseqNoDups<T>(r: seq<T>, s: seq<T>)
    requires IsSubseq(r, s) && NoDups(s)
    ensures NoDups(r)
    decreases |s|
  {
    if |r| > 0 {
      if r[0] == s[0] && IsSubseq(r[1..], s[1..]) {
        SubseqNoDups(r[1..], s[1..]);
        SubseqLength(r[1..], s[1..]);
        assert r[0] !in s[1..];
        forall i, j | 0 <= i < j < |r| ensures r[i] != r[j] {
          if i > 0 {
            assert r[i] == r[1..][i - 1] && r[j] == r[1..][j - 1];
          } else {
            assert r[j] in r[1..];
          }
        }
      } else {
        SubseqNoDups(r, s[1..]);
      }
    }
  }

  /** The sum of `f` over `s` (a `reduce` with `+` starting from 0). */
  function SumInt<T>(f: T -> int, s: seq<T>): int {
    if |s| == 0 then 0 else f(s[0]) + SumInt(f, s[1..])
  }

  /** The real-valued sum of `f` over `s`. */
  function SumReal<T>(f: T -> real, s: seq<T>): real {
    if |s| == 0 then 0.0 else f(s[0]) + SumReal(f, s[1..])
  }

  lemma {:induction false} SumIntAppend<T>(f: T -> int, a: seq<T>, b: seq<T>)
    ensures SumInt(f, a + b) == SumInt(f, a) + SumInt(f, b)
  {
    if |a| > 0 {
      assert (a + b)[0] == a[0];
      assert (a + b)[1..] == a[1..] + b;
      SumIntAppend(f, a[1..], b);
      assert SumInt(f, a + b) == f(a[0]) + SumInt(f, a[1..] + b);
    } else {
      assert a + b == b;
    }
  }

  /** Taking one term out of a sum. */
  lemma SumIntRemove<T>(f: T -> int, b: seq<T>, i: nat)
    requires i < |b|
    ensures SumInt(f, b) == f(b[i]) + SumInt(f, b[..i] + b[i + 1..])
  {
    assert b == b[..i] + ([b[i]] + b[i + 1..]);
    SumIntAppend(f, b[..i], [b[i]] + b[i + 1..]);
    SumIntAppend(f, b[..i], b[i + 1..]);
    assert ([b[i]] + b[i + 1..])[1..] == b[i + 1..];
  }

  /** A sum does not depend on the order of its terms. */
  lemma {:induction false} SumIntPermutation<T>(f: T -> int, a: seq<T>, b: seq<T>)
    requires multiset(a) == multiset(b)
    ensures SumInt(f, a) == SumInt(f, b)
    decreases |a|
  {
    if |a| == 0 {
      assert |b| == |multiset(b)| == 0;
    } else {
      assert a[0] in multiset(b);
      var i :| 0 <= i < |b| && b[i] == a[0];
      var b' := b[..i] + b[i + 1..];
      MultisetRemove(b, i);
      assert a == [a[0]] + a[1..];
      assert multiset(a[1..]) == multiset(b');
      SumIntPermutation(f, a[1..], b');
      SumIntRemove(f, b, i);
    }
  }

  lemma MultisetRemove<T>(b: seq<T>, i: nat)
    requires i < |b|
    ensures multiset(b[..i] + b[i + 1..]) == multiset(b) - multiset{b[i]}
  {
    assert b == b[..i] + [b[i]] + b[i + 1..];
  }

  /** `s.flatMap(f)`: the concatenation of `f` applied to each element. */
  function FlatMap<T, U>(f: T -> seq<U>, s: seq<T>): seq<U> {
    if |s| == 0 then [] else f(s[0]) + FlatMap(f, s[1..])
  }

  lemma {:induction false} FlatMapAppend<T, U>(f: T -> seq<U>, a: seq<T>, b: seq<T>)
    ensures FlatMap(f, a + b) == FlatMap(f, a) + FlatMap(f, b)
  {
    if |a| > 0 {
      assert (a + b)[0] == a[0];
      assert (a + b)[1..] == a[1..] + b;
      FlatMapAppend(f, a[1..], b);
      assert FlatMap(f, a + b) == f(a[0]) + FlatMap(f, a[1..] + b);
    } else {
      assert a + b == b;
    }
  }

  /** The length of a flat map is the sum of the lengths of its parts. */
  lemma {:induction false} FlatMapLength<T, U>(f: T -> seq<U>, len: T -> int, s: seq<T>)
    requires forall x :: len(x) == |f(x)|
    ensures |FlatMap(f, s)| == SumInt(len, s)
  {
    if |s| > 0 {
      FlatMapLength(f, len, s[1..]);
    }
  }

  /** Reordering the parts reorders the elements of a flat map. */
  lemma {:induction false} FlatMapPermutation<T, U>(f: T -> seq<U>, a: seq<T>, b: seq<T>)
    requires multiset(a) == multiset(b)
    ensures multiset(FlatMap(f, a)) == multiset(FlatMap(f, b))
    decreases |a|
  {
    if |a| == 0 {
      assert |b| == |multiset(b)| == 0;
    } else {
      assert a[0] in multiset(b);
      var i :| 0 <= i < |b| && b[i] == a[0];
      var b' := b[..i] + b[i + 1..];
      MultisetRemove(b, i);
      assert a == [a[0]] + a[1..];
      assert multiset(a[1..]) == multiset(b');
      FlatMapPermutation(f, a[1..], b');
      FlatMapRemove(f, b, i);
    }
  }

  /** The flat map of `b` holds the part of `b[i]` and the flat map of the
      rest of `b`. */
  lemma FlatMapRemove<T, U>(f: T -> seq<U>, b: seq<T>, i: nat)
    requires i < |b|
    ensures multiset(FlatMap(f, b)) == multiset(f(b[i])) + multiset(FlatMap(f, b[..i] + b[i + 1..]))
  {
    assert b == b[..i] + ([b[i]] + b[i + 1..]);
    FlatMapAppend(f, b[..i], [b[i]] + b[i + 1..]);
    FlatMapAppend(f, b[..i], b[i + 1..]);
    assert ([b[i]] + b[i + 1..])[1..] == b[i + 1..];
  }

  /** Filtering by a union of two disjoint predicates collects the elements
      of filtering by each. */
  lemma FilterSplit<T(!new)>(p: T -> bool, q: T -> bool, r: T -> bool, s: seq<T>)
    requires forall x :: r(x) <==> p(x) || q(x)
    requires forall x :: !(p(x) && q(x))
    ensures multiset(Filter(r, s)) == multiset(Filter(p, s)) + multiset(Filter(q, s))
  {
    forall x ensures multiset(Filter(r, s))[x] == multiset(Filter(p, s))[x] + multiset(Filter(q, s))[x] {
      assert !(p(x) && q(x));
    }
  }

  /** A predicate implied by another keeps at least as many elements. */
  lemma {:induction false} FilterMonotone<T(!new)>(p: T -> bool, q: T -> bool, s: seq<T>)
    requires forall x :: p(x) ==> q(x)
    ensures |Filter(p, s)| <= |Filter(q, s)|
  {
    if |s| > 0 {
      FilterMonotone(p, q, s[1..]);
    }
  }

  /** Summing a pointwise smaller quantity gives a smaller sum. */
  lemma {:induction false} SumIntMonotone<T>(f: T -> int, g: T -> int, s: seq<T>)
    requires forall i :: 0 <= i < |s| ==> f(s[i]) <= g(s[i])
    ensures SumInt(f, s) <= SumInt(g, s)
  {
    if |s| > 0 {
      SumIntMonotone(f, g, s[1..]);
    }
  }

  /** Terms in `lo..hi` sum to between `lo` and `hi` times their number. */
  lemma {:induction false} SumRealBounds<T>(f: T -> real, s: seq<T>, lo: real, hi: real)
    requires forall i :: 0 <= i < |s| ==> lo <= f(s[i]) <= hi
    ensures lo * |s| as real <= SumReal(f, s) <= hi * |s| as real
  {
    if |s| > 0 {
      SumRealBounds(f, s[1..], lo, hi);
    }
  }

  /** A non-negative amount over a positive count is non-negative. */
  lemma QuotientNonNegative(x: real, n: real)
    requires x >= 0.0 && n > 0.0
    ensures x / n >= 0.0
  {
  }

  /** `r` is the mean of `n` values that add up to `sum`: taken `n` times,
      it gives the sum. */
  predicate IsMean(r: real, sum: real, n: nat) {
    r * n as real == sum
  }

  /** The mean of `n` values that add up to `sum`. */
  function Mean(sum: real, n: nat): (r: real)
    requires n > 0
    ensures IsMean(r, sum, n)
    ensures sum >= 0.0 ==> r >= 0.0
  {
    QuotientTimes(sum, n as real);
    sum / n as real
  }

  /** A quotient times its divisor gives back the dividend. */
  lemma QuotientTimes(a: real, b: real)
    requires b != 0.0
    ensures (a / b) * b == a
  {
  }

  /** A positive factor can be cancelled from both sides of `<=`. */
  lemma CancelFactor(x: real, y: real, n: real)
    requires n > 0.0 && x * n <= y * n
    ensures x <= y
  {
  }

  /** `m` as a percentage of `n`, and 0 when `n` is 0. */
  function Percent(m: nat, n: nat): (r: real)
    requires m <= n
    ensures n == 0 ==> r == 0.0
    ensures 0.0 <= r <= 100.0
    ensures n > 0 ==> r * (n as real) == (m as real) * 100.0
  {
    if n > 0 then
      RateBounds(m as real, n as real);
      (m as real / n as real) * 100.0
    else 0.0
  }

  lemma RateBounds(m: real, n: real)
    requires 0.0 <= m <= n && n > 0.0
    ensures 0.0 <= (m / n) * 100.0 <= 100.0
    ensures ((m / n) * 100.0) * n == m * 100.0
  {
    assert m / n <= 1.0;
  }

  /** The sum of a multiset's multiplicities over a duplicate-free list of
      keys that covers it is its size. */
  lemma {:induction false} MultiplicitiesSum<K>(keys: seq<K>, m: multiset<K>)
    requires NoDups(keys)
    requires forall x :: x in m ==> x in keys
    ensures SumInt((k: K) => m[k], keys) == |m|
  {
    if |keys| == 0 {
      assert m == multiset{} by {
        forall x ensures m[x] == 0 {
          assert x !in m;
        }
      }
    } else {
      var k0, rest := keys[0], keys[1..];
      var m' := m[k0 := 0];
      NoDupsTail(keys);
      assert forall x :: x in m' ==> x in rest by {
        forall x | x in m' ensures x in rest {
          assert x in keys && x != k0;
        }
      }
      MultiplicitiesSum(rest, m');
      assert forall x :: x in rest ==> x != k0;
      SumIntOver((k: K) => m[k], (k: K) => m'[k], rest);
      assert m == m' + multiset{}[k0 := m[k0]];
    }
  }

  /** An element of a flattened sequence comes from one of the parts. */
  lemma {:induction false} InFlatMap<T, U>(f: T -> seq<U>, s: seq<T>, y: U)
    ensures y in FlatMap(f, s) <==> exists x :: x in s && y in f(x)
  {
    if |s| > 0 {
      InFlatMap(f, s[1..], y);
      assert forall x :: x in s <==> x == s[0] || x in s[1..];
    }
  }

  /** Sums of functions that agree on the elements are equal. */
  lemma {:induction false} SumIntOver<T>(f: T -> int, g: T -> int, s: seq<T>)
    requires forall x :: x in s ==> f(x) == g(x)
    ensures SumInt(f, s) == SumInt(g, s)
  {
    if |s| > 0 {
      assert s[0] in s;
      SumIntOver(f, g, s[1..]);
    }
  }

  /** Filtering with a stronger predicate keeps a subsequence of what the
      weaker one keeps. */
  lemma {:induction false} FilterStronger<T(!new)>(p: T -> bool, q: T -> bool, s: seq<T>)
    requires forall x :: p(x) ==> q(x)
    ensures IsSubseq(Filter(p, s), Filter(q, s))
  {
    if |s| > 0 {
      FilterStronger(p, q, s[1..]);
      var a, b := Filter(p, s[1..]), Filter(q, s[1..]);
      if p(s[0]) {
        assert Filter(p, s) == [s[0]] + a && Filter(q, s) == [s[0]] + b;
        assert (Filter(p, s))[1..] == a && (Filter(q, s))[1..] == b;
      } else if q(s[0]) {
        assert Filter(q, s) == [s[0]] + b;
        assert (Filter(q, s))[1..] == b;
        SubseqSkip(a, b, s[0]);
      }
    }
  }

  /** A subsequence stays one when an element is put in front of the
      sequence. */
  lemma SubseqSkip<T>(r: seq<T>, s: seq<T>, x: T)
    requires IsSubseq(r, s)
    ensures IsSubseq(r, [x] + s)
  {
    assert ([x] + s)[1..] == s;
  }
}

=== FILE: sorting.dfy ===
/** `Array.prototype.sort`, which is stable, as used by the dashboard: with a
    numeric comparator `(a, b) => key(b) - key(a)` (descending by a key; an
    ascending sort is a descending one on the negated key), and with
    `localeCompare` on community codes, modelled as code-point lexicographic
    order. */
module Sorting {
  import opened Seqs

  /** Non-increasing by `key`. */
  predicate SortedDesc<T>(s: seq<T>, key: T -> real) {
    forall i, j :: 0 <= i < j < |s| ==> key(s[i]) >= key(s[j])
  }

  /** `x` placed before the first element whose key is at most its own. */
  function Insert<T(==,!new)>(x: T, s: seq<T>, key: T -> real): (r: seq<T>)
    ensures |r| == |s| + 1
    ensures multiset(r) == multiset(s) + multiset{x}
  {
    if |s| == 0 || key(s[0]) <= key(x) then [x] + s
    else
      assert s == [s[0]] + s[1..];
      [s[0]] + Insert(x, s[1..], key)
  }

  /** Inserting into a sorted sequence keeps it sorted. */
  lemma {:induction false} InsertSorted<T(!new)>(x: T, s: seq<T>, key: T -> real)
    requires SortedDesc(s, key)
    ensures SortedDesc(Insert(x, s, key), key)
  {
    if |s| > 0 && key(s[0]) > key(x) {
      var rest := Insert(x, s[1..], key);
      InsertSorted(x, s[1..], key);
      forall y | y in rest ensures key(s[0]) >= key(y) {
        assert y in multiset(rest);
        if y != x {
          assert y in multiset(s[1..]);
          var j :| 0 <= j < |s[1..]| && s[1..][j] == y;
          assert s[j + 1] == y;
        }
      }
      ConsSorted(s[0], rest, key);
    }
  }

  /** A head with a key at least every other key keeps a sorted sequence
      sorted. */
  lemma ConsSorted<T>(a: T, r: seq<T>, key: T -> real)
    requires SortedDesc(r, key)
    requires forall y :: y in r ==> key(a) >= key(y)
    ensures SortedDesc([a] + r, key)
  {
    var s := [a] + r;
    forall i, j | 0 <= i < j < |s| ensures key(s[i]) >= key(s[j]) {
      assert s[j] == r[j - 1];
      if i == 0 {
        assert r[j - 1] in r;
      } else {
        assert s[i] == r[i - 1];
      }
    }
  }

  /** The stable sort of `s` by non-increasing `key`. */
  function SortDesc<T(==,!new)>(s: seq<T>, key: T -> real): (r: seq<T>)
    ensures |r| == |s|
    ensures multiset(r) == multiset(s)
    ensures SortedDesc(r, key)
  {
    if |s| == 0 then []
    else
      assert s == [s[0]] + s[1..];
      InsertSorted(s[0], SortDesc(s[1..], key), key);
      Insert(s[0], SortDesc(s[1..], key), key)
  }

  /** The first `k` elements after a stable sort by descending key: the
      at most `k` elements with the highest keys, highest first. */
  function TopK<T(==,!new)>(s: seq<T>, key: T -> real, k: nat): (r: seq<T>)
    ensures |r| == if |s| < k then |s| else k
    ensures multiset(r) <= multiset(s)
    ensures forall x :: x in r ==> x in s
    ensures SortedDesc(r, key)
    ensures forall c, t :: c in multiset(s) - multiset(r) && t in r ==> key(t) >= key(c)
  {
    var sorted := SortDesc(s, key);
    var n := if |s| < k then |s| else k;
    TakeHighest(sorted, key, n);
    assert forall x :: x in sorted[..n] ==> x in multiset(s);
    sorted[..n]
  }

  /** Cutting a sorted sequence at `k` leaves the highest keys in front:
      nothing cut off has a key above anything kept. */
  lemma TakeHighest<T>(sorted: seq<T>, key: T -> real, k: nat)
    requires k <= |sorted| && SortedDesc(sorted, key)
    ensures SortedDesc(sorted[..k], key)
    ensures multiset(sorted[..k]) + multiset(sorted[k..]) == multiset(sorted)
    ensures forall c, t :: c in multiset(sorted[k..]) && t in sorted[..k] ==> key(t) >= key(c)
  {
    assert sorted == sorted[..k] + sorted[k..];
    forall c, t | c in multiset(sorted[k..]) && t in sorted[..k] ensures key(t) >= key(c) {
      var j :| 0 <= j < |sorted[k..]| && sorted[k..][j] == c;
      var i :| 0 <= i < k && sorted[..k][i] == t;
      assert sorted[k + j] == c && sorted[i] == t;
    }
  }

  /** The predicate "has key `v`", as a value that can be passed to `Filter`. */
  function KeyIs<T>(key: T -> real, v: real): T -> bool {
    x => key(x) == v
  }

  /** The elements of `s` whose key is `v`, in their order in `s`. */
  function WithKey<T(==,!new)>(s: seq<T>, key: T -> real, v: real): seq<T> {
    Filter(KeyIs(key, v), s)
  }

  lemma {:induction false} InsertStable<T(!new)>(x: T, s: seq<T>, key: T -> real, v: real)
    ensures WithKey(Insert(x, s, key), key, v)
         == (if key(x) == v then [x] else []) + WithKey(s, key, v)
    decreases |s|
  {
    if |s| == 0 || key(s[0]) <= key(x) {
      assert Insert(x, s, key) == [x] + s;
      FilterCons(KeyIs(key, v), x, s);
    } else {
      InsertStable(x, s[1..], key, v);
      InsertStableStep(x, s, key, v);
    }
  }

  /** The step of `InsertStable` where `x` goes after the head of `s`. */
  lemma InsertStableStep<T(!new)>(x: T, s: seq<T>, key: T -> real, v: real)
    requires |s| > 0 && key(s[0]) > key(x)
    requires WithKey(Insert(x, s[1..], key), key, v) == (if key(x) == v then [x] else []) + WithKey(s[1..], key, v)
    ensures WithKey(Insert(x, s, key), key, v) == (if key(x) == v then [x] else []) + WithKey(s, key, v)
  {
    InsertAfterHead(x, s, key);
    FilterSwap(KeyIs(key, v), s[0], s[1..], Insert(x, s[1..], key), if key(x) == v then [x] else []);
  }

  lemma InsertAfterHead<T(!new)>(x: T, s: seq<T>, key: T -> real)
    requires |s| > 0 && key(s[0]) > key(x)
    ensures s == [s[0]] + s[1..]
    ensures Insert(x, s, key) == [s[0]] + Insert(x, s[1..], key)
  {
  }

  /** A head that passes `p` commutes with a part `mid` that is then empty. */
  lemma FilterSwap<T(!new)>(p: T -> bool, a: T, t: seq<T>, rest: seq<T>, mid: seq<T>)
    requires Filter(p, rest) == mid + Filter(p, t)
    requires p(a) ==> mid == []
    ensures Filter(p, [a] + rest) == mid + Filter(p, [a] + t)
  {
    FilterCons(p, a, rest);
    FilterCons(p, a, t);
    SwapEmpty(if p(a) then [a] else [], mid, Filter(p, t));
  }

  /** Two pieces of which one is empty can be put in either order. */
  lemma SwapEmpty<T>(head: seq<T>, mid: seq<T>, tail: seq<T>)
    requires head == [] || mid == []
    ensures head + (mid + tail) == mid + (head + tail)
  {
    if head == [] {
      assert head + (mid + tail) == mid + tail;
    } else {
      assert mid + (head + tail) == head + tail;
    }
  }

  /** Stability: among elements with equal keys the sort keeps the input order. */
  lemma {:induction false} SortStable<T(!new)>(s: seq<T>, key: T -> real, v: real)
    ensures WithKey(SortDesc(s, key), key, v) == WithKey(s, key, v)
  {
    if |s| > 0 {
      SortStable(s[1..], key, v);
      InsertStable(s[0], SortDesc(s[1..], key), key, v);
    }
  }

  /** The sort keeps the sum of any quantity over its elements. */
  lemma SortSum<T(!new)>(s: seq<T>, key: T -> real, f: T -> int)
    ensures SumInt(f, SortDesc(s, key)) == SumInt(f, s)
  {
    SumIntPermutation(f, SortDesc(s, key), s);
  }

  /** Strict code-point lexicographic order on strings. */
  predicate StrLess(a: string, b: string)
    decreases |a|
  {
    |b| > 0 && (|a| == 0 || a[0] < b[0] || (a[0] == b[0] && StrLess(a[1..], b[1..])))
  }

  lemma {:induction false} StrLessIrreflexive(a: string)
    ensures !StrLess(a, a)
  {
    if |a| > 0 {
      StrLessIrreflexive(a[1..]);
    }
  }

  lemma {:induction false} StrLessTransitive(a: string, b: string, c: string)
    requires StrLess(a, b) && StrLess(b, c)
    ensures StrLess(a, c)
  {
    if |a| > 0 && a[0] == b[0] && b[0] == c[0] {
      StrLessTransitive(a[1..], b[1..], c[1..]);
    }
  }

  lemma {:induction false} StrLessTotal(a: string, b: string)
    requires a != b
    ensures StrLess(a, b) || StrLess(b, a)
  {
    if |a| > 0 && |b| > 0 && a[0] == b[0] {
      assert a == [a[0]] + a[1..] && b == [b[0]] + b[1..];
      StrLessTotal(a[1..], b[1..]);
    }
  }

  /** Strictly increasing in `StrLess`, hence also duplicate-free. */
  predicate StrictlyAscending(s: seq<string>) {
    forall i, j :: 0 <= i < j < |s| ==> StrLess(s[i], s[j])
  }

  /** `x` placed before the first element above it. */
  function InsertStr(x: string, s: seq<string>): (r: seq<string>)
    ensures |r| == |s| + 1
    ensures multiset(r) == multiset(s) + multiset{x}
  {
    if |s| == 0 || StrLess(x, s[0]) then [x] + s
    else
      assert s == [s[0]] + s[1..];
      [s[0]] + InsertStr(x, s[1..])
  }

  /** Inserting a new string into a strictly ascending sequence keeps it so. */
  lemma {:induction false} InsertStrSorted(x: string, s: seq<string>)
    requires StrictlyAscending(s) && x !in s
    ensures StrictlyAscending(InsertStr(x, s))
  {
    if |s| > 0 {
      if StrLess(x, s[0]) {
        forall y | y in s ensures StrLess(x, y) {
          var j :| 0 <= j < |s| && s[j] == y;
          if j > 0 {
            StrLessTransitive(x, s[0], y);
          }
        }
        ConsAscending(x, s);
      } else {
        StrLessTotal(x, s[0]);
        var rest := InsertStr(x, s[1..]);
        InsertStrSorted(x, s[1..]);
        forall y | y in rest ensures StrLess(s[0], y) {
          assert y in multiset(rest);
          if y != x {
            assert y in multiset(s[1..]);
            var j :| 0 <= j < |s[1..]| && s[1..][j] == y;
            assert s[j + 1] == y;
          }
        }
        ConsAscending(s[0], rest);
      }
    }
  }

  /** A head below every other string keeps a sequence strictly ascending. */
  lemma ConsAscending(a: string, r: seq<string>)
    requires StrictlyAscending(r)
    requires forall y :: y in r ==> StrLess(a, y)
    ensures StrictlyAscending([a] + r)
  {
    var s := [a] + r;
    forall i, j | 0 <= i < j < |s| ensures StrLess(s[i], s[j]) {
      assert s[j] == r[j - 1];
      if i == 0 {
        assert r[j - 1] in r;
      } else {
        assert s[i] == r[i - 1];
      }
    }
  }

  /** Distinct strings sorted into strictly ascending order. */
  function SortStrings(s: seq<string>): (r: seq<string>)
    requires NoDups(s)
    ensures multiset(r) == multiset(s)
    ensures StrictlyAscending(r)
  {
    if |s| == 0 then []
    else
      var rest := SortStrings(s[1..]);
      assert s == [s[0]] + s[1..];
      assert s[0] !in s[1..];
      assert s[0] !in multiset(rest);
      InsertStrSorted(s[0], rest);
      InsertStr(s[0], rest)
  }
}

=== FILE: strings.dfy ===
/** The JavaScript string operations the dashboard relies on: `trim`,
    `toLowerCase`, `includes`, `endsWith`, `split`, global literal
    `replace`, `padStart` and decimal rendering of numbers. */
module Strings {
  import opened Wrappers

  /** ECMAScript WhiteSpace and LineTerminator code points: what `trim` removes. */
  predicate IsWhitespace(c: char) {
    c == '\t' || c == '\n' || c == '\U{000B}' || c == '\U{000C}' || c == '\r' || c == ' '
    || c == '\U{00A0}' || c == '\U{1680}' || ('\U{2000}' <= c <= '\U{200A}')
    || c == '\U{2028}' || c == '\U{2029}' || c == '\U{202F}' || c == '\U{205F}'
    || c == '\U{3000}' || c == '\U{FEFF}'
  }

  /** The length of the longest prefix of `s` whose characters satisfy `p`. */
  function LeadCount(p: char -> bool, s: string): (r: nat)
    ensures r <= |s|
    ensures forall k :: 0 <= k < r ==> p(s[k])
    ensures r == |s| || !p(s[r])
  {
    if |s| > 0 && p(s[0]) then 1 + LeadCount(p, s[1..]) else 0
  }

  /** The length of the longest suffix of `s` whose characters satisfy `p`. */
  function TrailCount(p: char -> bool, s: string): (r: nat)
    ensures r <= |s|
    ensures forall k :: |s| - r <= k < |s| ==> p(s[k])
    ensures r == |s| || !p(s[|s| - r - 1])
  {
    if |s| > 0 && p(s[|s| - 1]) then 1 + TrailCount(p, s[..|s| - 1]) else 0
  }

  /** `s` with the characters satisfying `p` cut off both ends: the slice of
      `s` after its leading run, all cut characters satisfy `p`, and neither
      end of the rest does. */
  function Strip(p: char -> bool, s: string): (r: string)
    ensures LeadCount(p, s) + |r| <= |s| && r == s[LeadCount(p, s)..LeadCount(p, s) + |r|]
    ensures forall k :: LeadCount(p, s) + |r| <= k < |s| ==> p(s[k])
    ensures |r| == 0 || (!p(r[0]) && !p(r[|r| - 1]))
  {
    var a := LeadCount(p, s);
    var b := TrailCount(p, s[a..]);
    assert forall k :: a + (|s| - a - b) <= k < |s| ==> s[k] == s[a..][k - a];
    s[a..|s| - b]
  }

  /** `trimStart`. */
  function TrimStart(s: string): string {
    s[TrimOffset(s)..]
  }

  /** How many white-space characters `trim` cuts off the front of `s`. */
  function TrimOffset(s: string): nat {
    LeadCount(IsWhitespace, s)
  }

  /** `String.prototype.trim`: the slice of `s` left after cutting white space
      off both ends; what is cut off is white space only. */
  function Trim(s: string): (r: string)
    ensures TrimOffset(s) + |r| <= |s| && r == s[TrimOffset(s)..TrimOffset(s) + |r|]
    ensures forall k :: 0 <= k < TrimOffset(s) ==> IsWhitespace(s[k])
    ensures forall k :: TrimOffset(s) + |r| <= k < |s| ==> IsWhitespace(s[k])
    ensures |r| == 0 || (!IsWhitespace(r[0]) && !IsWhitespace(r[|r| - 1]))
  {
    Strip(IsWhitespace, s)
  }

  /** Trimming twice is the same as trimming once. */
  lemma TrimIdempotent(s: string)
    ensures Trim(Trim(s)) == Trim(s)
  {
    var r := Trim(s);
    if |r| > 0 {
      assert TrimOffset(r) == 0;
      assert TrailCount(IsWhitespace, r[0..]) == 0;
    }
  }

  /** `toLowerCase` on one character: ASCII letters only. */
  function LowerChar(c: char): (r: char)
    ensures 'A' <= c <= 'Z' ==> 'a' <= r <= 'z'
    ensures !('A' <= c <= 'Z') ==> r == c
  {
    if 'A' <= c <= 'Z' then (c as int + 32) as char else c
  }

  /** `toUpperCase` on one character: ASCII letters only. */
  function UpperChar(c: char): (r: char)
    ensures 'a' <= c <= 'z' ==> 'A' <= r <= 'Z'
    ensures !('a' <= c <= 'z') ==> r == c
  {
    if 'a' <= c <= 'z' then (c as int - 32) as char else c
  }

  function Lower(s: string): (r: string)
    ensures |r| == |s|
    ensures forall i :: 0 <= i < |s| ==> r[i] == LowerChar(s[i])
  {
    seq(|s|, i requires 0 <= i < |s| => LowerChar(s[i]))
  }

  /** Lower-casing twice is lower-casing once. */
  lemma LowerIdempotent(s: string)
    ensures Lower(Lower(s)) == Lower(s)
  {
    assert forall i :: 0 <= i < |s| ==> LowerChar(LowerChar(s[i])) == LowerChar(s[i]);
  }

  /** `t` occurs in `s` at position 0. */
  predicate StartsWith(s: string, t: string) {
    |t| <= |s| && s[..|t|] == t
  }

  /** `String.prototype.endsWith`. */
  predicate EndsWith(s: string, t: string) {
    |t| <= |s| && s[|s| - |t|..] == t
  }

  /** `String.prototype.includes`: `t` occurs somewhere in `s`. */
  predicate Contains(s: string, t: string)
    decreases |s|
  {
    StartsWith(s, t) || (|s| > 0 && Contains(s[1..], t))
  }

  /** The empty string occurs in every string. */
  lemma ContainsEmpty(s: string)
    ensures Contains(s, "")
  {
    assert StartsWith(s, "");
  }

  /** A string contains each of its characters. */
  lemma {:induction false} ContainsChar(s: string, c: char)
    ensures Contains(s, [c]) <==> c in s
    decreases |s|
  {
    if |s| > 0 {
      ContainsChar(s[1..], c);
      assert c in s <==> s[0] == c || c in s[1..];
    }
  }

  /** `s.split(c)` for a single separator, generalised to any set of separators:
      the maximal separator-free pieces between separators. */
  function Split(s: string, seps: set<char>): (r: seq<string>)
    ensures |r| >= 1
    ensures forall k :: 0 <= k < |r| ==> forall c :: c in r[k] ==> c !in seps
  {
    if |s| == 0 then [""]
    else
      var rest := Split(s[1..], seps);
      if s[0] in seps then [""] + rest
      else [[s[0]] + rest[0]] + rest[1..]
  }

  /** The pieces joined with `sep` between them (`Array.prototype.join`). */
  function Join(parts: seq<string>, sep: char): string
    requires |parts| >= 1
  {
    if |parts| == 1 then parts[0] else parts[0] + [sep] + Join(parts[1..], sep)
  }

  /** Splitting on one character and joining with it again gives back the string. */
  lemma {:induction false} SplitJoin(s: string, c: char)
    ensures Join(Split(s, {c}), c) == s
  {
    if |s| > 0 {
      var rest := Split(s[1..], {c});
      SplitJoin(s[1..], c);
      if s[0] == c {
        assert Split(s, {c}) == [""] + rest;
        assert ([""] + rest)[1..] == rest;
      } else {
        var r := [[s[0]] + rest[0]] + rest[1..];
        assert Split(s, {c}) == r;
        if |rest| == 1 {
          assert Join(r, c) == [s[0]] + rest[0];
        } else {
          assert r[1..] == rest[1..];
          assert Join(rest, c) == rest[0] + [c] + Join(rest[1..], c);
        }
      }
    }
  }

  /** A string without separators is its own single piece. */
  lemma {:induction false} SplitNoSeparator(s: string, seps: set<char>)
    requires forall c :: c in s ==> c !in seps
    ensures Split(s, seps) == [s]
  {
    if |s| > 0 {
      SplitNoSeparator(s[1..], seps);
      assert [s[0]] + s[1..] == s;
    }
  }

  /** Splitting `a + [c] + b`, where `c` is a separator and `a` holds none,
      gives `a` first. */
  lemma {:induction false} SplitAtFirst(a: string, c: char, b: string, seps: set<char>)
    requires c in seps
    requires forall x :: x in a ==> x !in seps
    ensures Split(a + [c] + b, seps) == [a] + Split(b, seps)
  {
    if |a| == 0 {
      assert a + [c] + b == [c] + b;
      assert ([c] + b)[1..] == b;
    } else {
      assert (a + [c] + b)[1..] == a[1..] + [c] + b;
      SplitAtFirst(a[1..], c, b, seps);
      assert [a[0]] + a[1..] == a;
    }
  }

  /** Three separator-free pieces joined by a separator split back apart. */
  lemma SplitThree(a: string, b: string, c: string, sep: char)
    requires sep !in a && sep !in b && sep !in c
    ensures Split(a + [sep] + b + [sep] + c, {sep}) == [a, b, c]
  {
    assert a + [sep] + b + [sep] + c == a + [sep] + (b + [sep] + c);
    SplitAtFirst(a, sep, b + [sep] + c, {sep});
    SplitAtFirst(b, sep, c, {sep});
    SplitNoSeparator(c, {sep});
  }

  /** Every character of `s` in `from` replaced by `to`
      (`s.replace(/[...]/g, to)` with a character class). */
  function ReplaceChars(s: string, from: set<char>, to: char): (r: string)
    ensures |r| == |s|
    ensures forall i :: 0 <= i < |s| ==> r[i] == if s[i] in from then to else s[i]
  {
    seq(|s|, i requires 0 <= i < |s| => if s[i] in from then to else s[i])
  }

  /** Replacing a class of characters by `c` and splitting on `c` is splitting
      on the class and `c` together. */
  lemma {:induction false} SplitReplaced(s: string, from: set<char>, c: char)
    ensures Split(ReplaceChars(s, from, c), {c}) == Split(s, from + {c})
    decreases |s|
  {
    if |s| > 0 {
      SplitReplaced(s[1..], from, c);
      assert ReplaceChars(s, from, c)[1..] == ReplaceChars(s[1..], from, c);
    }
  }

  /** The pieces joined with the string `sep` between them. */
  function JoinWith(parts: seq<string>, sep: string): string
    requires |parts| >= 1
  {
    if |parts| == 1 then parts[0] else parts[0] + sep + JoinWith(parts[1..], sep)
  }

  /** `s.split(pat)` for a non-empty literal pattern: the text between the
      non-overlapping occurrences of `pat`, found from left to right. */
  function SplitOn(s: string, pat: string): (r: seq<string>)
    requires |pat| > 0
    ensures |r| >= 1
    decreases |s|
  {
    if |s| < |pat| then [s]
    else if s[..|pat|] == pat then [""] + SplitOn(s[|pat|..], pat)
    else
      var rest := SplitOn(s[1..], pat);
      [[s[0]] + rest[0]] + rest[1..]
  }

  /** `s.replace(/pat/g, rep)` for a pattern without regular-expression
      metacharacters: each non-overlapping occurrence, found from left to
      right, is replaced by `rep`, and the replacement is not rescanned. */
  function ReplaceAll(s: string, pat: string, rep: string): string
    requires |pat| > 0
    decreases |s|
  {
    if |s| < |pat| then s
    else if s[..|pat|] == pat then rep + ReplaceAll(s[|pat|..], pat, rep)
    else [s[0]] + ReplaceAll(s[1..], pat, rep)
  }

  /** Splitting on a pattern finds occurrences only: joining the pieces with
      the pattern gives back the original string. */
  lemma {:induction false} SplitOnJoin(s: string, pat: string)
    requires |pat| > 0
    ensures JoinWith(SplitOn(s, pat), pat) == s
    decreases |s|
  {
    if |s| >= |pat| {
      if s[..|pat|] == pat {
        var rest := SplitOn(s[|pat|..], pat);
        SplitOnJoin(s[|pat|..], pat);
        assert SplitOn(s, pat) == [""] + rest;
        assert ([""] + rest)[1..] == rest;
        assert s == pat + s[|pat|..];
      } else {
        var rest := SplitOn(s[1..], pat);
        SplitOnJoin(s[1..], pat);
        assert SplitOn(s, pat) == [[s[0]] + rest[0]] + rest[1..];
        JoinWithCons(s[0], rest, pat);
        assert s == [s[0]] + s[1..];
      }
    }
  }

  /** Gluing a character onto the first piece glues it onto the joined string. */
  lemma JoinWithCons(c: char, rest: seq<string>, sep: string)
    requires |rest| >= 1
    ensures JoinWith([[c] + rest[0]] + rest[1..], sep) == [c] + JoinWith(rest, sep)
  {
    var r := [[c] + rest[0]] + rest[1..];
    if |rest| > 1 {
      assert r[1..] == rest[1..];
    }
  }

  /** Replacing every occurrence is splitting on the pattern and joining with
      the replacement: every occurrence `SplitOn` finds is replaced, and
      nothing else changes. */
  lemma {:induction false} ReplaceAllIsSplitJoin(s: string, pat: string, rep: string)
    requires |pat| > 0
    ensures ReplaceAll(s, pat, rep) == JoinWith(SplitOn(s, pat), rep)
    decreases |s|
  {
    if |s| >= |pat| {
      if s[..|pat|] == pat {
        var rest := SplitOn(s[|pat|..], pat);
        ReplaceAllIsSplitJoin(s[|pat|..], pat, rep);
        assert SplitOn(s, pat) == [""] + rest;
        assert ([""] + rest)[1..] == rest;
      } else {
        var rest := SplitOn(s[1..], pat);
        ReplaceAllIsSplitJoin(s[1..], pat, rep);
        assert SplitOn(s, pat) == [[s[0]] + rest[0]] + rest[1..];
        JoinWithCons(s[0], rest, rep);
      }
    }
  }

  /** Text in which the pattern does not occur is returned unchanged. */
  lemma {:induction false} ReplaceAllAbsent(s: string, pat: string, rep: string)
    requires |pat| > 0
    requires !Contains(s, pat)
    ensures ReplaceAll(s, pat, rep) == s
    decreases |s|
  {
    if |s| >= |pat| {
      ReplaceAllAbsent(s[1..], pat, rep);
      assert [s[0]] + s[1..] == s;
    }
  }

  /** The first character upper-cased, the rest unchanged
      (`w.charAt(0).toUpperCase() + w.slice(1)`). */
  function Capitalize(w: string): (r: string)
    ensures |r| == |w|
    ensures |w| > 0 ==> r[0] == UpperChar(w[0]) && r[1..] == w[1..]
  {
    if |w| == 0 then "" else [UpperChar(w[0])] + w[1..]
  }

  predicate IsDigit(c: char) {
    '0' <= c <= '9'
  }

  /** A non-empty run of decimal digits (`/^\d+$/`). */
  predicate IsDigits(s: string) {
    |s| > 0 && forall i :: 0 <= i < |s| ==> IsDigit(s[i])
  }

  /** The decimal value of a string of digits. */
  function DigitsValue(s: string): nat
    requires forall i :: 0 <= i < |s| ==> IsDigit(s[i])
  {
    if |s| == 0 then 0
    else
      assert IsDigit(s[|s| - 1]);
      10 * DigitsValue(s[..|s| - 1]) + (s[|s| - 1] as int - '0' as int)
  }

  function DigitChar(d: nat): (c: char)
    requires d < 10
    ensures IsDigit(c) && c as int - '0' as int == d
  {
    ('0' as int + d) as char
  }

  /** `String(n)` for a natural number: its shortest decimal rendering. */
  function NatToString(n: nat): (r: string)
    ensures IsDigits(r)
    ensures |r| == 1 || r[0] != '0'
    ensures DigitsValue(r) == n
  {
    if n < 10 then [DigitChar(n)]
    else
      var r := NatToString(n / 10) + [DigitChar(n % 10)];
      assert r[..|r| - 1] == NatToString(n / 10);
      r
  }

  /** `String(i)` for an integer: a minus sign before negative values. */
  function IntToString(i: int): (r: string)
    ensures i >= 0 ==> r == NatToString(i)
    ensures i < 0 ==> r == "-" + NatToString(-i)
  {
    if i >= 0 then NatToString(i) else "-" + NatToString(-i)
  }

  /** `s.padStart(width, '0')`. */
  function PadStart(s: string, width: nat): (r: string)
    ensures |r| == if |s| >= width then |s| else width
    ensures r == Zeros(|r| - |s|) + s
  {
    if |s| >= width then (assert Zeros(0) + s == s; s) else Zeros(width - |s|) + s
  }

  function Zeros(n: nat): (r: string)
    ensures |r| == n && forall i :: 0 <= i < n ==> r[i] == '0'
  {
    seq(n, i => '0')
  }

  /** Leading zeros do not change a decimal value. */
  lemma {:induction false} LeadingZeros(n: nat, s: string)
    requires forall i :: 0 <= i < |s| ==> IsDigit(s[i])
    ensures DigitsValue(Zeros(n) + s) == DigitsValue(s)
    decreases |s|
  {
    if |s| == 0 {
      ZerosValue(n);
      assert Zeros(n) + s == Zeros(n);
    } else {
      LeadingZeros(n, s[..|s| - 1]);
      assert (Zeros(n) + s)[..|Zeros(n) + s| - 1] == Zeros(n) + s[..|s| - 1];
    }
  }

  lemma {:induction false} ZerosValue(n: nat)
    ensures DigitsValue(Zeros(n)) == 0
  {
    if n > 0 {
      ZerosValue(n - 1);
      assert Zeros(n)[..n - 1] == Zeros(n - 1);
    }
  }

  /** The longest prefix of `s` made of decimal digits. */
  function DigitPrefix(s: string): (r: string)
    ensures |r| <= |s| && r == s[..|r|]
    ensures forall i :: 0 <= i < |r| ==> IsDigit(r[i])
    ensures |r| == |s| || !IsDigit(s[|r|])
  {
    if |s| == 0 || !IsDigit(s[0]) then ""
    else [s[0]] + DigitPrefix(s[1..])
  }

  /** `parseInt(s, 10)`: leading white space skipped, an optional sign, then
      the longest run of digits; `None` (NaN) when no digit follows. */
  function ParseInt(s: string): Option<int> {
    var t := TrimStart(s);
    var d := DigitPrefix(Unsigned(t));
    var v: int := if |d| == 0 then 0 else DigitsValue(d);
    if |d| == 0 then None
    else if |t| > 0 && t[0] == '-' then Some(-v)
    else Some(v)
  }

  /** `s` without a leading sign character. */
  function Unsigned(s: string): string {
    if |s| > 0 && (s[0] == '-' || s[0] == '+') then s[1..] else s
  }

  /** On a plain run of digits `parseInt` yields its decimal value. */
  lemma ParseIntDigits(s: string)
    requires IsDigits(s)
    ensures ParseInt(s) == Some(DigitsValue(s))
  {
    assert !IsWhitespace(s[0]);
    assert TrimStart(s) == s;
    DigitPrefixAll(s);
  }

  lemma {:induction false} DigitPrefixAll(s: string)
    requires forall i :: 0 <= i < |s| ==> IsDigit(s[i])
    ensures DigitPrefix(s) == s
  {
    if |s| > 0 {
      DigitPrefixAll(s[1..]);
    }
  }

  /** `parseInt` reads back what `String(n)` writes, leading zeros or not. */
  lemma ParseIntPadded(n: nat, width: nat)
    ensures ParseInt(PadStart(NatToString(n), width)) == Some(n)
  {
    var s := NatToString(n);
    var r := PadStart(s, width);
    LeadingZeros(|r| - |s|, s);
    assert r[0] == '0' || r[0] == s[0];
    ParseIntDigits(r);
  }
}

=== FILE: tabnavigation.dfy ===
/** The tab bar of components/TabNavigation.tsx: a fixed table of tabs, each
    listing the role names allowed to see it, filtered by the role name of
    the signed-in user. */
module TabNavigation {
  import opened Wrappers
  import opened Seqs
  import opened Model

  datatype Tab = Dashboard | Participants | Management | Codes | Email
               | Membership | Events | Reporting | Audits | Admin

  datatype TabEntry = TabEntry(id: Tab, roles: seq<Role>)

  const Everyone: seq<Role> := [SuperAdmin, CommunityAdmin, Viewer]
  const Admins: seq<Role> := [SuperAdmin, CommunityAdmin]
  const SuperOnly: seq<Role> := [SuperAdmin]

  /** The table in display order. */
  const Tabs: seq<TabEntry> := [
    TabEntry(Dashboard, Everyone),
    TabEntry(Participants, Everyone),
    TabEntry(Management, Admins),
    TabEntry(Codes, SuperOnly),
    TabEntry(Email, Admins),
    TabEntry(Membership, Admins),
    TabEntry(Events, Admins),
    TabEntry(Reporting, Admins),
    TabEntry(Audits, Admins),
    TabEntry(Admin, SuperOnly)
  ]

  /** The role App.tsx hands the tab bar, `userProfile?.role || 'viewer'`:
      the profile's role, or a viewer when there is no profile or its role
      text is empty. */
  function TabRole(profile: Option<UserProfile>): Role {
    if profile.None? || profile.value.role == Unrecognised("") then Viewer else profile.value.role
  }

  /** `tabs.filter(t => t.roles.includes(role))` mapped to the tab ids,
      from position `i` of the table on. */
  function ShownFrom(table: seq<TabEntry>, role: Role, i: nat): seq<Tab>
    decreases |table| - i
  {
    if i >= |table| then []
    else (if role in table[i].roles then [table[i].id] else []) + ShownFrom(table, role, i + 1)
  }

  /** The tabs shown to a user with role `role`, in table order. */
  function VisibleTabs(role: Role): seq<Tab> {
    ShownFrom(Tabs, role, 0)
  }

  /** Which roles may open each tab, stated tab by tab. */
  predicate MayOpen(role: Role, t: Tab) {
    match t
    case Codes => role == SuperAdmin
    case Admin => role == SuperAdmin
    case Dashboard => role == SuperAdmin || role == CommunityAdmin || role == Viewer
    case Participants => role == SuperAdmin || role == CommunityAdmin || role == Viewer
    case _ => role == SuperAdmin || role == CommunityAdmin
  }

  /** The table agrees with the tab-by-tab permissions. */
  lemma TableMatchesPermissions(role: Role)
    ensures forall i :: 0 <= i < |Tabs| ==> (role in Tabs[i].roles <==> MayOpen(role, Tabs[i].id))
  {
  }

  /** A tab is listed from position `i` on exactly when some entry from
      there on has its id and lists the role. */
  lemma {:induction false} ShownFromSpec(table: seq<TabEntry>, role: Role, i: nat, t: Tab)
    ensures t in ShownFrom(table, role, i)
        <==> exists j :: i <= j < |table| && table[j].id == t && role in table[j].roles
    decreases |table| - i
  {
    if i < |table| {
      ShownFromSpec(table, role, i + 1, t);
      if t in ShownFrom(table, role, i) && !(role in table[i].roles && table[i].id == t) {
        assert t in ShownFrom(table, role, i + 1);
      }
    }
  }

  /** The position of tab `t` in the table. */
  function TabIndex(t: Tab): (j: nat)
    ensures j < |Tabs| && Tabs[j].id == t
  {
    match t
    case Dashboard => 0
    case Participants => 1
    case Management => 2
    case Codes => 3
    case Email => 4
    case Membership => 5
    case Events => 6
    case Reporting => 7
    case Audits => 8
    case Admin => 9
  }

  /** A tab is shown exactly when the role may open it. */
  lemma VisibleIffAllowed(role: Role, t: Tab)
    ensures t in VisibleTabs(role) <==> MayOpen(role, t)
  {
    TableMatchesPermissions(role);
    ShownFromSpec(Tabs, role, 0, t);
    if MayOpen(role, t) {
      var j := TabIndex(t);
      assert role in Tabs[j].roles;
    }
  }

  /** A stored role text other than the three known names sees no tab. */
  lemma UnknownRoleSeesNothing(text: string)
    requires text !in KnownRoleNames
    ensures VisibleTabs(RoleOf(text)) == []
  {
    var role := RoleOf(text);
    if VisibleTabs(role) != [] {
      var t := VisibleTabs(role)[0];
      VisibleIffAllowed(role, t);
    }
  }

  /** The code managers and the admin panel are for super administrators
      only. */
  lemma AdminTabsForSuperAdmins(role: Role)
    ensures Codes in VisibleTabs(role) || Admin in VisibleTabs(role) ==> role == SuperAdmin
  {
    VisibleIffAllowed(role, Codes);
    VisibleIffAllowed(role, Admin);
  }

  /** Which of the three role lists name each known role. */
  lemma RoleLists()
    ensures SuperAdmin in Everyone && SuperAdmin in Admins && SuperAdmin in SuperOnly
    ensures CommunityAdmin in Everyone && CommunityAdmin in Admins && CommunityAdmin !in SuperOnly
    ensures Viewer in Everyone && Viewer !in Admins && Viewer !in SuperOnly
  {
    assert Everyone[0] == SuperAdmin && Everyone[1] == CommunityAdmin && Everyone[2] == Viewer;
    assert Admins[0] == SuperAdmin && Admins[1] == CommunityAdmin;
    assert SuperOnly[0] == SuperAdmin;
  }

  /** Viewers see two tabs. */
  lemma ViewerTabs()
    ensures VisibleTabs(Viewer) == [Dashboard, Participants]
  {
    RoleLists();
    assert ShownFrom(Tabs, Viewer, 10) == [];
    assert ShownFrom(Tabs, Viewer, 9) == [];
    assert ShownFrom(Tabs, Viewer, 8) == [];
    assert ShownFrom(Tabs, Viewer, 7) == [];
    assert ShownFrom(Tabs, Viewer, 6) == [];
    assert ShownFrom(Tabs, Viewer, 5) == [];
    assert ShownFrom(Tabs, Viewer, 4) == [];
    assert ShownFrom(Tabs, Viewer, 3) == [];
    assert ShownFrom(Tabs, Viewer, 2) == [];
    assert ShownFrom(Tabs, Viewer, 1) == [Participants];
    assert ShownFrom(Tabs, Viewer, 0) == [Dashboard, Participants];
  }

  /** Community administrators see every tab but the two for super
      administrators. */
  lemma CommunityAdminTabs()
    ensures VisibleTabs(CommunityAdmin) == [Dashboard, Participants, Management, Email, Membership, Events, Reporting, Audits]
  {
    ShownToCommunityAdmins(CommunityAdmin);
  }

  /** The same, with the role passed in so that the table is unfolded one
      step at a time. */
  lemma ShownToCommunityAdmins(role: Role)
    requires role == CommunityAdmin
    ensures ShownFrom(Tabs, role, 0) == [Dashboard, Participants, Management, Email, Membership, Events, Reporting, Audits]
  {
    assert ShownFrom(Tabs, role, 10) == [];
    assert ShownFrom(Tabs, role, 9) == [] by { RoleLists(); }
    assert ShownFrom(Tabs, role, 8) == [Audits] by { RoleLists(); }
    assert ShownFrom(Tabs, role, 7) == [Reporting, Audits] by { RoleLists(); }
    assert ShownFrom(Tabs, role, 6) == [Events, Reporting, Audits] by { RoleLists(); }
    assert ShownFrom(Tabs, role, 5) == [Membership, Events, Reporting, Audits] by { RoleLists(); }
    assert ShownFrom(Tabs, role, 4) == [Email, Membership, Events, Reporting, Audits] by { RoleLists(); }
    assert ShownFrom(Tabs, role, 3) == [Email, Membership, Events, Reporting, Audits] by { RoleLists(); }
    assert ShownFrom(Tabs, role, 2) == [Management, Email, Membership, Events, Reporting, Audits] by { RoleLists(); }
    assert ShownFrom(Tabs, role, 1) == [Participants, Management, Email, Membership, Events, Reporting, Audits] by { RoleLists(); }
    RoleLists();
  }

  /** Super administrators see all ten tabs in table order. */
  lemma SuperAdminTabs()
    ensures VisibleTabs(SuperAdmin) == [Dashboard, Participants, Management, Codes, Email, Membership, Events, Reporting, Audits, Admin]
  {
    RoleLists();
    assert ShownFrom(Tabs, SuperAdmin, 10) == [];
    assert ShownFrom(Tabs, SuperAdmin, 9) == [Admin];
    assert ShownFrom(Tabs, SuperAdmin, 8) == [Audits, Admin];
    assert ShownFrom(Tabs, SuperAdmin, 7) == [Reporting, Audits, Admin];
    assert ShownFrom(Tabs, SuperAdmin, 6) == [Events, Reporting, Audits, Admin];
    assert ShownFrom(Tabs, SuperAdmin, 5) == [Membership, Events, Reporting, Audits, Admin];
    assert ShownFrom(Tabs, SuperAdmin, 4) == [Email, Membership, Events, Reporting, Audits, Admin];
    assert ShownFrom(Tabs, SuperAdmin, 3) == [Codes, Email, Membership, Events, Reporting, Audits, Admin];
    assert ShownFrom(Tabs, SuperAdmin, 2) == [Management, Codes, Email, Membership, Events, Reporting, Audits, Admin];
    assert ShownFrom(Tabs, SuperAdmin, 1) == [Participants, Management, Codes, Email, Membership, Events, Reporting, Audits, Admin];
    assert ShownFrom(Tabs, SuperAdmin, 0) == [Dashboard, Participants, Management, Codes, Email, Membership, Events, Reporting, Audits, Admin];
  }
}

=== FILE: timeline.dfy ===
/** Developers ordered by enrolment time and counted by UTC calendar day, as
    the growth charts of components/CommunityReport.tsx and
    components/MembershipDashboard.tsx use them. A chart's date label is the
    `YYYY-MM-DD` prefix of `toISOString()`, which names the UTC day; the
    model keys entries by the UTC day number instead (distinct days have
    distinct labels). */
module Timeline {
  import opened Seqs
  import opened Sorting
  import opened Calendar
  import opened Model

  /** Non-decreasing enrolment times. */
  predicate EnrolledAscending(s: seq<Developer>) {
    forall i, j :: 0 <= i < j < |s| ==> s[i].enrollmentDate <= s[j].enrollmentDate
  }

  /** The comparator `a - b` on enrolment times is a descending sort on the
      negated time. */
  function NegatedEnrollment(): Developer -> real {
    (d: Developer) => -(d.enrollmentDate as real)
  }

  /** The stable sort by ascending enrolment time. */
  function SortByEnrollment(s: seq<Developer>): (r: seq<Developer>)
    ensures |r| == |s|
    ensures multiset(r) == multiset(s)
    ensures EnrolledAscending(r)
  {
    var r := SortDesc(s, NegatedEnrollment());
    assert forall i, j :: 0 <= i < j < |r| ==> NegatedEnrollment()(r[i]) >= NegatedEnrollment()(r[j]);
    r
  }

  /** The UTC day of an enrolment. */
  function EnrollmentDay(d: Developer): int {
    Day(d.enrollmentDate)
  }

  /** The days on which some developer of `s` enrolled. */
  function EnrollmentDays(s: seq<Developer>): set<int> {
    set d | d in s :: EnrollmentDay(d)
  }

  /** The predicate "enrolled on UTC day `day` or earlier". */
  function EnrolledBy(day: int): Developer -> bool {
    (d: Developer) => EnrollmentDay(d) <= day
  }

  /** Later times fall on the same or a later day. */
  lemma DayMonotone(a: int, b: int)
    requires a <= b
    ensures Day(a) <= Day(b)
  {
  }

  /** In an ascending sequence every enrolment day is at most the last one. */
  lemma LastDayIsLatest(s: seq<Developer>)
    requires EnrolledAscending(s) && |s| > 0
    ensures forall d :: d in s ==> EnrollmentDay(d) <= EnrollmentDay(s[|s| - 1])
  {
    forall d | d in s ensures EnrollmentDay(d) <= EnrollmentDay(s[|s| - 1]) {
      var i :| 0 <= i < |s| && s[i] == d;
      DayMonotone(d.enrollmentDate, s[|s| - 1].enrollmentDate);
    }
  }

  /** Appending one developer to `s` adds it to the count of each day on or
      after its own. */
  lemma CountEnrolledByAppend(s: seq<Developer>, d: Developer, day: int)
    ensures Count(EnrolledBy(day), s + [d])
         == Count(EnrolledBy(day), s) + (if EnrollmentDay(d) <= day then 1 else 0)
  {
    FilterAppend(EnrolledBy(day), s, [d]);
  }

  /** When every developer enrolled by `day`, all are counted. */
  lemma CountEnrolledByAll(s: seq<Developer>, day: int)
    requires forall d :: d in s ==> EnrollmentDay(d) <= day
    ensures Count(EnrolledBy(day), s) == |s|
  {
    FilterAll(EnrolledBy(day), s);
  }
}

=== FILE: wrappers.dfy ===
/** Optional values and results with an error, used wherever the dashboard
    meets `null`, `undefined` or a thrown error. */
module Wrappers {

  /** A value that may be absent (JavaScript `null` / `undefined`). */
  datatype Option<+T> = None | Some(value: T) {

    /** The carried value, or `default` when absent. */
    function GetOr(default: T): T {
      match this
      case Some(v) => v
      case None => default
    }
  }

  /** The outcome of an operation that can fail with an error value. */
  datatype Result<+R, +E> = Success(value: R) | Failure(error: E) {

    predicate IsFailure() {
      Failure?
    }

    function PropagateFailure<U>(): Result<U, E>
      requires Failure?
    {
      Failure(error)
    }

    function Extract(): R
      requires Success?
    {
      value
    }
  }
}
